=== FILE: README.md ===
# ShieldX security checks, modelled in Dafny

This project models the rule layers of ShieldX, a set of host-security tools:

- **The C network collector** (`misconfig/collectors/c`):
  - the argument loop of its entry point;
  - the JSON document it prints;
  - the port tables and port-risk rule;
  - the suspicious-connection rule;
  - the `netsh` firewall-output parser;
  - the findings list it builds.
- **The Rust analysis engine** (`services/misconfig/engine`, with the record types and reporter under `misconfig/engine`):
  - severity-tagged findings and per-severity counters;
  - the threshold rules and recommendations;
  - the risk index and posture bands;
  - which argument names the collector document;
  - what the console reporter selects and groups.
- **The older misconfiguration core** (`services/misconfig/core`): five probe-document rules with a capped score.
- **The probe shim** (`services/misconfig/c_engine`): it wraps PowerShell output in a one-member JSON object.
- **The phishing URL checker** (`services/phishing`):
  - host-name heuristics;
  - domain structure and DNS rules;
  - brand look-alike detection;
  - page-content analysis;
  - verdict bands;
  - the overall check and its text report.

One Dafny module models each source file. Shared helpers are modules of their own:
- `Wrappers` (`Option`);
- `Text` (split, join, containment, lower-casing, decimal rendering);
- `Seqs` (counting and filtering);
- `JsonString` (a reader for JSON string literals, used to state what a JSON consumer gets back);
- `PhishingScored` (the weighted hit lists the phishing scorers accumulate).

Everything the programs obtain from the operating system, the network or a library enters as a parameter or an input record. This covers:
- Win32 adapter and TCP tables, and process names;
- `netsh` output;
- DNS answers, HTTP fetches and TLS checks;
- URL parsing and HTML tokenising;
- Unicode normalisation, `SequenceMatcher` ratios and Shannon entropy.

Each scorer is given a partner:
- a reference definition built from per-rule hit lists;
- "exactly when" lemmas in both directions;
- inverse readers, for the JSON the collector and the shim print.

## Model

| member | source | states |
|---|---|---|
| Collector.ParseFrom | misconfig/collectors/c/main.c:118-132 | parsing stops with help only if a help flag occurs; every option in the result is either the incoming one or the argument right after a matching flag |
| Collector.NoFlagsKeepDefaults | misconfig/collectors/c/main.c:113-132 | without help and value-taking flags, parsing proceeds and leaves every option except verbosity at its starting value |
| Collector.ParseAppend | misconfig/collectors/c/main.c:118-132 | arguments appended to a command line that ends on an argument boundary are parsed afresh from the options the earlier arguments produced |
| Collector.HelpPersists | misconfig/collectors/c/main.c:128-131 | once the loop meets a help flag, no argument appended after it changes the outcome |
| Collector.HelpStops | misconfig/collectors/c/main.c:128-131 | a help flag reached by the loop shows the usage text, whatever follows it |
| Collector.TrailingFlagIgnored | misconfig/collectors/c/main.c:120-125 | for every command line ending on an argument boundary, a value-taking flag appended as the last argument changes nothing |
| Collector.LaterFlagWins | misconfig/collectors/c/main.c:120-125 | the last occurrence of `-c`, `-m` or `-o` wins: appending a flag and a value sets that option to the value, even a flag-like value, and keeps the other options |
| Collector.ObjectListIsJoin | misconfig/collectors/c/main.c:66-78 | the printing loop writes the objects joined by a comma and a newline, with a newline after the last and no trailing comma |
| Collector.ObjectListShape | misconfig/collectors/c/main.c:82-95 | an empty list prints nothing between the brackets; a non-empty one prints the comma-joined objects |
| Collector.StringMemberReadsBack | misconfig/collectors/c/main.c:69-74 | a JSON reader gets back a string field that needs no escaping, and then resumes right after its closing quote |
| Collector.QuoteInFieldTruncates | misconfig/collectors/c/main.c:69-74 | a field holding a double quote comes back cut at that quote, because the writer does not escape it |
| Collector.NumberMemberReadsBack | misconfig/collectors/c/main.c:99-102 | the decimal digits printed for a count parse back to the same number |
| Collector.RunNetworkModule | misconfig/collectors/c/main.c:50-110 | the printed document is the one for the result the scan assembles from the host's reports |
| Collector.RunCollector | misconfig/collectors/c/main.c:112-189 | exit 0 means help was shown or the network scan ran and wrote its document, which is the document of the scan result; 1 means the output file could not be opened (no usage text) or the module is unknown (usage text, no document); usage text never follows a written document; the `-o` file is created or truncated whenever it opens, even when the module then turns out to be unknown |
| NetworkScanner.FindService | misconfig/collectors/c/network/scanner.c:88-95 | the lookup finds an entry for the port, or reports none exactly when no entry has that port |
| NetworkScanner.ServiceMapPortsDistinct | misconfig/collectors/c/network/scanner.c:38-61 | the service table lists its ports in strictly increasing order, so no port has two entries |
| NetworkScanner.ServiceName | misconfig/collectors/c/network/scanner.c:88-95 | a mapped port gets its table label; any other port gets "unknown" |
| NetworkScanner.RequiresEncryption | misconfig/collectors/c/network/scanner.c:98-105 | a mapped port gets its table flag; any other port gets false |
| NetworkScanner.EncryptedEntries | misconfig/collectors/c/network/scanner.c:38-61 | a table entry is marked encrypted exactly when its port is 22, 443, 465, 993, 995, 3389 or 8443 |
| NetworkScanner.PlaintextEntries | misconfig/collectors/c/network/scanner.c:38-61 | the entries labelled http, ftp, telnet or smtp are exactly those for ports 21, 23, 25 and 80 |
| NetworkScanner.EncryptedPortsExactly | misconfig/collectors/c/network/scanner.c:98-105 | the encryption flag holds for exactly those seven ports |
| NetworkScanner.ListedPortAlwaysRisky | misconfig/collectors/c/network/scanner.c:399-413 | a port on the risky list is rated high, whatever its binding and service |
| NetworkScanner.PlaintextServicePorts | misconfig/collectors/c/network/scanner.c:88-95 | the service name is one of the four plaintext protocols exactly for ports 21, 23, 25 and 80 |
| NetworkScanner.ListenerRiskClosedForm | misconfig/collectors/c/network/scanner.c:240-247 | for a scanned port, the label is high for a listed port or for port 25 or 80 bound to 0.0.0.0; otherwise medium on 0.0.0.0 and low elsewhere |
| NetworkScanner.ListenerInfo | misconfig/collectors/c/network/scanner.c:215-249 | a listening row keeps its port and binding; it is marked encrypted exactly on the seven TLS ports and rated high exactly by the risk rule |
| NetworkScanner.ScanOpenPorts | misconfig/collectors/c/network/scanner.c:189-255 | none when the table read fails; otherwise the k-th record is the listener record of the k-th listening row, in table order, each named by the service table |
| NetworkScanner.ListenersOf | misconfig/collectors/c/network/scanner.c:207-250 | as many records as listening rows, and the k-th record is the listener record of the k-th listening row in table order |
| NetworkScanner.HighPortBandAlwaysSuspicious | misconfig/collectors/c/network/scanner.c:430-432 | a remote port strictly between 50000 and 60000 is flagged for any process and address |
| NetworkScanner.OrdinaryTrafficNotSuspicious | misconfig/collectors/c/network/scanner.c:428-447 | outside that band, a private or loopback peer is never flagged, and neither is any peer of a non-system process |
| NetworkScanner.SuspiciousOutsideBand | misconfig/collectors/c/network/scanner.c:428-447 | outside the 50000-60000 band, a connection is flagged exactly when a system process talks to a peer outside the exempt private and loopback prefixes |
| NetworkScanner.SystemProcessToPublicIsSuspicious | misconfig/collectors/c/network/scanner.c:435-443 | any process whose name contains svchost.exe or System, talking to an address that does not start with '1', is flagged on every port |
| NetworkScanner.ConnectionOf | misconfig/collectors/c/network/scanner.c:282-324 | the established flag agrees with the state text, the text is "unknown" exactly for states outside the four named ones, and the connection is suspicious exactly by the rule |
| NetworkScanner.ActiveConnections | misconfig/collectors/c/network/scanner.c:258-330 | none when the table read fails; otherwise the k-th connection is the record of the k-th non-listening row, in table order, so connections and listeners together cover the table |
| NetworkScanner.ConnectionsOf | misconfig/collectors/c/network/scanner.c:274-325 | the rows split into listeners and connections, and the k-th connection is the record of the k-th non-listening row in table order |
| NetworkScanner.TrimLeft | misconfig/collectors/c/network/scanner.c:350-351 | exactly the leading spaces and tabs are dropped: what is removed is all blanks, and what remains does not start with one |
| NetworkScanner.ClassifyIgnoresIndent | misconfig/collectors/c/network/scanner.c:350-363 | a line reads the same (header and state) however many spaces and tabs indent it |
| NetworkScanner.ProfileAtPrefix | misconfig/collectors/c/network/scanner.c:353-360 | the profile in force at a line depends only on the lines above it |
| NetworkScanner.ScanLinesCurrent | misconfig/collectors/c/network/scanner.c:353-360 | after the loop, the current profile is the one named by the last header line |
| NetworkScanner.SeenOnSnoc | misconfig/collectors/c/network/scanner.c:362-374 | one more line sets a profile on only if it is an ON line under that profile |
| NetworkScanner.ScanLinesFlag | misconfig/collectors/c/network/scanner.c:348-375 | a profile's flag ends up set exactly when some State-ON line falls under a header for that profile |
| NetworkScanner.ScanLinesMeaning | misconfig/collectors/c/network/scanner.c:348-375 | this holds for the domain, private and public profiles |
| NetworkScanner.CheckFirewallStatus | misconfig/collectors/c/network/scanner.c:333-396 | returns -1 and "Unknown" when netsh cannot start; returns 1 exactly when all three profiles were seen ON; reports "Disabled" exactly when none was |
| NetworkScanner.ParseFirewallOutput | misconfig/collectors/c/network/scanner.c:344-375 | the line-by-line loop ends with the three flags of the reference reading |
| NetworkScanner.PortFindingsMatch | misconfig/collectors/c/network/scanner.c:469-492 | the port findings correspond one to one, in order, with the high-risk ports |
| NetworkScanner.ConnectionFindingsMatch | misconfig/collectors/c/network/scanner.c:494-511 | the connection findings correspond one to one, in order, with the suspicious connections |
| NetworkScanner.AnalyzeNetworkSecurity | misconfig/collectors/c/network/scanner.c:450-514 | the loops build exactly the firewall finding, then the port findings, then the connection findings, as long as they fit the 100-entry buffer |
| NetworkScanner.FindingsLength | misconfig/collectors/c/network/scanner.c:450-514 | the list length is one for a firewall that is not fully on, plus the high-risk ports, plus the suspicious connections |
| NetworkScanner.FindingsFirewallFirst | misconfig/collectors/c/network/scanner.c:457-467 | a firewall finding appears only at the front, and exactly when the firewall is not fully enabled |
| NetworkScanner.FindingsSections | misconfig/collectors/c/network/scanner.c:450-514 | the list splits into the firewall section, the port section and the connection section, in that order |
| NetworkScanner.ScanNetwork | misconfig/collectors/c/network/scanner.c:517-555 | keeps at most 32 interfaces; the firewall counts as enabled exactly when all profiles are ON; the findings are those of the analysis, with the firewall finding first exactly when the firewall is not enabled |
| EngineAnalysis.PortSeverityTable | services/misconfig/engine/src/analysis.rs:166-209 | ports 23, 139 and 445 are CRITICAL; 21, 135, 3389 and 5900 are HIGH; every other port is MEDIUM; never LOW or INFO |
| EngineAnalysis.AnalyzeRiskyPort | services/misconfig/engine/src/analysis.rs:165-228 | the finding has the table severity, and its id is `PORT-` followed by digits that read back as the port |
| EngineAnalysis.SuspiciousBands | services/misconfig/engine/src/analysis.rs:63-73 | with at least one suspicious connection, NET-002 is HIGH above 50, MEDIUM from 21 to 50, and LOW from 1 to 20 |
| EngineAnalysis.WifiFinding | services/misconfig/engine/src/analysis.rs:92-111 | the wireless finding is INFO; its id is `WIFI-` plus the interface name with every space made a hyphen, so it has no spaces |
| EngineAnalysis.TallyTotal | services/misconfig/engine/src/analysis.rs:36-109 | the five counters add up to the number of findings pushed |
| EngineAnalysis.TallyCounter | services/misconfig/engine/src/analysis.rs:44-50 | each counter equals the number of findings of its severity |
| EngineAnalysis.TallySnoc | services/misconfig/engine/src/analysis.rs:44-51 | pushing a finding bumps exactly the counter of its severity |
| EngineAnalysis.RecommendationsShape | services/misconfig/engine/src/analysis.rs:230-275 | priorities never decrease; between 2 and 5 entries; the last two have priorities 3 and 4; priority 1 appears exactly for a critical finding or a disabled firewall, priority 2 exactly for a high one |
| EngineAnalysis.ComplianceOf | services/misconfig/engine/src/analysis.rs:277-309 | PCI-DSS holds exactly when the firewall is on and there is no critical finding; the issue list is empty exactly then, and never has more than three entries |
| EngineAnalysis.AddPortFindings | services/misconfig/engine/src/analysis.rs:40-53 | the loop appends one analysed finding per `risky_port` record, in order, and keeps the counters equal to the tally of the list |
| EngineAnalysis.CountSuspicious | services/misconfig/engine/src/analysis.rs:55-61 | the count is the number of `suspicious_connection` records, and is positive exactly when there is one |
| EngineAnalysis.AddWifiStep | services/misconfig/engine/src/analysis.rs:93-111 | one interface adds its finding only when it is wireless and up, and the counters stay equal to the tally |
| EngineAnalysis.AddWifiFindings | services/misconfig/engine/src/analysis.rs:91-112 | the loop appends one INFO finding per active wireless interface, keeping the counters equal to the tally |
| EngineAnalysis.AddSuspiciousFinding | services/misconfig/engine/src/analysis.rs:63-89 | a positive count appends NET-002, counted under its band; zero appends nothing |
| EngineAnalysis.AddExposureFinding | services/misconfig/engine/src/analysis.rs:114-135 | more than three publicly bound risky ports append a HIGH NET-003 finding; otherwise nothing is appended |
| EngineAnalysis.CollectFindings | services/misconfig/engine/src/analysis.rs:12-135 | the findings are exactly the reference list, rule by rule in push order, and the counters are its tally |
| EngineAnalysis.Analyze | services/misconfig/engine/src/analysis.rs:9-163 | the report holds the reference findings, counters that add up to their number, recommendations and compliance from those counters, and the risk index and posture of the scoring module |
| EngineAnalysis.FirewallFindingFirst | services/misconfig/engine/src/analysis.rs:21-38 | FW-001 is the first finding exactly when the firewall is disabled |
| EngineAnalysis.MappedIdsNotFirewall | services/misconfig/engine/src/analysis.rs:97-216 | port finding ids start with 'P' and wireless finding ids with 'W' |
| EngineAnalysis.FirstIsNotFirewall | services/misconfig/engine/src/analysis.rs:40-135 | no finding pushed after the firewall rule carries the FW-001 id |
| EngineAnalysis.PortSection | services/misconfig/engine/src/analysis.rs:40-53 | the port findings sit right after the firewall part, as one contiguous block |
| EngineAnalysis.PortFindingsInOrder | services/misconfig/engine/src/analysis.rs:41-52 | the k-th port finding analyses the k-th `risky_port` record |
| EngineAnalysis.SummaryMatchesFindings | services/misconfig/engine/src/analysis.rs:13-135 | for the reference list, each counter is the number of findings of its severity, and the counters add up to the list length |
| EngineAnalysis.FindingCount | services/misconfig/engine/src/analysis.rs:21-135 | the number of findings, rule by rule: firewall, ports, NET-002, wireless, NET-003 |
| EngineScoring.RiskIndex | services/misconfig/engine/src/scoring.rs:7-36 | the index always lies between 0 and 10 |
| EngineScoring.RiskMonotoneInFindings | services/misconfig/engine/src/scoring.rs:10-14 | more findings of any severity never lower the index |
| EngineScoring.RiskMonotoneInSurface | services/misconfig/engine/src/scoring.rs:21-29 | more open ports or more connections never lower the index |
| EngineScoring.InfoCarriesNoWeight | services/misconfig/engine/src/scoring.rs:10-14 | INFO findings do not change the index |
| EngineScoring.FirewallScalesFindingsOnly | services/misconfig/engine/src/scoring.rs:16-19 | a disabled firewall never lowers the index, and changes nothing when there are no weighted findings |
| EngineScoring.SurfaceThresholds | services/misconfig/engine/src/scoring.rs:21-29 | up to 20 open ports and up to 100 connections add nothing |
| EngineScoring.OneCriticalExample | services/misconfig/engine/src/scoring.rs:7-32 | one critical finding gives 1.0 with the firewall on and 1.5 with it off |
| EngineScoring.PostureBands | services/misconfig/engine/src/scoring.rs:38-47 | each posture corresponds to exactly one band of the index: at least 9, [7,9), [5,7), [3,5), [1,3), below 1 |
| EngineScoring.PostureMonotone | services/misconfig/engine/src/scoring.rs:38-47 | a higher index never gives a milder posture |
| EngineScoring.PostureTextInjective | services/misconfig/engine/src/scoring.rs:40-45 | no two postures print the same text |
| EngineCli.FirstIndex | services/misconfig/engine/src/main.rs:31 | finds the first occurrence of the argument, or reports none exactly when it is absent |
| EngineCli.SelectInput | services/misconfig/engine/src/main.rs:21-39 | a usage error exactly for fewer than two arguments; one argument is the path; without `--input` the last argument is the path; the path is missing exactly when the first `--input` is the last argument; the chosen path is always one of the arguments |
| EngineCli.InputFlagSelects | services/misconfig/engine/src/main.rs:30-36 | the value after the first `--input` is the path, whatever follows it |
| EngineCli.RunEngine | services/misconfig/engine/src/main.rs:16-76 | exits 0 with a report exactly when an input path was chosen, read and parsed; otherwise exits 1 with no report; the report's findings are those of the analysis |
| EngineReporter.SeverityIconsDistinct | misconfig/engine/src/reporter.rs:104-112 | the four named severities get four different icons, none of them the info icon |
| EngineReporter.OtherSeverityIsInfo | misconfig/engine/src/reporter.rs:104-112 | any other severity string gets the info icon |
| EngineReporter.FindingsGroup | misconfig/engine/src/reporter.rs:81-102 | an empty group prints nothing; a non-empty one lists exactly its findings under a header that starts with the severity icon |
| EngineReporter.DetailedSection | misconfig/engine/src/reporter.rs:59-71 | the section is absent exactly when there are no findings, and has at most three groups |
| EngineReporter.DetailedShowsOnlyUpToMedium | misconfig/engine/src/reporter.rs:63-70 | every finding shown comes from the report and is CRITICAL, HIGH or MEDIUM, so LOW and INFO findings never appear |
| EngineReporter.DetailedShowsEveryUpToMedium | misconfig/engine/src/reporter.rs:63-70 | every CRITICAL, HIGH or MEDIUM finding is shown, in the group headed by its own severity |
| EngineReporter.DetailedGroupOrder | misconfig/engine/src/reporter.rs:68-70 | when all three groups are present, they come in the order CRITICAL, HIGH, MEDIUM |
| EngineReporter.TopRecommendations | misconfig/engine/src/reporter.rs:49-57 | at most five recommendations are shown: the first ones, in order |
| EngineReporter.ActionsBlockLines | misconfig/engine/src/reporter.rs:156-160 | when no action contains a newline, the block splits into one bullet line for each of the first three actions |
| EngineReporter.UrgencyCases | misconfig/engine/src/reporter.rs:161-163 | IMMEDIATE ACTION exactly with a critical finding; URGENT ATTENTION exactly with a high finding but no critical one; otherwise timely remediation |
| EngineReporter.PciLabelCases | misconfig/engine/src/reporter.rs:155 | the label is "Compliant" exactly when the report is PCI-DSS compliant |
| EngineReporter.ExecutiveSummary | misconfig/engine/src/reporter.rs:124-165 | the summary text contains the posture line, the PCI-DSS line, the block of the first three actions, and the urgency sentence |
| MisconfigCore.Get | services/misconfig/core/src/main.rs:15-18 | a member is found exactly when the value is an object holding that key |
| MisconfigCore.AsI64 | services/misconfig/core/src/main.rs:27 | an integer reading exists only for a JSON integer within the signed 64-bit range |
| MisconfigCore.ArrayField | services/misconfig/core/src/main.rs:13-18 | a missing or non-array member reads as the empty list |
| MisconfigCore.MissingKeyIsEmpty | services/misconfig/core/src/main.rs:15-18 | a document that is not an object, or lacks the key, or holds a non-array under it, gives no entries |
| MisconfigCore.ScanSmb | services/misconfig/core/src/main.rs:26-54 | the loop adds one CRITICAL SMB finding and 25 points per port entry on 445 not bound to loopback |
| MisconfigCore.ScanOtherRules | services/misconfig/core/src/main.rs:91-163 | the IPv6, administrator and firewall rules each add their finding and 12, 10 and 30 points exactly when they trigger |
| MisconfigCore.Scan | services/misconfig/core/src/main.rs:15-181 | the findings are the five rules in order, each with its `details` object; the `meta` block names the engine and version 1.0.0 and holds the raw score capped at 100; the summary counts the findings per severity |
| MisconfigCore.ScanRules | services/misconfig/core/src/main.rs:20-163 | the uncapped score is 25 per exposed SMB entry plus 18, 12, 10 and 30 for the other rules that trigger |
| MisconfigCore.SmbPartCount | services/misconfig/core/src/main.rs:26-54 | the SMB part has one CRITICAL finding per exposed entry, and the k-th one reports port 445 with the address and process of the k-th exposed entry |
| MisconfigCore.FindingsParts | services/misconfig/core/src/main.rs:20-163 | the findings split into the SMB part, the RPC part and the remaining rules |
| MisconfigCore.CountParts | services/misconfig/core/src/main.rs:175-178 | a severity count over the three parts is the sum of the counts of the parts |
| MisconfigCore.SummaryCritical | services/misconfig/core/src/main.rs:175 | CRITICAL counts the exposed SMB entries plus one for a disabled firewall profile |
| MisconfigCore.SummaryHigh | services/misconfig/core/src/main.rs:176 | HIGH is 1 exactly when at least three RPC ports are exposed, and 0 otherwise |
| MisconfigCore.SummaryMedium | services/misconfig/core/src/main.rs:177 | MEDIUM counts the IPv6 rule and the administrator rule |
| MisconfigCore.SummaryLowIsZero | services/misconfig/core/src/main.rs:178 | no rule emits LOW, so that count is always 0 |
| MisconfigCore.OtherPartsCount | services/misconfig/core/src/main.rs:98-163 | each of the last three rules contributes to a count only when it triggers and its finding matches |
| MisconfigCore.AllSmb | services/misconfig/core/src/main.rs:31-35 | a part made of CRITICAL findings, like the SMB part, adds only to the CRITICAL count |
| MisconfigCore.SmbDominates | services/misconfig/core/src/main.rs:52-172 | four exposed SMB entries reach the cap; with none, the raw score is at most 70 and never capped |
| MisconfigCore.RpcThreshold | services/misconfig/core/src/main.rs:59-86 | a finding with RPC details is present exactly when at least three entries on 49664-49669 are bound to all interfaces, and it reports that number of entries |
| MisconfigCore.AdminThreshold | services/misconfig/core/src/main.rs:123-143 | a finding with an `admin_count` is present exactly when there is more than one administrator, and the count is their number |
| MisconfigCore.DetailsKinds | services/misconfig/core/src/main.rs:31-163 | only the RPC rule's finding carries RPC details, right after the SMB part, and only the administrator rule's finding carries an `admin_count` |
| MisconfigCore.SmbLoopbackExempt | services/misconfig/core/src/main.rs:27-30 | port 445 counts as exposed on every address except 127.0.0.1 and ::1 |
| MisconfigCore.MissingFieldsDefaults | services/misconfig/core/src/main.rs:27-149 | an entry without Port reads as port 0 and triggers neither port rule; a profile without Enabled reads as enabled |
| ProbeEscape.AsWrittenCopiesOthers | services/misconfig/c_engine/main.c:23-27 | the shim rewrites only the double quote and newline; a backslash, a carriage return and every other character are copied unchanged |
| ProbeEscape.EscapeAsWrittenAppend | services/misconfig/c_engine/main.c:22-28 | encoding the fgets chunks one at a time gives the same text as encoding their concatenation |
| ProbeEscape.AsWrittenHasNoRawNewline | services/misconfig/c_engine/main.c:25 | no raw newline is left in the encoded text |
| ProbeEscape.AsWrittenRoundTrip | services/misconfig/c_engine/main.c:22-28 | a JSON reader undoes the shim's encoding for output with no backslash and no control character other than newline |
| ProbeEscape.ReadEscaped | services/misconfig/c_engine/main.c:24-26 | under that condition, a JSON reader turns each encoded character back into the original |
| ProbeEscape.AsWrittenCorruptsBackslash | services/misconfig/c_engine/main.c:23-27 | the probe text `C:\new` goes through unchanged and reads back as `C:`, a newline and `ew` |
| ProbeEscape.AsWrittenCopies | services/misconfig/c_engine/main.c:26 | text without quote or newline is copied verbatim |
| ProbeEscape.AsWrittenInvalidEscape | services/misconfig/c_engine/main.c:23-27 | the probe text `C:\Q` makes the printed value unreadable JSON |
| ProbeEscape.EscapeAppend | services/misconfig/c_engine/main.c:22-28 | the corrected encoding can also be done chunk by chunk |
| ProbeEscape.ReadEscapeChar | services/misconfig/c_engine/main.c:23-27 | a JSON reader turns every character of the corrected encoding back into the original |
| ProbeEscape.EscapeRoundTrip | services/misconfig/c_engine/main.c:21-29 | for every text, a JSON reader returns the corrected encoding's input and stops right after the closing quote |
| ProbeEscape.UntilNul | services/misconfig/c_engine/main.c:23 | the printing loop sees a chunk only up to its first NUL; a chunk without NUL is seen whole |
| ProbeEscape.EscapeChunksIsEscapeOfText | services/misconfig/c_engine/main.c:22-28 | the printed body is the encoding of the visible probe output, which is the whole output when there is no NUL |
| ProbeEscape.RunShim | services/misconfig/c_engine/main.c:4-33 | the shim with the corrected encoder (the intended behaviour, which lines 24-26 do not achieve): exits 1 with no output when the probe fails to launch, otherwise prints the object opening and a string that reads back as the probe's visible output, followed by the closing brace |
| ProbeEscape.RunShimAsWritten | services/misconfig/c_engine/main.c:4-33 | the program as written exits 1 exactly when the launch fails; otherwise it prints the same frame around the encoding as written |
| ProbeEscape.AsWrittenChunks | services/misconfig/c_engine/main.c:22-28 | the encoding as written, applied chunk by chunk, is the encoding of the visible output |
| PhishingVerdict.VerdictBands | services/phishing/verdict.py:1-8 | HIGH RISK from 80 up, SUSPICIOUS on 50–79, LOW RISK on 20–49 and SAFE below 20, each band in both directions |
| PhishingVerdict.VerdictMonotone | services/phishing/verdict.py:1-8 | a higher score never yields a milder verdict |
| PhishingVerdict.VerdictTextInjective | services/phishing/verdict.py:3-8 | the four verdict strings are pairwise distinct |
| PhishingHeuristics.FindLetterRun | services/phishing/heuristics.py:13 | the scan reports a run exactly when ten consecutive ASCII lower-case letters occur somewhere in the string |
| PhishingHeuristics.ScoreFlags | services/phishing/heuristics.py:3-25 | the score is 15/20/10/30 for the long, random, hyphen and IP rules that fire; the details are their messages in rule order; the score lies in 0..75 and is zero exactly when there are no details |
| PhishingHeuristics.HeuristicsMessageOrder | services/phishing/heuristics.py:9-23 | the IP message is last exactly when the host is a dotted quad, and the long-domain message is first exactly when the host is longer than 35 characters |
| PhishingHeuristics.NoHostScoresZero | services/phishing/heuristics.py:7 | a URL without a host name scores 0 with no details |
| PhishingDomainIntel.FirstSuffix | services/phishing/domain_intel.py:55-59 | nothing is found exactly when no listed TLD ends the name; otherwise the result is the earliest listed TLD that does |
| PhishingDomainIntel.MalformedStops | services/phishing/domain_intel.py:31-34 | an empty name, a leading or trailing dot, or an empty inner label gives exactly 30 and the malformed finding, whatever DNS would answer |
| PhishingDomainIntel.EmptyIsMalformed | services/phishing/domain_intel.py:31 | the empty host name is treated as malformed |
| PhishingDomainIntel.StructuralScore | services/phishing/domain_intel.py:36-67 | the structural score adds 10, 20, 25, 25 and 20 for depth, numeric name, punycode, a risky TLD (counted once) and high entropy |
| PhishingDomainIntel.DnsFailureStops | services/phishing/domain_intel.py:69-94 | a failed lookup adds 35 and its message comes last, so no address or fast-flux rule contributes |
| PhishingDomainIntel.ResolvedScore | services/phishing/domain_intel.py:69-102 | a resolved name adds 20/25/15/15 for private, loopback, reserved and multicast addresses, plus 15 when the second lookup answers a different address; the success message weighs nothing |
| PhishingDomainIntel.DepthIsDotCount | services/phishing/domain_intel.py:36-40 | the depth rule fires exactly when the name contains at least four dots |
| PhishingDomainIntel.DomainScoreBounds | services/phishing/domain_intel.py:22-104 | the domain score lies between 0 and 190, and at least one finding is always reported |
| PhishingTyposquat.ExtractBaseDomain | services/phishing/typosquat.py:36-40 | a name without a dot is its own base |
| PhishingTyposquat.BaseIsLastTwoLabels | services/phishing/typosquat.py:36-40 | splitting the base at dots gives back the last two labels of the name, or the whole name when it has one label |
| PhishingTyposquat.BaseIdempotent | services/phishing/typosquat.py:36-40 | taking the base of a base changes nothing |
| PhishingTyposquat.SubdomainSharesBase | services/phishing/typosquat.py:36-40 | prefixing a label to a dotted name keeps its base, so aws.amazon.com and amazon.com share one |
| PhishingTyposquat.Substitute | services/phishing/typosquat.py:62 | the substitution keeps the length and leaves no 0 or 1 behind |
| PhishingTyposquat.CheckLegit | services/phishing/typosquat.py:54-64 | one trusted domain scores 0, 30, 35 or 65, with one message per rule that fires, 65 exactly when both the resemblance and the substitution rule fire, and 0 exactly when there is no message |
| PhishingTyposquat.ScanLegit | services/phishing/typosquat.py:53-64 | over any list of trusted domains, the findings are the per-domain messages in list order and the score is 30 per resembling entry plus 35 per substitution match |
| PhishingTyposquat.DetectTyposquat | services/phishing/typosquat.py:47-66 | the result is the per-domain contributions over the trusted list, applied to the base of the normalised name |
| PhishingTyposquat.TyposquatScore | services/phishing/typosquat.py:53-64 | the summed weights are 30 times the number of resembling entries plus 35 times the number of substitution matches |
| PhishingTyposquat.ExactMatchNotSimilar | services/phishing/typosquat.py:58 | a name identical to a trusted base (ratio 1.0) is not flagged by the resemblance rule |
| PhishingTyposquat.SubstitutionWithoutDigits | services/phishing/typosquat.py:62 | a name without 0 or 1 triggers the substitution rule exactly when it equals the trusted base |
| PhishingTyposquat.SubstitutionExample | services/phishing/typosquat.py:62 | g00g1e.com is caught as a substitution of google.com |
| PhishingChecker.Combine | services/phishing/checker.py:49-55 | the verdict is HIGH RISK exactly when the three scores sum to 80 or more, SUSPICIOUS on 50–79, LOW RISK on 20–49 and SAFE below 20 |
| PhishingChecker.InvalidOnlyWhenNormalizationFails | services/phishing/checker.py:33-38 | the verdict is INVALID exactly when normalisation fails, and then the risk is 100 with the single invalid-format signal and no normalised URL |
| PhishingChecker.UnresolvedIsHighRisk | services/phishing/checker.py:43-47 | HIGH_RISK arises exactly for a valid URL whose host does not resolve, with risk 90 and the single unresolved signal |
| PhishingChecker.ResolvedIsScored | services/phishing/checker.py:49-57 | for a valid, resolving URL the risk exceeds the TLS score by 0 to 265, and the TLS signals come last after at least one other signal |
| PhishingChecker.CheckUrlAlwaysSignals | services/phishing/checker.py:22-57 | every result carries at least one signal, so the report's no-indicators branch (line 80) is never taken for a result of `check_url` |
| PhishingChecker.MalformedHostSignals | services/phishing/checker.py:49-54 | a resolving but malformed host contributes only the malformed-domain signal between the heuristic and TLS signals |
| PhishingRender.ReportLines | services/phishing/checker.py:60-81 | the report has 13 lines plus one per signal (or the no-indicators line), starts and ends with the separator, and lists the signals from line 12 on |
| PhishingRender.RenderOutputLines | services/phishing/checker.py:60-83 | when no field contains a newline, splitting the rendered text at newlines gives back exactly the report's lines |
| PhishingRender.IntToStringSingleLine | services/phishing/checker.py:72 | a rendered integer contains no newline |
| PhishingRender.SeparatorSingleLine | services/phishing/checker.py:61 | the separator contains no newline |
| PhishingRender.RiskLineSingleLine | services/phishing/checker.py:72 | the risk line contains no newline |
| PhishingRender.BannerSingleLine | services/phishing/checker.py:64-66 | the banner lines contain no newline |
| PhishingRender.FieldLinesSingleLine | services/phishing/checker.py:67-75 | with newline-free fields, every field line is newline-free |
| PhishingRender.AllSingleLineAppend | services/phishing/checker.py:83 | concatenating two lists of newline-free lines keeps every line newline-free |
| PhishingRender.SignalLinesSingleLine | services/phishing/checker.py:76-80 | newline-free signals give newline-free signal lines |
| PhishingHtml.AttrGet | services/phishing/html_analysis.py:31 | a missing attribute reads as the default; otherwise the value is that of the last occurrence of the attribute, as building a dict keeps the last one |
| PhishingHtml.FeedAll | services/phishing/html_analysis.py:86-87 | feeding the events one by one yields the parser state defined event by event |
| PhishingHtml.RaisedExists | services/phishing/html_analysis.py:30-63 | a flag raised one event at a time is up exactly when some event triggers it |
| PhishingHtml.FeedRaises | services/phishing/html_analysis.py:30-63 | each boolean flag of the fed parser is the one-event-at-a-time raise of its trigger |
| PhishingHtml.FeedFlags | services/phishing/html_analysis.py:30-63 | the password, external-form, insecure-form, hidden-iframe and redirect flags are each up exactly when some event triggers them |
| PhishingHtml.FeedCountsScripts | services/phishing/html_analysis.py:53-58 | the script counter equals the number of script tags with a src on a foreign, non-empty host |
| PhishingHtml.FetchFailureScoresZero | services/phishing/html_analysis.py:73-84 | a failed fetch or a status other than 200 scores 0 with no findings |
| PhishingHtml.FlagScore | services/phishing/html_analysis.py:89-111 | the flag score adds 35, 40, 25, 20, 15 and 15 for the password, external form, insecure form, hidden iframe, more than three external scripts and redirect flags |
| PhishingHtml.KeywordScore | services/phishing/html_analysis.py:113-116 | each listed keyword present in the lower-cased page adds 10 and one finding |
| PhishingHtml.HtmlScore | services/phishing/html_analysis.py:86-118 | on a fetched page the score is the flag weights plus 10 per keyword present, with one finding per contribution, between 0 and 230 |
| PhishingHtml.PasswordFindingFirst | services/phishing/html_analysis.py:33-35 | the first finding is the password finding exactly when some input field has type password, in any letter case |
| PhishingHtml.HiddenIframeCases | services/phishing/html_analysis.py:46-51 | a zero width hides an iframe whatever its style; without display:none and with non-zero sizes it is not hidden |
| PhishingHtml.SameHostScriptNotExternal | services/phishing/html_analysis.py:53-58 | a script served from the page's own host is not counted as external |

## Left out

- The Java GUI (gui/java/src/shieldx/ui/Main.java): it only launches the tools and shows their output.
- Logging, configuration stubs and entry-point scripts: they hold no rule logic. This covers:
  - logger.c/logger.h and core/logger.py;
  - src/python/shieldx_logging/logger.py;
  - config.c/config.h;
  - src/python/main.py and services/phishing/main.py.
- services/zeroday/sensors/c/src/zx_net_probe.c is not part of this model.
- Win32 and socket calls in scanner.c: the model receives their results as input records. This covers:
  - adapter enumeration;
  - the TCP table and process-name lookup;
  - the `netsh` pipe;
  - Wi-Fi state.
- The collector's `fgets` reading of `netsh` output in fixed-size chunks: the model receives whole lines.
- The `pid` casts and fixed-width C buffers: names and values are unbounded strings and naturals, with one exception. The 100-entry findings buffer appears as the precondition below.
- NetworkScanner.AnalyzeNetworkSecurity: it requires the findings to fit the 100-entry buffer. scanner.c writes into that buffer without a bound check, and an overflow is undefined behaviour that the model cannot express.
- Floating-point rounding and formatting: the model computes over reals, and rendered numbers are parameters. This covers:
  - the CVSS values' rendering;
  - the two-decimal rounding of the risk index;
  - the CIS and NIST compliance percentages;
  - the similarity ratio printed by the look-alike check.
- EngineScoring.RiskIndex: it is stated over exact reals, without the final rounding to two decimals.
- Console colours, banners, elapsed-time measurement and the report file the engine saves: presentation and I/O only.
- Prose fields of findings: the engine's reasoning, impact and remediation text, and the misconfiguration core's `attack_path` and `remediation` lists. The rules that produce them are modelled, but the fixed text is not carried.
- The `u32` width of `total_checks`: it is a natural here, since no realistic finding count reaches 2^32.
- File reading, JSON text parsing and file writing in services/misconfig/core/src/main.rs: the rules start from a parsed JSON value.
- Collector.StringMemberReadsBack: it is stated only for fields that need no JSON escaping. The collector prints fields unescaped, so other fields do not read back; `Collector.QuoteInFieldTruncates` shows what happens to them.
- PhishingTyposquat.DetectTyposquat: its contract gives the result as the per-domain contributions over the trusted list. The score as counts of matching entries is stated by `PhishingTyposquat.ScanLegit` and `PhishingTyposquat.TyposquatScore` for any list, rather than again for the 48-entry literal.
- services/phishing/tls_check.py and services/phishing/normalize.py: the TLS score and the normalised URL are inputs of `PhishingChecker.CheckUrl`.
- `urlparse` and `urljoin` are parameters. This covers:
  - host-name extraction in checker.py and html_analysis.py;
  - resolving a form action against the page host.
- Python's `str.lower` and `\d` are modelled on ASCII only.
- A crash the model turns into a value: an HTML attribute written without a value (`<input type>`, `<iframe style>`). `HTMLParser` reports it as `None`, and html_analysis.py:34 and :47 call `.lower()` on it. That raises inside `parser.feed`, outside the `try` at html_analysis.py:73-84, so `analyze_html` raises. The model reads such an attribute as the empty string and scores the page.
- A crash the model turns into a value: `domain_resolves` (checker.py:14-19) catches only `socket.gaierror`. For a non-ASCII host with an empty or over-long label (`bücher..de`), the IDNA codec raises `UnicodeError`, and `check_url` raises. The model's `resolves` input is a plain boolean, so such a host yields the ordinary HIGH_RISK result.
- A missing host name is a crash of the same kind: checker.py would pass `None` to `gethostbyname`, but the checker model takes the host as a string, and its resolvability is a boolean input.
- An allocation failure in `scan_network`, which makes `run_network_module` return -1 (misconfig/collectors/c/main.c:53-57): memory exhaustion is not modelled.
- Collector.ParseFrom: its own contract says only that each option is the incoming one or the argument after some occurrence of its flag. Which occurrence wins (the last one the loop consumes) is stated by `Collector.LaterFlagWins`, `Collector.TrailingFlagIgnored` and `Collector.ParseAppend` for command lines that end on an argument boundary.
- The clock reading for `scan_time` is a string parameter.
- The checker spells the unresolved verdict "HIGH_RISK", while the verdict band is "HIGH RISK": the model keeps both spellings as written, and `PhishingChecker.UnresolvedIsHighRisk` records where each arises.

## Findings

| source | as written | input that shows it | evidently intended | confidence | as-written member | corrected member |
|---|---|---|---|---|---|---|
| services/misconfig/c_engine/main.c:22-28 | the escaping loop rewrites only `"` and newline and copies a backslash unchanged | probe output `C:\new` is read back as `C:`, a newline and `ew`; probe output `C:\Q` makes the document invalid JSON | a JSON reader gets back exactly the probe output | high (not executed) | ProbeEscape.AsWrittenCorruptsBackslash | ProbeEscape.EscapeRoundTrip |

=== FILE: collector.dfy ===
/** The entry point of the C collector (misconfig/collectors/c/main.c):
    the argument loop, the module dispatch and the JSON document the
    network module prints. The document is written with `fprintf` and no
    escaping; `Collector.StringMemberReadsBack` states when a reader gets
    a field back and `Collector.QuoteInFieldTruncates` what happens
    otherwise. */
module Collector {
  import opened Wrappers
  import opened Text
  import opened JsonString
  import opened NetworkScanner

  // ---------------------------------------------------------------------
  // Command line

  datatype Options = Options(config: string, moduleName: string, output: Option<string>, verbose: bool)

  const DefaultOptions := Options("config.json", "network", None, false)

  /** Parsing either stops at a help flag or yields the options. */
  datatype ParseOutcome = ShowHelp | Proceed(opts: Options)

  predicate IsConfigFlag(a: string) { a == "-c" || a == "--config" }
  predicate IsModuleFlag(a: string) { a == "-m" || a == "--module" }
  predicate IsOutputFlag(a: string) { a == "-o" || a == "--output" }
  predicate IsVerboseFlag(a: string) { a == "-v" || a == "--verbose" }
  predicate IsHelpFlag(a: string) { a == "-h" || a == "--help" }

  /** `v` is the argument right after an occurrence of a flag accepted by
      `flag`, at or after index `from`. */
  predicate FollowsFlag(args: seq<string>, from: nat, flag: string -> bool, v: string) {
    exists k :: from < k < |args| && flag(args[k - 1]) && args[k] == v
  }

  /** The argument loop from index `i` on, with the options gathered so
      far. A value-taking flag consumes the next argument only when there
      is one; unknown arguments are skipped. */
  function ParseFrom(args: seq<string>, i: nat, acc: Options): (r: ParseOutcome)
    ensures r.ShowHelp? ==> exists k :: i <= k < |args| && IsHelpFlag(args[k])
    ensures r.Proceed? ==> r.opts.moduleName == acc.moduleName || FollowsFlag(args, i, IsModuleFlag, r.opts.moduleName)
    ensures r.Proceed? ==> r.opts.config == acc.config || FollowsFlag(args, i, IsConfigFlag, r.opts.config)
    ensures r.Proceed? && r.opts.output.Some? ==>
      r.opts.output == acc.output || FollowsFlag(args, i, IsOutputFlag, r.opts.output.value)
    ensures r.Proceed? && r.opts.verbose ==> acc.verbose || exists k :: i <= k < |args| && IsVerboseFlag(args[k])
    decreases |args| - i
  {
    if i >= |args| then Proceed(acc)
    else
      var a := args[i];
      var hasValue := i + 1 < |args|;
      if IsConfigFlag(a) then
        if hasValue then ParseFrom(args, i + 2, acc.(config := args[i + 1])) else ParseFrom(args, i + 1, acc)
      else if IsModuleFlag(a) then
        if hasValue then ParseFrom(args, i + 2, acc.(moduleName := args[i + 1])) else ParseFrom(args, i + 1, acc)
      else if IsOutputFlag(a) then
        if hasValue then ParseFrom(args, i + 2, acc.(output := Some(args[i + 1]))) else ParseFrom(args, i + 1, acc)
      else if IsVerboseFlag(a) then ParseFrom(args, i + 1, acc.(verbose := true))
      else if IsHelpFlag(a) then ShowHelp
      else ParseFrom(args, i + 1, acc)
  }

  /** `argv` including the program name at index 0. */
  function ParseArgs(args: seq<string>): ParseOutcome {
    ParseFrom(args, 1, DefaultOptions)
  }

  /** Without any help flag and any value-taking flag the defaults stand,
      whatever else the command line holds (apart from -v). */
  lemma {:induction false} NoFlagsKeepDefaults(args: seq<string>, i: nat, acc: Options)
    requires forall k :: i <= k < |args| ==>
      !IsHelpFlag(args[k]) && !IsConfigFlag(args[k]) && !IsModuleFlag(args[k]) && !IsOutputFlag(args[k])
    ensures ParseFrom(args, i, acc).Proceed?
    ensures ParseFrom(args, i, acc).opts.(verbose := acc.verbose) == acc
    decreases |args| - i
  {
    if i < |args| {
      NoFlagsKeepDefaults(args, i + 1, if IsVerboseFlag(args[i]) then acc.(verbose := true) else acc);
    }
  }

  predicate TakesValue(a: string) {
    IsConfigFlag(a) || IsModuleFlag(a) || IsOutputFlag(a)
  }

  /** The loop started at `i` meets no help flag and finishes exactly at
      the end of `args`: the last argument is not a value-taking flag
      still waiting for its value. */
  predicate EndsClean(args: seq<string>, i: nat)
    decreases |args| - i
  {
    if i >= |args| then i == |args|
    else if IsHelpFlag(args[i]) then false
    else if TakesValue(args[i]) then i + 1 < |args| && EndsClean(args, i + 2)
    else EndsClean(args, i + 1)
  }

  /** Arguments appended to a cleanly ending command line are parsed
      afresh, starting from the options the prefix produced. */
  lemma {:induction false} ParseAppend(args: seq<string>, tail: seq<string>, i: nat, acc: Options)
    requires EndsClean(args, i)
    ensures ParseFrom(args, i, acc).Proceed?
    ensures ParseFrom(args + tail, i, acc) == ParseFrom(args + tail, |args|, ParseFrom(args, i, acc).opts)
    ensures EndsClean(args + tail, i) == EndsClean(args + tail, |args|)
    decreases |args| - i
  {
    if i < |args| {
      var a := args[i];
      assert (args + tail)[i] == a;
      if TakesValue(a) {
        var v := args[i + 1];
        assert (args + tail)[i + 1] == v;
        var next := if IsConfigFlag(a) then acc.(config := v)
          else if IsModuleFlag(a) then acc.(moduleName := v)
          else acc.(output := Some(v));
        ParseAppend(args, tail, i + 2, next);
      } else {
        ParseAppend(args, tail, i + 1, if IsVerboseFlag(a) then acc.(verbose := true) else acc);
      }
    }
  }

  /** Once the loop has met a help flag, nothing appended changes that. */
  lemma {:induction false} HelpPersists(args: seq<string>, tail: seq<string>, i: nat, acc: Options)
    requires ParseFrom(args, i, acc).ShowHelp?
    ensures ParseFrom(args + tail, i, acc).ShowHelp?
    decreases |args| - i
  {
    var a := args[i];
    assert (args + tail)[i] == a;
    if TakesValue(a) {
      var v := args[i + 1];
      assert (args + tail)[i + 1] == v;
      var next := if IsConfigFlag(a) then acc.(config := v)
        else if IsModuleFlag(a) then acc.(moduleName := v)
        else acc.(output := Some(v));
      HelpPersists(args, tail, i + 2, next);
    } else if !IsHelpFlag(a) {
      HelpPersists(args, tail, i + 1, if IsVerboseFlag(a) then acc.(verbose := true) else acc);
    }
  }

  /** The last occurrence of a value-taking flag wins: appending a flag
      and a value to a cleanly ending command line sets that option to
      the value, even when the value looks like a flag, and leaves the
      other options as the earlier arguments chose them. */
  lemma LaterFlagWins(args: seq<string>, f: string, v: string)
    requires EndsClean(args, 1) && TakesValue(f)
    ensures ParseArgs(args).Proceed?
    ensures var o := ParseArgs(args).opts;
      ParseArgs(args + [f, v]) ==
        Proceed(if IsConfigFlag(f) then o.(config := v)
                else if IsModuleFlag(f) then o.(moduleName := v)
                else o.(output := Some(v)))
    ensures EndsClean(args + [f, v], 1)
  {
    ParseAppend(args, [f, v], 1, DefaultOptions);
    var both := args + [f, v];
    assert both[|args|] == f && both[|args| + 1] == v;
  }

  /** A value-taking flag in last position is ignored. */
  lemma TrailingFlagIgnored(args: seq<string>, f: string)
    requires EndsClean(args, 1) && TakesValue(f)
    ensures ParseArgs(args + [f]) == ParseArgs(args)
  {
    ParseAppend(args, [f], 1, DefaultOptions);
    assert (args + [f])[|args|] == f;
  }

  /** A help flag met by the loop stops parsing, whatever follows it. */
  lemma HelpStops(args: seq<string>, h: string, rest: seq<string>)
    requires EndsClean(args, 1) && IsHelpFlag(h)
    ensures ParseArgs(args + [h] + rest) == ShowHelp
  {
    ParseAppend(args, [h] + rest, 1, DefaultOptions);
    assert args + [h] + rest == args + ([h] + rest);
    assert (args + ([h] + rest))[|args|] == h;
  }

  // ---------------------------------------------------------------------
  // JSON document

  function Quote(s: string): string {
    "\"" + s + "\""
  }

  function BoolText(b: bool): string {
    if b then "true" else "false"
  }

  /** A member line `<indent>"key": value` followed by `tail` (a comma or
      nothing) and a newline. */
  function Member(indent: string, key: string, value: string, tail: string): string {
    indent + Quote(key) + ": " + value + tail + "\n"
  }

  const FieldIndent := "      "

  /** One interface object, from its opening brace to its closing brace
      (exclusive of the comma and newline that follow). */
  function InterfaceObject(i: Interface): string {
    "    {\n" +
    Member(FieldIndent, "name", Quote(i.name), ",") +
    Member(FieldIndent, "description", Quote(i.description), ",") +
    Member(FieldIndent, "mac", Quote(i.mac), ",") +
    Member(FieldIndent, "ipv4", Quote(i.ipv4), ",") +
    Member(FieldIndent, "ipv6", Quote(i.ipv6), ",") +
    Member(FieldIndent, "gateway", Quote(i.gateway), ",") +
    Member(FieldIndent, "is_up", BoolText(i.isUp), ",") +
    Member(FieldIndent, "is_wireless", BoolText(i.isWireless), "") +
    "    }"
  }

  /** One finding object; the description and recommendation are not
      printed. */
  function FindingObject(f: NetworkFinding): string {
    "    {\n" +
    Member(FieldIndent, "type", Quote(TypeName(f.kind)), ",") +
    Member(FieldIndent, "port", NatToString(f.port), ",") +
    Member(FieldIndent, "protocol", Quote(f.protocol), ",") +
    Member(FieldIndent, "service", Quote(f.service), ",") +
    Member(FieldIndent, "binding", Quote(f.binding), ",") +
    Member(FieldIndent, "state", Quote(f.state), ",") +
    Member(FieldIndent, "process", Quote(f.processName), ",") +
    Member(FieldIndent, "pid", IntToString(f.pid), ",") +
    Member(FieldIndent, "risk_level", Quote(f.riskLevel), "") +
    "    }"
  }

  /** The printing loop from element `k` on: each object is followed by a
      comma when it is not the last one, then a newline. */
  function ObjectListFrom(objs: seq<string>, k: nat): string
    decreases |objs| - k
  {
    if k >= |objs| then ""
    else objs[k] + (if k < |objs| - 1 then "," else "") + "\n" + ObjectListFrom(objs, k + 1)
  }

  /** The comma rule: the printed list is the objects joined by `,` and a
      newline, plus a final newline, so no comma follows the last object
      and none is missing between two. */
  lemma {:induction false} ObjectListIsJoin(objs: seq<string>, k: nat)
    requires k < |objs|
    ensures ObjectListFrom(objs, k) == Join(objs[k..], ",\n") + "\n"
    decreases |objs| - k
  {
    if k == |objs| - 1 {
      assert objs[k..] == [objs[k]];
    } else {
      ObjectListIsJoin(objs, k + 1);
      assert objs[k..] == [objs[k]] + objs[k + 1..];
      JoinCons(objs[k], objs[k + 1..], ",\n");
    }
  }

  /** The printed array body for a whole list: empty for no objects. */
  lemma ObjectListShape(objs: seq<string>)
    ensures ObjectListFrom(objs, 0) == if |objs| == 0 then "" else Join(objs, ",\n") + "\n"
  {
    if |objs| > 0 {
      ObjectListIsJoin(objs, 0);
      assert objs[0..] == objs;
    }
  }

  function InterfaceObjects(ifaces: seq<Interface>): (objs: seq<string>)
    ensures |objs| == |ifaces|
    ensures forall k :: 0 <= k < |ifaces| ==> objs[k] == InterfaceObject(ifaces[k])
  {
    seq(|ifaces|, k requires 0 <= k < |ifaces| => InterfaceObject(ifaces[k]))
  }

  function FindingObjects(findings: seq<NetworkFinding>): (objs: seq<string>)
    ensures |objs| == |findings|
    ensures forall k :: 0 <= k < |findings| ==> objs[k] == FindingObject(findings[k])
  {
    seq(|findings|, k requires 0 <= k < |findings| => FindingObject(findings[k]))
  }

  /** `run_network_module`'s output for a scan result and a clock reading. */
  function NetworkDocument(r: ScanResult, timestamp: int): string {
    "{\n" +
    Member("  ", "collector", Quote("network"), ",") +
    Member("  ", "timestamp", IntToString(timestamp), ",") +
    "  \"interfaces\": [\n" +
    ObjectListFrom(InterfaceObjects(r.interfaces), 0) +
    "  ],\n" +
    "  \"findings\": [\n" +
    ObjectListFrom(FindingObjects(r.findings), 0) +
    "  ],\n" +
    "  \"metadata\": {\n" +
    Member("    ", "scan_duration_ms", IntToString(r.scanDurationMs), ",") +
    Member("    ", "interfaces_found", NatToString(|r.interfaces|), ",") +
    Member("    ", "open_ports", NatToString(|r.openPorts|), ",") +
    Member("    ", "active_connections", NatToString(|r.connections|), ",") +
    Member("    ", "firewall_enabled", BoolText(r.firewallEnabled), "") +
    "  }\n" +
    "}\n"
  }

  /** Where a string member's value starts: just after its opening quote. */
  function ValueStart(indent: string, key: string): nat {
    |indent + Quote(key) + ": \""|
  }

  /** A string member reads back as its field exactly when the field needs
      no escaping: the reader stops at the closing quote, leaving the
      member's tail. */
  lemma StringMemberReadsBack(indent: string, key: string, v: string, tail: string, rest: string)
    requires IsPlain(v)
    ensures var t := Member(indent, key, Quote(v), tail) + rest;
      ValueStart(indent, key) <= |t| &&
      ReadString(t[ValueStart(indent, key)..]) == Some((v, tail + "\n" + rest))
  {
    var t := Member(indent, key, Quote(v), tail) + rest;
    var pre := indent + Quote(key) + ": \"";
    assert t == pre + (v + "\"" + (tail + "\n" + rest));
    assert t[|pre|..] == v + "\"" + (tail + "\n" + rest);
    ReadPlain(v, tail + "\n" + rest);
  }

  /** A field holding a quote is not read back: the reader stops at the
      field's own quote and returns only what precedes it. */
  lemma QuoteInFieldTruncates(indent: string, key: string, a: string, b: string, tail: string, rest: string)
    requires IsPlain(a)
    ensures var t := Member(indent, key, Quote(a + "\"" + b), tail) + rest;
      ValueStart(indent, key) <= |t| &&
      ReadString(t[ValueStart(indent, key)..]) == Some((a, b + "\"" + tail + "\n" + rest))
  {
    var t := Member(indent, key, Quote(a + "\"" + b), tail) + rest;
    var pre := indent + Quote(key) + ": \"";
    assert t == pre + (a + "\"" + b + "\"" + (tail + "\n" + rest));
    assert t[|pre|..] == a + "\"" + b + "\"" + (tail + "\n" + rest);
    QuoteEndsEarly(a, b, tail + "\n" + rest);
    assert b + "\"" + (tail + "\n" + rest) == b + "\"" + tail + "\n" + rest;
  }

  /** A numeric member's digits read back as the number. */
  lemma NumberMemberReadsBack(n: nat)
    ensures AllDigits(NatToString(n)) && ParseDigits(NatToString(n)) == n
  {
    ParseNatToString(n);
  }

  // ---------------------------------------------------------------------
  // The program

  /** What one run of the collector does: its exit code, whether it
      printed the usage text, whether it opened (created or truncated)
      the `-o` file, and the document it wrote, if any. */
  datatype CollectorRun = CollectorRun(exitCode: int, usagePrinted: bool, fileOpened: bool, document: Option<string>)

  predicate RunsNetworkModule(o: Options) {
    o.moduleName == "network" || o.moduleName == "all"
  }

  /** The network scan happens for this command line. */
  predicate ScanRequested(args: seq<string>, outputOpens: bool) {
    var p := ParseArgs(args);
    p.Proceed? && (p.opts.output.None? || outputOpens) && RunsNetworkModule(p.opts)
  }

  /** `run_network_module`: scan, then print the document for the scan's
      result. */
  method RunNetworkModule(host: HostState, timestamp: int) returns (document: string)
    requires FitsFindingBuffer(host)
    ensures document == NetworkDocument(ScanResultOf(host), timestamp)
  {
    var result := ScanNetwork(host);
    document := NetworkDocument(result, timestamp);
  }

  /** `main`: parse, open the output file (`outputOpens` says whether
      `fopen` succeeds), dispatch the module. The configuration file is
      read by a stub and does not influence the run. */
  method RunCollector(args: seq<string>, outputOpens: bool, host: HostState, timestamp: int)
    returns (run: CollectorRun)
    requires ScanRequested(args, outputOpens) ==> FitsFindingBuffer(host)
    ensures ParseArgs(args).ShowHelp? ==> run == CollectorRun(0, true, false, None)
    ensures ParseArgs(args).Proceed? && (ParseArgs(args).opts.output.None? || outputOpens) && !RunsNetworkModule(ParseArgs(args).opts)
      ==> run.exitCode == 1 && run.usagePrinted && run.document.None?
    ensures run.document.Some? ==> !run.usagePrinted
    ensures run.fileOpened <==> ParseArgs(args).Proceed? && ParseArgs(args).opts.output.Some? && outputOpens
    ensures run.exitCode == 0 <==> ParseArgs(args).ShowHelp? || ScanRequested(args, outputOpens)
    ensures run.exitCode != 0 ==> run.exitCode == 1 && run.document.None?
    ensures run.document.Some? <==> ScanRequested(args, outputOpens)
    ensures run.document.Some? ==> run.document.value == NetworkDocument(ScanResultOf(host), timestamp)
    ensures ParseArgs(args).Proceed? && ParseArgs(args).opts.output.Some? && !outputOpens ==> !run.usagePrinted
  {
    var parsed := ParseArgs(args);
    if parsed.ShowHelp? {
      return CollectorRun(0, true, false, None);
    }
    var opts := parsed.opts;
    if opts.output.Some? && !outputOpens {
      return CollectorRun(1, false, false, None);
    }
    var fileOpened := opts.output.Some?;
    if RunsNetworkModule(opts) {
      var document := RunNetworkModule(host, timestamp);
      run := CollectorRun(0, false, fileOpened, Some(document));
    } else {
      run := CollectorRun(1, true, fileOpened, None);
    }
  }
}

=== FILE: engine_analysis.dfy ===
/** `analyze` of the Rust analysis engine
    (services/misconfig/engine/src/analysis.rs): severity-tagged findings
    with per-severity counters, the port severity table, the threshold
    rules, the recommendations and the boolean part of the compliance
    check. The elapsed-time measurement is not modelled. */
module EngineAnalysis {
  import opened Text
  import opened Seqs
  import opened EngineModels
  import opened EngineScoring

  // ---------------------------------------------------------------------
  // Individual findings

  const FirewallFinding := AnalyzedFinding("FW-001", "Firewall Disabled", Critical, "Network Security", "System-wide", 9.1)

  /** The port severity table of `analyze_risky_port`. */
  function PortSeverity(port: nat): Severity {
    if port == 23 || port == 139 || port == 445 then Critical
    else if port == 21 || port == 135 || port == 3389 || port == 5900 then High
    else Medium
  }

  function PortCvss(port: nat): real {
    match port
    case 21 => 7.5
    case 23 => 9.8
    case 135 => 8.1
    case 139 => 9.0
    case 445 => 9.0
    case 3389 => 8.8
    case 5900 => 7.5
    case _ => 5.0
  }

  /** A port finding is never LOW or INFO; CRITICAL and HIGH are fixed
      port sets. */
  lemma PortSeverityTable(port: nat)
    ensures PortSeverity(port) == Critical <==> port in {23, 139, 445}
    ensures PortSeverity(port) == High <==> port in {21, 135, 3389, 5900}
    ensures PortSeverity(port) == Medium <==> port !in {21, 23, 135, 139, 445, 3389, 5900}
    ensures PortSeverity(port) != Low && PortSeverity(port) != Info
  {
  }

  /** `analyze_risky_port`. */
  function AnalyzeRiskyPort(f: CollectorFinding): (a: AnalyzedFinding)
    ensures a.severity == PortSeverity(f.port)
    ensures |a.id| > 5 && a.id[..5] == "PORT-" && AllDigits(a.id[5..]) && ParseDigits(a.id[5..]) == f.port
  {
    var n := NatToString(f.port);
    ParseNatToString(f.port);
    AnalyzedFinding("PORT-" + n, "Risky Port " + n + " (" + f.service + ") Exposed",
      PortSeverity(f.port), "Network Exposure", f.binding + ":" + n, PortCvss(f.port))
  }

  /** Severity of the suspicious-connection finding by count. */
  function SuspiciousSeverity(count: nat): Severity {
    if count > 50 then High else if count > 20 then Medium else Low
  }

  function SuspiciousFinding(count: nat): AnalyzedFinding {
    AnalyzedFinding("NET-002", NatToString(count) + " Suspicious Network Connections Detected",
      SuspiciousSeverity(count), "Network Behavior", "Network Layer",
      if count > 50 then 7.8 else if count > 20 then 5.5 else 3.2)
  }

  lemma SuspiciousBands(count: nat)
    requires count > 0
    ensures SuspiciousSeverity(count) == High <==> count > 50
    ensures SuspiciousSeverity(count) == Medium <==> 21 <= count <= 50
    ensures SuspiciousSeverity(count) == Low <==> 1 <= count <= 20
  {
  }

  /** The informational finding for an active wireless interface: its id
      is the name with every space turned into a hyphen. */
  function WifiFinding(i: EngineInterface): (a: AnalyzedFinding)
    ensures a.severity == Info
    ensures |a.id| == 5 + |i.name| && a.id[..5] == "WIFI-"
    ensures forall k :: 0 <= k < |i.name| ==> a.id[5 + k] == (if i.name[k] == ' ' then '-' else i.name[k])
    ensures ' ' !in a.id
  {
    var id := "WIFI-" + ReplaceChar(i.name, ' ', '-');
    assert forall k :: 0 <= k < |id| ==> id[k] != ' ' by {
      forall k | 0 <= k < |id|
        ensures id[k] != ' '
      {
        if k >= 5 {
          assert id[k] == ReplaceChar(i.name, ' ', '-')[k - 5];
        }
      }
    }
    AnalyzedFinding(id, "Wireless Interface Active: " + i.name, Info, "Network Configuration", i.name, 0.0)
  }

  function ExposureFinding(count: nat): AnalyzedFinding {
    AnalyzedFinding("NET-003", NatToString(count) + " Services Exposed on All Interfaces",
      High, "Attack Surface", "Network Services", 7.3)
  }

  // ---------------------------------------------------------------------
  // The finding list, as a reference definition

  predicate IsRiskyPort(f: CollectorFinding) {
    f.findingType == "risky_port"
  }

  predicate IsSuspiciousConnection(f: CollectorFinding) {
    f.findingType == "suspicious_connection"
  }

  predicate IsActiveWireless(i: EngineInterface) {
    i.isWireless && i.isUp
  }

  predicate IsPubliclyExposed(f: CollectorFinding) {
    f.binding == "0.0.0.0" && f.findingType == "risky_port"
  }

  function FirewallPart(md: Metadata): seq<AnalyzedFinding> {
    if md.firewallEnabled then [] else [FirewallFinding]
  }

  function SuspiciousPart(count: nat): seq<AnalyzedFinding> {
    if count > 0 then [SuspiciousFinding(count)] else []
  }

  function ExposurePart(count: nat): seq<AnalyzedFinding> {
    if count > 3 then [ExposureFinding(count)] else []
  }

  /** The findings `analyze` reports, in the order it pushes them. */
  function ExpectedFindings(data: CollectorData): seq<AnalyzedFinding> {
    FirewallPart(data.metadata) +
    MapFilter(IsRiskyPort, AnalyzeRiskyPort, data.findings) +
    SuspiciousPart(CountWhere(IsSuspiciousConnection, data.findings)) +
    MapFilter(IsActiveWireless, WifiFinding, data.interfaces) +
    ExposurePart(CountWhere(IsPubliclyExposed, data.findings))
  }

  // ---------------------------------------------------------------------
  // Counters

  function Bump(s: Summary, sev: Severity): Summary {
    match sev
    case Critical => s.(critical := s.critical + 1)
    case High => s.(high := s.high + 1)
    case Medium => s.(medium := s.medium + 1)
    case Low => s.(low := s.low + 1)
    case Info => s.(info := s.info + 1)
  }

  /** The counters a finding list calls for: one per finding, under its
      severity. */
  function Tally(fs: seq<AnalyzedFinding>): Summary
    decreases |fs|
  {
    if |fs| == 0 then EmptySummary else Bump(Tally(fs[..|fs| - 1]), fs[|fs| - 1].severity)
  }

  predicate HasSeverity(sev: Severity, f: AnalyzedFinding) {
    f.severity == sev
  }

  /** The counter a summary keeps for one severity. */
  function Counter(s: Summary, sev: Severity): nat {
    match sev
    case Critical => s.critical
    case High => s.high
    case Medium => s.medium
    case Low => s.low
    case Info => s.info
  }

  /** The tally's counters add up to the number of findings. */
  lemma {:induction false} TallyTotal(fs: seq<AnalyzedFinding>)
    ensures Total(Tally(fs)) == |fs|
    decreases |fs|
  {
    if |fs| > 0 {
      var n := |fs| - 1;
      TallyTotal(fs[..n]);
      assert Tally(fs) == Bump(Tally(fs[..n]), fs[n].severity);
      BumpTotal(Tally(fs[..n]), fs[n].severity);
    }
  }

  /** A bump adds one to exactly one counter. */
  lemma BumpTotal(s: Summary, sev: Severity)
    ensures Total(Bump(s, sev)) == Total(s) + 1
  {
  }

  /** Each counter of the tally is the number of findings of that
      severity. */
  lemma {:induction false} TallyCounter(fs: seq<AnalyzedFinding>, sev: Severity)
    ensures Counter(Tally(fs), sev) == CountWhere(f => HasSeverity(sev, f), fs)
    decreases |fs|
  {
    if |fs| > 0 {
      var n := |fs| - 1;
      TallyCounter(fs[..n], sev);
      assert fs[..n] + [fs[n]] == fs;
      CountAppend(f => HasSeverity(sev, f), fs[..n], [fs[n]]);
      assert CountWhere(f => HasSeverity(sev, f), [fs[n]]) == if fs[n].severity == sev then 1 else 0;
    }
  }

  lemma TallySnoc(fs: seq<AnalyzedFinding>, f: AnalyzedFinding)
    ensures Tally(fs + [f]) == Bump(Tally(fs), f.severity)
  {
    assert (fs + [f])[..|fs|] == fs;
  }

  // ---------------------------------------------------------------------
  // Recommendations and compliance

  /** `generate_recommendations`. */
  function Recommendations(s: Summary, md: Metadata): seq<Recommendation> {
    (if s.critical > 0 then [Recommendation(1, "Address Critical Security Issues Immediately")] else []) +
    (if !md.firewallEnabled then [Recommendation(1, "Enable Windows Firewall on All Profiles")] else []) +
    (if s.high > 0 then [Recommendation(2, "Review and Secure High-Risk Services")] else []) +
    [Recommendation(3, "Implement Network Segmentation"),
     Recommendation(4, "Enable Comprehensive Logging and Monitoring")]
  }

  predicate NonDecreasingPriorities(rs: seq<Recommendation>) {
    forall i, j :: 0 <= i < j < |rs| ==> rs[i].priority <= rs[j].priority
  }

  /** The recommendations are ordered by priority; priority 1 appears only
      for critical findings or a disabled firewall, priority 2 only for
      high findings; the fixed priority-3 and priority-4 entries close the
      list. */
  lemma RecommendationsShape(s: Summary, md: Metadata)
    ensures var rs := Recommendations(s, md);
      && NonDecreasingPriorities(rs)
      && 2 <= |rs| <= 5
      && rs[|rs| - 2].priority == 3 && rs[|rs| - 1].priority == 4
      && ((exists k :: 0 <= k < |rs| && rs[k].priority == 1) <==> s.critical > 0 || !md.firewallEnabled)
      && ((exists k :: 0 <= k < |rs| && rs[k].priority == 2) <==> s.high > 0)
  {
    var rs := Recommendations(s, md);
    var a := if s.critical > 0 then [Recommendation(1, "Address Critical Security Issues Immediately")] else [];
    var b := if !md.firewallEnabled then [Recommendation(1, "Enable Windows Firewall on All Profiles")] else [];
    var c := if s.high > 0 then [Recommendation(2, "Review and Secure High-Risk Services")] else [];
    var d := [Recommendation(3, "Implement Network Segmentation"),
              Recommendation(4, "Enable Comprehensive Logging and Monitoring")];
    assert rs == a + b + c + d;
    assert forall k :: 0 <= k < |rs| ==>
      rs[k].priority == (if k < |a| + |b| then 1 else if k < |a| + |b| + |c| then 2 else k - |a| - |b| - |c| + 3);
    if s.critical > 0 || !md.firewallEnabled {
      assert rs[0].priority == 1;
    }
    if s.high > 0 {
      assert rs[|a| + |b|].priority == 2;
    }
  }

  /** The boolean part of `calculate_compliance`. */
  function ComplianceOf(s: Summary, md: Metadata): (c: Compliance)
    ensures c.pciDssCompliant <==> md.firewallEnabled && s.critical == 0
    ensures |c.issues| == 0 <==> c.pciDssCompliant
    ensures |c.issues| <= 3
  {
    var pci := md.firewallEnabled && s.critical == 0;
    Compliance(pci,
      (if !md.firewallEnabled then ["CIS 9.2.1: Firewall must be enabled"] else []) +
      (if s.critical > 0 then ["CIS 1.1: Critical vulnerabilities present"] else []) +
      (if !pci then ["PCI-DSS 1.1: Firewall must be configured and enabled"] else []))
  }

  // ---------------------------------------------------------------------
  // The analysis

  /** The risky-port loop: one analysed finding per `risky_port` record,
      counted under its severity. */
  method AddPortFindings(records: seq<CollectorFinding>, findings0: seq<AnalyzedFinding>, summary0: Summary)
    returns (findings: seq<AnalyzedFinding>, summary: Summary)
    requires summary0 == Tally(findings0)
    ensures findings == findings0 + MapFilter(IsRiskyPort, AnalyzeRiskyPort, records)
    ensures summary == Tally(findings)
  {
    findings, summary := findings0, summary0;
    var i := 0;
    while i < |records|
      invariant 0 <= i <= |records|
      invariant findings == findings0 + MapFilter(IsRiskyPort, AnalyzeRiskyPort, records[..i])
      invariant summary == Tally(findings)
    {
      var f := records[i];
      assert records[..i + 1] == records[..i] + [f];
      MapFilterSnoc(IsRiskyPort, AnalyzeRiskyPort, records[..i], f);
      if f.findingType == "risky_port" {
        var analyzed := AnalyzeRiskyPort(f);
        summary := Bump(summary, analyzed.severity);
        TallySnoc(findings, analyzed);
        findings := findings + [analyzed];
      }
      i := i + 1;
    }
    assert records[..|records|] == records;
  }

  /** The suspicious-connection counting loop. */
  method CountSuspicious(records: seq<CollectorFinding>) returns (count: nat)
    ensures count == CountWhere(IsSuspiciousConnection, records)
    ensures count > 0 <==> exists k :: 0 <= k < |records| && records[k].findingType == "suspicious_connection"
  {
    count := 0;
    var j := 0;
    while j < |records|
      invariant 0 <= j <= |records|
      invariant count == CountWhere(IsSuspiciousConnection, records[..j])
    {
      assert records[..j + 1] == records[..j] + [records[j]];
      CountAppend(IsSuspiciousConnection, records[..j], [records[j]]);
      if records[j].findingType == "suspicious_connection" {
        count := count + 1;
      }
      j := j + 1;
    }
    assert records[..|records|] == records;
    CountPositive(IsSuspiciousConnection, records);
  }

  /** One iteration of the interface loop. */
  method AddWifiStep(iface: EngineInterface, findings0: seq<AnalyzedFinding>, summary0: Summary)
    returns (findings: seq<AnalyzedFinding>, summary: Summary)
    requires summary0 == Tally(findings0)
    ensures findings == findings0 + (if IsActiveWireless(iface) then [WifiFinding(iface)] else [])
    ensures summary == Tally(findings)
  {
    findings, summary := findings0, summary0;
    if iface.isWireless && iface.isUp {
      var wf := WifiFinding(iface);
      TallySnoc(findings, wf);
      summary := summary.(info := summary.info + 1);
      findings := findings + [wf];
    }
  }

  /** The interface loop: one informational finding per active wireless
      interface. */
  method AddWifiFindings(ifaces: seq<EngineInterface>, findings0: seq<AnalyzedFinding>, summary0: Summary)
    returns (findings: seq<AnalyzedFinding>, summary: Summary)
    requires summary0 == Tally(findings0)
    ensures findings == findings0 + MapFilter(IsActiveWireless, WifiFinding, ifaces)
    ensures summary == Tally(findings)
  {
    findings, summary := findings0, summary0;
    var k := 0;
    while k < |ifaces|
      invariant 0 <= k <= |ifaces|
      invariant findings == findings0 + MapFilter(IsActiveWireless, WifiFinding, ifaces[..k])
      invariant summary == Tally(findings)
    {
      WifiPrefixStep(ifaces, k);
      findings, summary := AddWifiStep(ifaces[k], findings, summary);
      k := k + 1;
    }
    assert ifaces[..|ifaces|] == ifaces;
  }

  /** The wireless findings of one more interface extend those of the
      prefix by at most one finding. */
  lemma WifiPrefixStep(ifaces: seq<EngineInterface>, k: nat)
    requires k < |ifaces|
    ensures MapFilter(IsActiveWireless, WifiFinding, ifaces[..k + 1]) ==
      MapFilter(IsActiveWireless, WifiFinding, ifaces[..k]) + (if IsActiveWireless(ifaces[k]) then [WifiFinding(ifaces[k])] else [])
  {
    assert ifaces[..k + 1] == ifaces[..k] + [ifaces[k]];
    MapFilterSnoc(IsActiveWireless, WifiFinding, ifaces[..k], ifaces[k]);
  }

  /** The NET-002 step of `analyze`: one finding when any connection is
      suspicious, counted under its severity band. */
  method AddSuspiciousFinding(suspicious: nat, findings0: seq<AnalyzedFinding>, summary0: Summary)
    returns (findings: seq<AnalyzedFinding>, summary: Summary)
    requires summary0 == Tally(findings0)
    ensures findings == findings0 + SuspiciousPart(suspicious)
    ensures summary == Tally(findings)
  {
    findings, summary := findings0, summary0;
    if suspicious > 0 {
      var nf := SuspiciousFinding(suspicious);
      if suspicious > 50 {
        summary := summary.(high := summary.high + 1);
      } else if suspicious > 20 {
        summary := summary.(medium := summary.medium + 1);
      } else {
        summary := summary.(low := summary.low + 1);
      }
      TallySnoc(findings, nf);
      findings := findings + [nf];
    }
  }

  /** The NET-003 step of `analyze`: one HIGH finding when more than three
      services listen on all interfaces. */
  method AddExposureFinding(exposed: nat, findings0: seq<AnalyzedFinding>, summary0: Summary)
    returns (findings: seq<AnalyzedFinding>, summary: Summary)
    requires summary0 == Tally(findings0)
    ensures findings == findings0 + ExposurePart(exposed)
    ensures summary == Tally(findings)
  {
    findings, summary := findings0, summary0;
    if exposed > 3 {
      var ef := ExposureFinding(exposed);
      TallySnoc(findings, ef);
      summary := summary.(high := summary.high + 1);
      findings := findings + [ef];
    }
  }

  /** The finding-building part of `analyze`: the rules in order, each
      finding counted under its severity as it is pushed. */
  method CollectFindings(data: CollectorData) returns (findings: seq<AnalyzedFinding>, summary: Summary)
    ensures findings == ExpectedFindings(data)
    ensures summary == Tally(findings)
  {
    findings := [];
    summary := EmptySummary;
    if !data.metadata.firewallEnabled {
      summary := summary.(critical := summary.critical + 1);
      findings := findings + [FirewallFinding];
    }
    assert findings == FirewallPart(data.metadata);
    assert summary == Tally(findings);

    findings, summary := AddPortFindings(data.findings, findings, summary);
    var suspicious := CountSuspicious(data.findings);
    findings, summary := AddSuspiciousFinding(suspicious, findings, summary);
    findings, summary := AddWifiFindings(data.interfaces, findings, summary);
    var exposed := CountWhere(IsPubliclyExposed, data.findings);
    findings, summary := AddExposureFinding(exposed, findings, summary);
  }

  /** `analyze`: the findings, then recommendations, compliance, risk
      index and posture computed from the counters. */
  method Analyze(data: CollectorData) returns (report: SecurityReport)
    ensures report.findings == ExpectedFindings(data)
    ensures report.summary == Tally(report.findings)
    ensures Total(report.summary) == |report.findings|
    ensures report.recommendations == Recommendations(report.summary, data.metadata)
    ensures report.compliance == ComplianceOf(report.summary, data.metadata)
    ensures report.riskIndex == RiskIndex(report.summary, data.metadata)
    ensures report.posture == PostureText(DeterminePosture(report.riskIndex))
    ensures report.metadata == ReportMetadata(data.timestamp, "2.0.0", |data.findings|)
  {
    var findings, summary := CollectFindings(data);
    TallyTotal(findings);
    var risk := RiskIndex(summary, data.metadata);
    report := SecurityReport(risk, PostureText(DeterminePosture(risk)), summary, findings,
      Recommendations(summary, data.metadata), ComplianceOf(summary, data.metadata),
      ReportMetadata(data.timestamp, "2.0.0", |data.findings|));
  }

  // ---------------------------------------------------------------------
  // What the finding list says

  /** FW-001 is the first finding exactly when the firewall is disabled,
      and counts as one critical finding. */
  lemma FirewallFindingFirst(data: CollectorData)
    ensures var fs := ExpectedFindings(data);
      (|fs| > 0 && fs[0] == FirewallFinding) <==> !data.metadata.firewallEnabled
  {
    var fs := ExpectedFindings(data);
    var rest := MapFilter(IsRiskyPort, AnalyzeRiskyPort, data.findings) +
      SuspiciousPart(CountWhere(IsSuspiciousConnection, data.findings)) +
      MapFilter(IsActiveWireless, WifiFinding, data.interfaces) +
      ExposurePart(CountWhere(IsPubliclyExposed, data.findings));
    assert fs == FirewallPart(data.metadata) + rest;
    if data.metadata.firewallEnabled && |fs| > 0 {
      assert fs[0] == rest[0];
      assert fs[0].id != "FW-001" by {
        FirstIsNotFirewall(data);
      }
    }
  }

  /** Port and wireless findings never carry an id starting with 'F'. */
  lemma MappedIdsNotFirewall(data: CollectorData)
    ensures forall f :: f in MapFilter(IsRiskyPort, AnalyzeRiskyPort, data.findings) ==> |f.id| > 0 && f.id[0] == 'P'
    ensures forall f :: f in MapFilter(IsActiveWireless, WifiFinding, data.interfaces) ==> |f.id| > 0 && f.id[0] == 'W'
  {
    var ports := MapFilter(IsRiskyPort, AnalyzeRiskyPort, data.findings);
    var wifi := MapFilter(IsActiveWireless, WifiFinding, data.interfaces);
    MapFilterMatch(IsRiskyPort, AnalyzeRiskyPort, data.findings);
    MapFilterMatch(IsActiveWireless, WifiFinding, data.interfaces);
    forall f | f in ports
      ensures |f.id| > 0 && f.id[0] == 'P'
    {
      var k :| 0 <= k < |ports| && ports[k] == f;
      assert f.id[..5] == "PORT-";
    }
    forall f | f in wifi
      ensures |f.id| > 0 && f.id[0] == 'W'
    {
      var k :| 0 <= k < |wifi| && wifi[k] == f;
      assert f.id[..5] == "WIFI-";
    }
  }

  /** No finding after the firewall part carries the FW-001 id. */
  lemma FirstIsNotFirewall(data: CollectorData)
    ensures var rest := MapFilter(IsRiskyPort, AnalyzeRiskyPort, data.findings) +
      SuspiciousPart(CountWhere(IsSuspiciousConnection, data.findings)) +
      MapFilter(IsActiveWireless, WifiFinding, data.interfaces) +
      ExposurePart(CountWhere(IsPubliclyExposed, data.findings));
      |rest| > 0 ==> rest[0].id != "FW-001"
  {
    var rest := MapFilter(IsRiskyPort, AnalyzeRiskyPort, data.findings) +
      SuspiciousPart(CountWhere(IsSuspiciousConnection, data.findings)) +
      MapFilter(IsActiveWireless, WifiFinding, data.interfaces) +
      ExposurePart(CountWhere(IsPubliclyExposed, data.findings));
    MappedIdsNotFirewall(data);
    if |rest| > 0 {
      assert rest[0] in rest;
      assert "FW-001"[0] == 'F';
    }
  }

  /** Port findings come right after the firewall part, one per
      `risky_port` record, in input order, each with the table severity. */
  lemma PortSection(data: CollectorData)
    ensures var f := |FirewallPart(data.metadata)|;
      var ports := MapFilter(IsRiskyPort, AnalyzeRiskyPort, data.findings);
      f + |ports| <= |ExpectedFindings(data)| && ExpectedFindings(data)[f..f + |ports|] == ports
  {
    var head := FirewallPart(data.metadata);
    var ports := MapFilter(IsRiskyPort, AnalyzeRiskyPort, data.findings);
    var tail := SuspiciousPart(CountWhere(IsSuspiciousConnection, data.findings)) +
      MapFilter(IsActiveWireless, WifiFinding, data.interfaces) +
      ExposurePart(CountWhere(IsPubliclyExposed, data.findings));
    assert ExpectedFindings(data) == head + ports + tail;
  }

  lemma PortFindingsInOrder(data: CollectorData, k: nat)
    requires k < |Filter(IsRiskyPort, data.findings)|
    ensures var f := |FirewallPart(data.metadata)|;
      f + k < |ExpectedFindings(data)| &&
      ExpectedFindings(data)[f + k] == AnalyzeRiskyPort(Filter(IsRiskyPort, data.findings)[k])
  {
    MapFilterMatch(IsRiskyPort, AnalyzeRiskyPort, data.findings);
    PortSection(data);
    var f := |FirewallPart(data.metadata)|;
    var ports := MapFilter(IsRiskyPort, AnalyzeRiskyPort, data.findings);
    assert ExpectedFindings(data)[f..f + |ports|][k] == ports[k];
  }

  /** The counter of every severity is the number of findings of that
      severity, and the five counters add up to the number of findings. */
  lemma SummaryMatchesFindings(data: CollectorData)
    ensures Total(Tally(ExpectedFindings(data))) == |ExpectedFindings(data)|
    ensures forall sev ::
      Counter(Tally(ExpectedFindings(data)), sev) == CountWhere(f => HasSeverity(sev, f), ExpectedFindings(data))
  {
    TallyTotal(ExpectedFindings(data));
    forall sev {
      TallyCounter(ExpectedFindings(data), sev);
    }
  }

  /** The number of findings, rule by rule. */
  lemma FindingCount(data: CollectorData)
    ensures |ExpectedFindings(data)| ==
      (if data.metadata.firewallEnabled then 0 else 1) +
      CountWhere(IsRiskyPort, data.findings) +
      (if CountWhere(IsSuspiciousConnection, data.findings) > 0 then 1 else 0) +
      CountWhere(IsActiveWireless, data.interfaces) +
      (if CountWhere(IsPubliclyExposed, data.findings) > 3 then 1 else 0)
  {
    MapFilterMatch(IsRiskyPort, AnalyzeRiskyPort, data.findings);
    MapFilterMatch(IsActiveWireless, WifiFinding, data.interfaces);
    CountIsFilterLength(IsRiskyPort, data.findings);
    CountIsFilterLength(IsActiveWireless, data.interfaces);
  }
}

=== FILE: engine_cli.dfy ===
/** The command line of the Rust analysis engine
    (services/misconfig/engine/src/main.rs): which argument names the
    collector document, and the exit status of a run. Reading the file
    and parsing its JSON are parameters; the banner, the coloured console
    report and the saved report file are not modelled. */
module EngineCli {
  import opened Wrappers
  import opened EngineModels
  import opened EngineAnalysis

  /** The outcome of argument selection. */
  datatype InputChoice = UsageError | MissingInputPath | InputPath(path: string)

  /** Position of the first `s` in `args`, searching from the front. */
  function FirstIndex(args: seq<string>, s: string): (r: Option<nat>)
    ensures r.None? <==> s !in args
    ensures r.Some? ==> r.value < |args| && args[r.value] == s && s !in args[..r.value]
  {
    if |args| == 0 then None
    else if args[0] == s then Some(0)
    else
      match FirstIndex(args[1..], s)
      case None => None
      case Some(i) =>
        assert args[..i + 1] == [args[0]] + args[1..][..i];
        Some(i + 1)
  }

  /** The input path: fewer than two arguments is a usage error; exactly
      one argument after the program name is the path; otherwise the
      argument after the first `--input`, or the last argument when there
      is no `--input`. */
  function SelectInput(args: seq<string>): (c: InputChoice)
    ensures c.UsageError? <==> |args| < 2
    ensures |args| == 2 ==> c == InputPath(args[1])
    ensures |args| > 2 && "--input" !in args ==> c == InputPath(args[|args| - 1])
    ensures c.MissingInputPath? <==> |args| > 2 && "--input" in args && "--input" !in args[..|args| - 1]
    ensures c.InputPath? ==> c.path in args[1..]
  {
    if |args| < 2 then UsageError
    else if |args| == 2 then InputPath(args[1])
    else
      match FirstIndex(args, "--input")
      case None => InputPath(args[|args| - 1])
      case Some(idx) =>
        if idx + 1 >= |args| then MissingInputPath
        else
          assert args[idx + 1] == args[1..][idx];
          InputPath(args[idx + 1])
  }

  /** With `--input` followed by a value, the value right after its first
      occurrence is the path, whatever comes later. */
  lemma InputFlagSelects(pre: seq<string>, path: string, post: seq<string>)
    requires "--input" !in pre && |pre| >= 1
    ensures SelectInput(pre + ["--input", path] + post) == InputPath(path)
  {
    var args := pre + ["--input", path] + post;
    var r := FirstIndex(args, "--input");
    assert args[|pre|] == "--input";
    assert args[..|pre|] == pre;
    assert r == Some(|pre|);
    assert args[|pre| + 1] == path;
  }

  datatype EngineRun = EngineRun(exitCode: int, report: Option<SecurityReport>)

  /** `main`: select the input, read it, parse it, analyse it. Every
      failure before the analysis exits 1 with no report; a failure to
      save the report file only warns, so a finished analysis exits 0. */
  method RunEngine(args: seq<string>, read: string -> Option<string>, parse: string -> Option<CollectorData>)
    returns (run: EngineRun)
    ensures run.exitCode == 0 || run.exitCode == 1
    ensures run.exitCode == 0 <==> run.report.Some?
    ensures run.exitCode == 0 <==>
      SelectInput(args).InputPath? && read(SelectInput(args).path).Some? &&
      parse(read(SelectInput(args).path).value).Some?
    ensures run.report.Some? ==>
      run.report.value.findings == ExpectedFindings(parse(read(SelectInput(args).path).value).value)
  {
    var choice := SelectInput(args);
    if !choice.InputPath? {
      return EngineRun(1, None);
    }
    var content := read(choice.path);
    if content.None? {
      return EngineRun(1, None);
    }
    var data := parse(content.value);
    if data.None? {
      return EngineRun(1, None);
    }
    var report := Analyze(data.value);
    run := EngineRun(0, Some(report));
  }
}

=== FILE: engine_models.dfy ===
/** Record types of the Rust analysis engine
    (misconfig/engine/src/models.rs): the collector document it reads and
    the report it builds. Severities, which the engine carries as strings,
    are a datatype here; `SeverityName` gives the string. Prose fields
    (reasoning, remediation, rationale, impact) are not carried, and
    `f32` values are reals. */
module EngineModels {

  /** A collector interface record. */
  datatype EngineInterface = EngineInterface(
    name: string, description: string, mac: string, ipv4: string,
    ipv6: string, gateway: string, isUp: bool, isWireless: bool)

  /** A collector finding record; `findingType` is the JSON `type` key. */
  datatype CollectorFinding = CollectorFinding(
    findingType: string, port: nat, protocol: string, service: string,
    binding: string, state: string, process: string, pid: int,
    riskLevel: string)

  datatype Metadata = Metadata(
    scanDurationMs: nat, interfacesFound: nat, openPorts: nat,
    activeConnections: nat, firewallEnabled: bool)

  datatype CollectorData = CollectorData(
    collector: string, timestamp: int, interfaces: seq<EngineInterface>,
    findings: seq<CollectorFinding>, metadata: Metadata)

  datatype Severity = Critical | High | Medium | Low | Info

  function SeverityName(s: Severity): string {
    match s
    case Critical => "CRITICAL"
    case High => "HIGH"
    case Medium => "MEDIUM"
    case Low => "LOW"
    case Info => "INFO"
  }

  datatype AnalyzedFinding = AnalyzedFinding(
    id: string, title: string, severity: Severity, category: string,
    affectedAsset: string, cvss: real)

  /** Per-severity counters (`FindingSummary`). */
  datatype Summary = Summary(critical: nat, high: nat, medium: nat, low: nat, info: nat)

  const EmptySummary := Summary(0, 0, 0, 0, 0)

  function Total(s: Summary): nat {
    s.critical + s.high + s.medium + s.low + s.info
  }

  datatype Recommendation = Recommendation(priority: nat, action: string)

  /** The boolean part of `ComplianceStatus`; the CIS and NIST percentages
      are not modelled. */
  datatype Compliance = Compliance(pciDssCompliant: bool, issues: seq<string>)

  datatype ReportMetadata = ReportMetadata(scanTimestamp: int, engineVersion: string, totalChecks: nat)

  datatype SecurityReport = SecurityReport(
    riskIndex: real, posture: string, summary: Summary,
    findings: seq<AnalyzedFinding>, recommendations: seq<Recommendation>,
    compliance: Compliance, metadata: ReportMetadata)
}

=== FILE: engine_reporter.dfy ===
/** The selection logic of the engine's console reporter
    (misconfig/engine/src/reporter.rs): severity icons, which findings the
    detailed section shows and how it groups them, how many
    recommendations are shown, and the executive summary. Colours and
    decimal formatting of reals are not modelled: the rendered risk index
    and compliance percentages are parameters. */
module EngineReporter {
  import opened Wrappers
  import opened Text
  import opened Seqs
  import opened EngineModels
  import opened EngineAnalysis

  const CriticalIcon: string := "🔴"
  const HighIcon: string := "🟠"
  const MediumIcon: string := "🟡"
  const LowIcon: string := "🟢"
  const InfoIcon: string := "ℹ️"

  /** `get_severity_icon`, over the severity string. */
  function SeverityIcon(severity: string): string {
    if severity == "CRITICAL" then CriticalIcon
    else if severity == "HIGH" then HighIcon
    else if severity == "MEDIUM" then MediumIcon
    else if severity == "LOW" then LowIcon
    else InfoIcon
  }

  /** The four named severities get four distinct icons, none of them the
      info icon; every other string gets the info icon. */
  lemma SeverityIconsDistinct(a: string, b: string)
    requires a in {"CRITICAL", "HIGH", "MEDIUM", "LOW"}
    ensures SeverityIcon(a) != InfoIcon
    ensures SeverityIcon(a) == SeverityIcon(b) <==> a == b
  {
  }

  lemma OtherSeverityIsInfo(s: string)
    requires s !in {"CRITICAL", "HIGH", "MEDIUM", "LOW"}
    ensures SeverityIcon(s) == InfoIcon
  {
  }

  // ---------------------------------------------------------------------
  // The detailed findings section

  /** One printed severity group: its header line and its findings. */
  datatype GroupView = GroupView(header: string, items: seq<AnalyzedFinding>)

  /** `display_findings_group`: nothing for an empty group. */
  function FindingsGroup(items: seq<AnalyzedFinding>, severity: string): (g: Option<GroupView>)
    ensures g.None? <==> |items| == 0
    ensures g.Some? ==> g.value.items == items && IsPrefix(SeverityIcon(severity), g.value.header)
  {
    if |items| == 0 then None
    else Some(GroupView(SeverityIcon(severity) + " " + severity + " Severity Findings:", items))
  }

  function OptionToSeq<T>(o: Option<T>): seq<T> {
    if o.Some? then [o.value] else []
  }

  function OfSeverity(sev: Severity, fs: seq<AnalyzedFinding>): seq<AnalyzedFinding> {
    Filter(f => HasSeverity(sev, f), fs)
  }

  /** The detailed section of `display_report`: absent when there are no
      findings; otherwise the non-empty CRITICAL, HIGH and MEDIUM groups,
      in that order. */
  function DetailedSection(fs: seq<AnalyzedFinding>): (r: Option<seq<GroupView>>)
    ensures r.None? <==> |fs| == 0
    ensures r.Some? ==> |r.value| <= 3
  {
    if |fs| == 0 then None
    else Some(
      OptionToSeq(FindingsGroup(OfSeverity(Critical, fs), "CRITICAL")) +
      OptionToSeq(FindingsGroup(OfSeverity(High, fs), "HIGH")) +
      OptionToSeq(FindingsGroup(OfSeverity(Medium, fs), "MEDIUM")))
  }

  predicate Shown(sev: Severity) {
    sev == Critical || sev == High || sev == Medium
  }

  /** Every finding the detailed section shows is CRITICAL, HIGH or
      MEDIUM and comes from the report; LOW and INFO findings never
      appear. */
  lemma DetailedShowsOnlyUpToMedium(fs: seq<AnalyzedFinding>)
    requires |fs| > 0
    ensures forall g, f :: g in DetailedSection(fs).value && f in g.items ==> Shown(f.severity) && f in fs
  {
    var c := OfSeverity(Critical, fs);
    var h := OfSeverity(High, fs);
    var m := OfSeverity(Medium, fs);
    assert forall f :: f in c ==> f.severity == Critical && f in fs;
    assert forall f :: f in h ==> f.severity == High && f in fs;
    assert forall f :: f in m ==> f.severity == Medium && f in fs;
  }

  /** A finding of a shown severity is in the group of its severity. */
  lemma DetailedShowsEveryUpToMedium(fs: seq<AnalyzedFinding>, f: AnalyzedFinding)
    requires f in fs && Shown(f.severity)
    ensures exists g :: g in DetailedSection(fs).value && f in g.items && g.header == FindingsGroup(g.items, SeverityName(f.severity)).value.header
  {
    var sec := DetailedSection(fs).value;
    var items := OfSeverity(f.severity, fs);
    var sev := f.severity;
    FilterKeeps(x => HasSeverity(sev, x), fs, f);
    assert f in items;
    var g := FindingsGroup(items, SeverityName(f.severity)).value;
    if f.severity == Critical {
      assert sec[0] == g;
    } else if f.severity == High {
      assert g in sec;
    } else {
      assert sec[|sec| - 1] == g;
    }
  }

  /** The groups appear in severity order: CRITICAL before HIGH before
      MEDIUM. */
  lemma DetailedGroupOrder(fs: seq<AnalyzedFinding>)
    requires |fs| > 0 && |OfSeverity(Critical, fs)| > 0 && |OfSeverity(High, fs)| > 0 && |OfSeverity(Medium, fs)| > 0
    ensures var sec := DetailedSection(fs).value;
      |sec| == 3 && sec[0].items == OfSeverity(Critical, fs) && sec[1].items == OfSeverity(High, fs) &&
      sec[2].items == OfSeverity(Medium, fs)
  {
  }

  // ---------------------------------------------------------------------
  // Recommendations and the executive summary

  /** The recommendations `display_report` prints: the first five, in
      order. */
  function TopRecommendations(rs: seq<Recommendation>): (top: seq<Recommendation>)
    ensures |top| == if |rs| < 5 then |rs| else 5
    ensures top == rs[..|top|]
  {
    if |rs| <= 5 then rs else rs[..5]
  }

  function ActionLine(r: Recommendation): string {
    "  • " + r.action
  }

  function ActionLines(rs: seq<Recommendation>): (lines: seq<string>)
    ensures |lines| == |rs|
    ensures forall k :: 0 <= k < |rs| ==> lines[k] == ActionLine(rs[k])
  {
    seq(|rs|, k requires 0 <= k < |rs| => ActionLine(rs[k]))
  }

  /** The "Immediate Actions Required" block: the first three actions as
      bullet lines joined by newlines. */
  function ActionsBlock(rs: seq<Recommendation>): string {
    Join(ActionLines(if |rs| <= 3 then rs else rs[..3]), "\n")
  }

  /** With newline-free actions the block has one line per shown action,
      at most three, each the bullet and the action of that
      recommendation. */
  lemma ActionsBlockLines(rs: seq<Recommendation>)
    requires |rs| >= 1
    requires forall k :: 0 <= k < |rs| ==> '\n' !in rs[k].action
    ensures var lines := Split(ActionsBlock(rs), '\n');
      |lines| == (if |rs| < 3 then |rs| else 3) &&
      forall k :: 0 <= k < |lines| ==> lines[k] == "  • " + rs[k].action
  {
    var shown := if |rs| <= 3 then rs else rs[..3];
    var lines := ActionLines(shown);
    forall k | 0 <= k < |lines|
      ensures '\n' !in lines[k]
    {
      assert lines[k] == "  • " + shown[k].action;
    }
    SplitJoin(lines, '\n');
  }

  /** The urgency phrase of the closing sentence. */
  function Urgency(s: Summary): string {
    if s.critical > 0 then "IMMEDIATE ACTION"
    else if s.high > 0 then "URGENT ATTENTION"
    else "timely remediation"
  }

  lemma UrgencyCases(s: Summary)
    ensures Urgency(s) == "IMMEDIATE ACTION" <==> s.critical > 0
    ensures Urgency(s) == "URGENT ATTENTION" <==> s.critical == 0 && s.high > 0
    ensures Urgency(s) == "timely remediation" <==> s.critical == 0 && s.high == 0
  {
  }

  function PciLabel(c: Compliance): string {
    if c.pciDssCompliant then "Compliant" else "Non-Compliant"
  }

  lemma PciLabelCases(c: Compliance)
    ensures PciLabel(c) == "Compliant" <==> c.pciDssCompliant
  {
  }

  /** `generate_executive_summary`; `riskText`, `cisText` and `nistText`
      are the decimal renderings of the risk index and the two compliance
      percentages. */
  function ExecutiveSummary(r: SecurityReport, riskText: string, cisText: string, nistText: string): (text: string)
    ensures Contains(text, "Overall Security Posture: " + r.posture + "\n")
    ensures Contains(text, "- PCI-DSS: " + PciLabel(r.compliance) + "\n\n")
    ensures Contains(text, "Immediate Actions Required:\n" + ActionsBlock(r.recommendations) + "\n\n")
    ensures Contains(text, "This system requires " + Urgency(r.summary) + " to address identified security gaps.")
  {
    var a := "\nEXECUTIVE SUMMARY\n=================\n\n";
    var b := "Overall Security Posture: " + r.posture + "\n";
    var c := "Risk Index: " + riskText + "/10.0\n\nKey Findings:\n" +
      "- " + NatToString(r.summary.critical) + " Critical vulnerabilities requiring immediate attention\n" +
      "- " + NatToString(r.summary.high) + " High-severity issues needing urgent remediation\n" +
      "- " + NatToString(r.summary.medium) + " Medium-severity concerns to address\n\n" +
      "Compliance Status:\n- CIS Benchmark: " + cisText + "%\n- NIST Framework: " + nistText + "%\n";
    var d := "- PCI-DSS: " + PciLabel(r.compliance) + "\n\n";
    var f := "Immediate Actions Required:\n" + ActionsBlock(r.recommendations) + "\n\n";
    var h := "This system requires " + Urgency(r.summary) + " to address identified security gaps.";
    var i := "\n        ";
    var th := h + i;
    var tf := f + th;
    var td := d + tf;
    var tc := c + td;
    var tb := b + tc;
    ContainsStart(h, i);
    ContainsAfter(f, th, h);
    ContainsAfter(d, tf, h);
    ContainsAfter(c, td, h);
    ContainsAfter(b, tc, h);
    ContainsAfter(a, tb, h);
    ContainsStart(f, th);
    ContainsAfter(d, tf, f);
    ContainsAfter(c, td, f);
    ContainsAfter(b, tc, f);
    ContainsAfter(a, tb, f);
    ContainsStart(d, tf);
    ContainsAfter(c, td, d);
    ContainsAfter(b, tc, d);
    ContainsAfter(a, tb, d);
    ContainsStart(b, tc);
    ContainsAfter(a, tb, b);
    a + tb
  }
}

=== FILE: engine_scoring.dfy ===
/** The risk index and posture bands of the Rust analysis engine
    (services/misconfig/engine/src/scoring.rs), over reals. The final
    rounding to two decimals is not modelled. */
module EngineScoring {
  import opened EngineModels

  /** Points contributed by the severity counters. */
  function FindingPoints(s: Summary): real {
    s.critical as real * 10.0 + s.high as real * 5.0 + s.medium as real * 2.0 + s.low as real * 0.5
  }

  /** Points for open ports beyond the first 20. */
  function PortPoints(openPorts: nat): real {
    if openPorts > 20 then (openPorts as real - 20.0) * 0.3 else 0.0
  }

  /** Points for active connections beyond the first 100. */
  function ConnectionPoints(conns: nat): real {
    if conns > 100 then (conns as real - 100.0) * 0.1 else 0.0
  }

  /** `calculate_risk_index`: finding points, multiplied by 1.5 when the
      firewall is off, plus the attack-surface terms, divided by 10 and
      capped at 10. */
  function RiskIndex(s: Summary, md: Metadata): (r: real)
    ensures 0.0 <= r <= 10.0
  {
    var base := FindingPoints(s);
    var scaled := if md.firewallEnabled then base else base * 1.5;
    var risk := scaled + PortPoints(md.openPorts) + ConnectionPoints(md.activeConnections);
    var normalized := risk / 10.0;
    if normalized < 10.0 then normalized else 10.0
  }

  /** Counter-wise order on summaries. */
  predicate SummaryLe(a: Summary, b: Summary) {
    a.critical <= b.critical && a.high <= b.high && a.medium <= b.medium && a.low <= b.low && a.info <= b.info
  }

  /** More findings of any severity never lower the index. */
  lemma RiskMonotoneInFindings(a: Summary, b: Summary, md: Metadata)
    requires SummaryLe(a, b)
    ensures RiskIndex(a, md) <= RiskIndex(b, md)
  {
    assert FindingPoints(a) <= FindingPoints(b);
  }

  /** More open ports or more connections never lower the index. */
  lemma RiskMonotoneInSurface(s: Summary, md: Metadata, ports: nat, conns: nat)
    requires md.openPorts <= ports && md.activeConnections <= conns
    ensures RiskIndex(s, md) <= RiskIndex(s, md.(openPorts := ports, activeConnections := conns))
  {
  }

  /** Informational findings carry no weight. */
  lemma InfoCarriesNoWeight(s: Summary, md: Metadata, n: nat)
    ensures RiskIndex(s.(info := n), md) == RiskIndex(s, md)
  {
  }

  /** Turning the firewall off never lowers the index, and changes nothing
      when there are no weighted findings: the multiplier applies to the
      finding part only. */
  lemma FirewallScalesFindingsOnly(s: Summary, md: Metadata)
    ensures RiskIndex(s, md.(firewallEnabled := true)) <= RiskIndex(s, md.(firewallEnabled := false))
    ensures FindingPoints(s) == 0.0 ==>
      RiskIndex(s, md.(firewallEnabled := true)) == RiskIndex(s, md.(firewallEnabled := false))
  {
  }

  /** Up to 20 open ports and up to 100 connections add nothing. */
  lemma SurfaceThresholds(s: Summary, md: Metadata)
    requires md.openPorts <= 20 && md.activeConnections <= 100
    ensures RiskIndex(s, md) == RiskIndex(s, md.(openPorts := 0, activeConnections := 0))
  {
  }

  /** One critical finding with the firewall on gives 1.0; with it off, 1.5. */
  lemma OneCriticalExample(md: Metadata)
    requires md.openPorts <= 20 && md.activeConnections <= 100
    ensures RiskIndex(EmptySummary.(critical := 1), md) == if md.firewallEnabled then 1.0 else 1.5
  {
  }

  datatype Posture = CriticalPosture | HighRisk | Elevated | Moderate | LowRisk | Secure

  /** `determine_posture`: the first band whose lower bound the index
      reaches. */
  function DeterminePosture(r: real): Posture {
    if r >= 9.0 then CriticalPosture
    else if r >= 7.0 then HighRisk
    else if r >= 5.0 then Elevated
    else if r >= 3.0 then Moderate
    else if r >= 1.0 then LowRisk
    else Secure
  }

  function PostureText(p: Posture): string {
    match p
    case CriticalPosture => "🔴 CRITICAL - IMMEDIATE ACTION REQUIRED"
    case HighRisk => "🟠 HIGH RISK - URGENT ATTENTION NEEDED"
    case Elevated => "🟡 ELEVATED RISK - REMEDIATION RECOMMENDED"
    case Moderate => "🟢 MODERATE RISK - MONITOR CLOSELY"
    case LowRisk => "🔵 LOW RISK - ACCEPTABLE"
    case Secure => "✅ SECURE - GOOD POSTURE"
  }

  /** Severity rank of a posture, 0 for secure up to 5 for critical. */
  function Rank(p: Posture): nat {
    match p
    case Secure => 0
    case LowRisk => 1
    case Moderate => 2
    case Elevated => 3
    case HighRisk => 4
    case CriticalPosture => 5
  }

  /** Each band in words: a posture is determined by the band the index
      falls in. */
  lemma PostureBands(r: real)
    ensures DeterminePosture(r) == CriticalPosture <==> r >= 9.0
    ensures DeterminePosture(r) == HighRisk <==> 7.0 <= r < 9.0
    ensures DeterminePosture(r) == Elevated <==> 5.0 <= r < 7.0
    ensures DeterminePosture(r) == Moderate <==> 3.0 <= r < 5.0
    ensures DeterminePosture(r) == LowRisk <==> 1.0 <= r < 3.0
    ensures DeterminePosture(r) == Secure <==> r < 1.0
  {
  }

  /** A higher index never gives a milder posture. */
  lemma PostureMonotone(a: real, b: real)
    requires a <= b
    ensures Rank(DeterminePosture(a)) <= Rank(DeterminePosture(b))
  {
  }

  /** Distinct postures print distinctly. */
  lemma PostureTextInjective(p: Posture, q: Posture)
    requires PostureText(p) == PostureText(q)
    ensures p == q
  {
  }
}

=== FILE: json_string.dfy ===
/** A reader for JSON string literals (section 7 of RFC 8259): the
    characters after an opening quote up to the matching closing quote,
    with the escapes `\"`, `\\`, `\/`, `\b`, `\f`, `\n`, `\r`, `\t` and
    `\uXXXX`. Raw control characters are rejected, as the grammar
    demands. The collector's JSON writer and the probe shim are judged
    against this reader. */
module JsonString {
  import opened Wrappers

  /** Characters the grammar forbids to appear raw inside a string. */
  predicate IsControl(c: char) {
    c < ' '
  }

  /** Characters that stand for themselves inside a string literal. */
  predicate IsPlainChar(c: char) {
    c != '"' && c != '\\' && !IsControl(c)
  }

  /** Strings that can be written between quotes without any escaping. */
  predicate IsPlain(s: string) {
    forall i :: 0 <= i < |s| ==> IsPlainChar(s[i])
  }

  function HexDigit(n: nat): char
    requires n < 16
  {
    "0123456789abcdef"[n]
  }

  function HexValue(c: char): Option<nat> {
    if '0' <= c <= '9' then Some(c as int - '0' as int)
    else if 'a' <= c <= 'f' then Some(c as int - 'a' as int + 10)
    else if 'A' <= c <= 'F' then Some(c as int - 'A' as int + 10)
    else None
  }

  /** Value of exactly four hexadecimal digits. */
  function Hex4(s: string): Option<nat>
    requires |s| == 4
  {
    match (HexValue(s[0]), HexValue(s[1]), HexValue(s[2]), HexValue(s[3]))
    case (Some(a), Some(b), Some(c), Some(d)) => Some(((a * 16 + b) * 16 + c) * 16 + d)
    case _ => None
  }

  /** The character a one-letter escape stands for. */
  function SimpleEscape(c: char): Option<char> {
    match c
    case '"' => Some('"')
    case '\\' => Some('\\')
    case '/' => Some('/')
    case 'b' => Some(8 as char)
    case 'f' => Some(12 as char)
    case 'n' => Some('\n')
    case 'r' => Some('\r')
    case 't' => Some('\t')
    case _ => None
  }

  function Prepend(c: char, r: Option<(string, string)>): Option<(string, string)> {
    match r
    case Some((v, rest)) => Some(([c] + v, rest))
    case None => None
  }

  /** Reads a string body from `s`, which starts just after the opening
      quote: `Some((value, rest))` where `rest` follows the closing quote,
      or `None` when the literal is unterminated or malformed. */
  function ReadString(s: string): (r: Option<(string, string)>)
    ensures r.Some? ==> |r.value.1| < |s|
    decreases |s|
  {
    if |s| == 0 then None
    else if s[0] == '"' then Some(("", s[1..]))
    else if IsControl(s[0]) then None
    else if s[0] != '\\' then Prepend(s[0], ReadString(s[1..]))
    else if |s| < 2 then None
    else if s[1] == 'u' then
      if |s| < 6 then None
      else match Hex4(s[2..6])
        case Some(v) =>
          if v < 0xD800 || 0xE000 <= v then Prepend(v as char, ReadString(s[6..])) else None
        case None => None
    else match SimpleEscape(s[1])
      case Some(c) => Prepend(c, ReadString(s[2..]))
      case None => None
  }

  /** A character that needs no escaping is read back as itself. */
  lemma ReadPlainChar(c: char, s: string)
    requires IsPlainChar(c)
    ensures ReadString([c] + s) == Prepend(c, ReadString(s))
  {
    assert ([c] + s)[1..] == s;
  }

  /** A plain string written between quotes is read back exactly, and the
      reader stops right after its closing quote. */
  lemma {:induction false} ReadPlain(v: string, rest: string)
    requires IsPlain(v)
    ensures ReadString(v + "\"" + rest) == Some((v, rest))
    decreases |v|
  {
    if |v| == 0 {
      assert v + "\"" + rest == "\"" + rest;
      assert ("\"" + rest)[1..] == rest;
    } else {
      assert v + "\"" + rest == [v[0]] + (v[1..] + "\"" + rest);
      ReadPlain(v[1..], rest);
      ReadPlainChar(v[0], v[1..] + "\"" + rest);
      assert [v[0]] + v[1..] == v;
    }
  }

  /** A raw quote inside a value ends the literal early: the reader then
      returns only the part before it. */
  lemma QuoteEndsEarly(a: string, b: string, rest: string)
    requires IsPlain(a)
    ensures ReadString(a + "\"" + b + "\"" + rest) == Some((a, b + "\"" + rest))
  {
    assert a + "\"" + b + "\"" + rest == a + "\"" + (b + "\"" + rest);
    ReadPlain(a, b + "\"" + rest);
  }
}

=== FILE: misconfig_core.dfy ===
/** The older misconfiguration rule engine
    (services/misconfig/core/src/main.rs): five independent rules over a
    parsed probe document, each adding a finding and a fixed number of
    points, with the reported score capped at 100. Reading and writing the
    files and the JSON text itself are not modelled: the rules start from
    a parsed JSON value. */
module MisconfigCore {
  import opened Wrappers
  import opened Text
  import opened Seqs

  // ---------------------------------------------------------------------
  // Parsed JSON values and the accessors the rules use

  /** A parsed JSON value. `JFrac` is a number with a fraction or
      exponent, which has no `i64` reading. */
  datatype Json =
    | JNull
    | JBool(b: bool)
    | JInt(i: int)
    | JFrac
    | JStr(s: string)
    | JArr(items: seq<Json>)
    | JObj(fields: map<string, Json>)

  const I64Min: int := -0x8000_0000_0000_0000
  const I64Max: int := 0x7FFF_FFFF_FFFF_FFFF

  /** `Value::get`: a member of an object; nothing for other values. */
  function Get(v: Json, key: string): (r: Option<Json>)
    ensures r.Some? <==> v.JObj? && key in v.fields
  {
    if v.JObj? && key in v.fields then Some(v.fields[key]) else None
  }

  /** `as_i64`: an integer that fits in 64 signed bits. */
  function AsI64(v: Json): (r: Option<int>)
    ensures r.Some? ==> I64Min <= r.value <= I64Max && v == JInt(r.value)
  {
    if v.JInt? && I64Min <= v.i <= I64Max then Some(v.i) else None
  }

  /** `get(key).and_then(as_array).unwrap_or(&empty)`. */
  function ArrayField(doc: Json, key: string): (items: seq<Json>)
    ensures (Get(doc, key).None? || !Get(doc, key).value.JArr?) ==> items == []
  {
    match Get(doc, key)
    case Some(JArr(items)) => items
    case _ => []
  }

  /** `get(key).and_then(as_i64).unwrap_or(default)`. */
  function IntField(v: Json, key: string, default: int): int {
    match Get(v, key)
    case Some(x) => AsI64(x).GetOr(default)
    case None => default
  }

  /** `get(key).and_then(as_str).unwrap_or(default)`. */
  function StrField(v: Json, key: string, default: string): string {
    match Get(v, key)
    case Some(JStr(s)) => s
    case _ => default
  }

  /** A missing or non-array key reads as an empty list. */
  lemma MissingKeyIsEmpty(doc: Json, key: string)
    requires !doc.JObj? || key !in doc.fields || !doc.fields[key].JArr?
    ensures ArrayField(doc, key) == []
  {
  }

  // ---------------------------------------------------------------------
  // The five rules

  /** SMB listening on anything but loopback. */
  predicate IsSmbExposed(p: Json) {
    var addr := StrField(p, "Address", "");
    IntField(p, "Port", 0) == 445 && addr != "127.0.0.1" && addr != "::1"
  }

  /** An RPC dynamic port (49664 to 49669) bound to every interface. */
  predicate IsRpcExposed(p: Json) {
    var port := IntField(p, "Port", 0);
    var addr := StrField(p, "Address", "");
    49664 <= port <= 49669 && (addr == "0.0.0.0" || addr == "::")
  }

  /** A network whose address string has a colon. */
  predicate HasIpv6(n: Json) {
    match Get(n, "IPAddress")
    case Some(JStr(ip)) => ':' in ip
    case _ => false
  }

  /** A firewall profile whose `Enabled` reads as 0; a missing or
      non-integer value reads as 1. */
  predicate IsDisabledProfile(f: Json) {
    IntField(f, "Enabled", 1) == 0
  }

  /** The `details` object of a finding. The SMB finding names the port,
      the entry's address and its `Process` member (`None` prints as
      `null`); the RPC finding the port range and the number of exposed
      entries; the IPv6 finding a fixed marker; the administrator finding
      the number of administrators. The firewall finding has none. */
  datatype Details =
    | NoDetails
    | SmbDetails(port: int, address: string, process: Option<Json>)
    | RpcDetails(portRange: string, count: nat)
    | Ipv6Details(ipv6: string)
    | AdminDetails(adminCount: nat)

  datatype CoreFinding = CoreFinding(severity: string, title: string, category: string, confidence: real, details: Details)

  /** The finding for one exposed SMB entry. */
  function SmbFinding(entry: Json): CoreFinding {
    CoreFinding("CRITICAL", "SMB service exposed to network", "Network Exposure", 0.96,
      SmbDetails(445, StrField(entry, "Address", ""), Get(entry, "Process")))
  }

  function RpcFinding(count: nat): CoreFinding {
    CoreFinding("HIGH", "RPC dynamic ports exposed", "Remote Attack Surface", 0.91, RpcDetails("49664-49669", count))
  }

  const Ipv6Finding := CoreFinding("MEDIUM", "IPv6 attack surface detected", "Firewall Bypass Risk", 0.88, Ipv6Details("enabled"))

  function AdminFinding(count: nat): CoreFinding {
    CoreFinding("MEDIUM", "Multiple local administrators detected", "Privilege Sprawl", 0.85, AdminDetails(count))
  }

  const FirewallOffFinding := CoreFinding("CRITICAL", "Firewall profile disabled", "Host Protection Failure", 0.99, NoDetails)

  /** The rules' inputs, read from the document. */
  datatype Probe = Probe(firewall: seq<Json>, ports: seq<Json>, networks: seq<Json>, admins: seq<Json>)

  function ReadProbe(doc: Json): Probe {
    Probe(ArrayField(doc, "firewall"), ArrayField(doc, "ports"), ArrayField(doc, "networks"), ArrayField(doc, "admins"))
  }

  /** The SMB loop's findings: one per exposed entry, in entry order. */
  function SmbPart(ports: seq<Json>): seq<CoreFinding> {
    MapFilter(IsSmbExposed, SmbFinding, ports)
  }

  /** The findings, in rule order: one per exposed SMB entry, then at
      most one each for RPC, IPv6, administrators and the firewall. */
  function ExpectedFindings(p: Probe): seq<CoreFinding> {
    SmbPart(p.ports) +
    RpcPart(p) +
    (if Any(HasIpv6, p.networks) then [Ipv6Finding] else []) +
    (if |p.admins| > 1 then [AdminFinding(|p.admins|)] else []) +
    (if Any(IsDisabledProfile, p.firewall) then [FirewallOffFinding] else [])
  }

  /** The uncapped score: 25 per exposed SMB entry plus 18, 12, 10 and 30
      for the other rules. */
  function RawScore(p: Probe): nat {
    25 * CountWhere(IsSmbExposed, p.ports) +
    (if CountWhere(IsRpcExposed, p.ports) >= 3 then 18 else 0) +
    (if Any(HasIpv6, p.networks) then 12 else 0) +
    (if |p.admins| > 1 then 10 else 0) +
    (if Any(IsDisabledProfile, p.firewall) then 30 else 0)
  }

  datatype CoreSummary = CoreSummary(critical: nat, high: nat, medium: nat, low: nat)

  /** The `meta` block: the engine's name and version and the capped
      score. */
  datatype CoreMeta = CoreMeta(engine: string, version: string, riskScore: nat)

  const EngineName := "ShieldX Misconfig Finder"
  const EngineVersion := "1.0.0"

  datatype CoreReport = CoreReport(meta: CoreMeta, summary: CoreSummary, findings: seq<CoreFinding>)

  predicate IsCritical(f: CoreFinding) { f.severity == "CRITICAL" }
  predicate IsHigh(f: CoreFinding) { f.severity == "HIGH" }
  predicate IsMedium(f: CoreFinding) { f.severity == "MEDIUM" }
  predicate IsLow(f: CoreFinding) { f.severity == "LOW" }

  /** The summary block: a count of the findings per severity string. */
  function SummaryOf(fs: seq<CoreFinding>): CoreSummary {
    CoreSummary(CountWhere(IsCritical, fs), CountWhere(IsHigh, fs), CountWhere(IsMedium, fs), CountWhere(IsLow, fs))
  }

  // ---------------------------------------------------------------------
  // The scan

  /** The SMB loop: one finding and 25 points per exposed entry. */
  method ScanSmb(ports: seq<Json>) returns (findings: seq<CoreFinding>, score: nat)
    ensures findings == SmbPart(ports)
    ensures score == 25 * CountWhere(IsSmbExposed, ports)
  {
    findings, score := [], 0;
    var i := 0;
    while i < |ports|
      invariant 0 <= i <= |ports|
      invariant findings == SmbPart(ports[..i])
      invariant score == 25 * CountWhere(IsSmbExposed, ports[..i])
    {
      assert ports[..i + 1] == ports[..i] + [ports[i]];
      CountAppend(IsSmbExposed, ports[..i], [ports[i]]);
      MapFilterSnoc(IsSmbExposed, SmbFinding, ports[..i], ports[i]);
      if IsSmbExposed(ports[i]) {
        findings := findings + [SmbFinding(ports[i])];
        score := score + 25;
      }
      i := i + 1;
    }
    assert ports[..|ports|] == ports;
  }

  /** The IPv6, administrator and firewall rules. */
  method ScanOtherRules(p: Probe) returns (findings: seq<CoreFinding>, points: nat)
    ensures findings == OtherParts(p)
    ensures points == (if Any(HasIpv6, p.networks) then 12 else 0) + (if |p.admins| > 1 then 10 else 0) +
      (if Any(IsDisabledProfile, p.firewall) then 30 else 0)
  {
    findings, points := [], 0;
    if Any(HasIpv6, p.networks) {
      findings := findings + [Ipv6Finding];
      points := points + 12;
    }
    if |p.admins| > 1 {
      findings := findings + [AdminFinding(|p.admins|)];
      points := points + 10;
    }
    if Any(IsDisabledProfile, p.firewall) {
      findings := findings + [FirewallOffFinding];
      points := points + 30;
    }
  }

  /** `main` after parsing: the five rules in order, the `meta` block
      with the capped score, and the per-severity summary. */
  method Scan(doc: Json) returns (report: CoreReport)
    ensures report.findings == ExpectedFindings(ReadProbe(doc))
    ensures report.meta.engine == EngineName && report.meta.version == EngineVersion
    ensures report.meta.riskScore == if RawScore(ReadProbe(doc)) < 100 then RawScore(ReadProbe(doc)) else 100
    ensures report.meta.riskScore <= 100
    ensures report.summary == SummaryOf(report.findings)
  {
    var p := ReadProbe(doc);
    var findings, score := ScanRules(p);
    report := CoreReport(CoreMeta(EngineName, EngineVersion, if score < 100 then score else 100), SummaryOf(findings), findings);
  }

  /** The five rules, uncapped. */
  method ScanRules(p: Probe) returns (findings: seq<CoreFinding>, score: nat)
    ensures findings == ExpectedFindings(p)
    ensures score == RawScore(p)
  {
    var smb, smbScore := ScanSmb(p.ports);
    var rpc := CountWhere(IsRpcExposed, p.ports);
    var rpcPart, rpcScore := [], 0;
    if rpc >= 3 {
      rpcPart, rpcScore := [RpcFinding(rpc)], 18;
    }
    var rest, points := ScanOtherRules(p);
    findings := smb + rpcPart + rest;
    score := smbScore + rpcScore + points;
    FindingsParts(p);
  }

  // ---------------------------------------------------------------------
  // Properties

  /** One finding per exposed SMB entry, in order: the k-th SMB finding
      reports the k-th exposed entry's address and process. */
  lemma SmbPartCount(ports: seq<Json>)
    ensures |SmbPart(ports)| == CountWhere(IsSmbExposed, ports) == |Filter(IsSmbExposed, ports)|
    ensures forall k :: 0 <= k < |SmbPart(ports)| ==>
      var entry := Filter(IsSmbExposed, ports)[k];
      entry in ports && IsSmbExposed(entry) &&
      SmbPart(ports)[k].severity == "CRITICAL" &&
      SmbPart(ports)[k].details == SmbDetails(445, StrField(entry, "Address", ""), Get(entry, "Process"))
  {
    MapFilterMatch(IsSmbExposed, SmbFinding, ports);
    CountIsFilterLength(IsSmbExposed, ports);
  }

  /** The findings as the five rule parts. */
  lemma FindingsParts(p: Probe)
    ensures ExpectedFindings(p) == SmbPart(p.ports) + RpcPart(p) + OtherParts(p)
  {
  }

  function RpcPart(p: Probe): seq<CoreFinding> {
    var n := CountWhere(IsRpcExposed, p.ports);
    if n >= 3 then [RpcFinding(n)] else []
  }

  function OtherParts(p: Probe): seq<CoreFinding> {
    (if Any(HasIpv6, p.networks) then [Ipv6Finding] else []) +
    (if |p.admins| > 1 then [AdminFinding(|p.admins|)] else []) +
    (if Any(IsDisabledProfile, p.firewall) then [FirewallOffFinding] else [])
  }

  /** Counting over the three parts. */
  lemma CountParts(q: CoreFinding -> bool, a: seq<CoreFinding>, b: seq<CoreFinding>, c: seq<CoreFinding>)
    ensures CountWhere(q, a + b + c) == CountWhere(q, a) + CountWhere(q, b) + CountWhere(q, c)
  {
    CountAppend(q, a, b);
    CountAppend(q, a + b, c);
  }

  /** CRITICAL findings: one per exposed SMB entry plus the firewall
      rule. */
  lemma SummaryCritical(p: Probe)
    ensures SummaryOf(ExpectedFindings(p)).critical ==
      CountWhere(IsSmbExposed, p.ports) + (if Any(IsDisabledProfile, p.firewall) then 1 else 0)
  {
    var smb := SmbPart(p.ports);
    FindingsParts(p);
    SmbPartCount(p.ports);
    AllSmb(smb);
    CountParts(IsCritical, smb, RpcPart(p), OtherParts(p));
    OtherPartsCount(IsCritical, p);
  }

  /** HIGH findings: the RPC rule alone. */
  lemma SummaryHigh(p: Probe)
    ensures SummaryOf(ExpectedFindings(p)).high == (if CountWhere(IsRpcExposed, p.ports) >= 3 then 1 else 0)
  {
    var smb := SmbPart(p.ports);
    FindingsParts(p);
    SmbPartCount(p.ports);
    AllSmb(smb);
    CountParts(IsHigh, smb, RpcPart(p), OtherParts(p));
    OtherPartsCount(IsHigh, p);
  }

  /** MEDIUM findings: the IPv6 and administrator rules. */
  lemma SummaryMedium(p: Probe)
    ensures SummaryOf(ExpectedFindings(p)).medium ==
      (if Any(HasIpv6, p.networks) then 1 else 0) + (if |p.admins| > 1 then 1 else 0)
  {
    var smb := SmbPart(p.ports);
    FindingsParts(p);
    SmbPartCount(p.ports);
    AllSmb(smb);
    CountParts(IsMedium, smb, RpcPart(p), OtherParts(p));
    OtherPartsCount(IsMedium, p);
  }

  /** No rule emits LOW, so its count is always zero. */
  lemma SummaryLowIsZero(p: Probe)
    ensures SummaryOf(ExpectedFindings(p)).low == 0
  {
    var smb := SmbPart(p.ports);
    FindingsParts(p);
    SmbPartCount(p.ports);
    AllSmb(smb);
    CountParts(IsLow, smb, RpcPart(p), OtherParts(p));
    OtherPartsCount(IsLow, p);
  }

  /** Counting over the IPv6, administrator and firewall parts. */
  lemma OtherPartsCount(q: CoreFinding -> bool, p: Probe)
    ensures CountWhere(q, OtherParts(p)) ==
      (if Any(HasIpv6, p.networks) && q(Ipv6Finding) then 1 else 0) +
      (if |p.admins| > 1 && q(AdminFinding(|p.admins|)) then 1 else 0) +
      (if Any(IsDisabledProfile, p.firewall) && q(FirewallOffFinding) then 1 else 0)
  {
    var v6 := if Any(HasIpv6, p.networks) then [Ipv6Finding] else [];
    var adm := if |p.admins| > 1 then [AdminFinding(|p.admins|)] else [];
    var fw := if Any(IsDisabledProfile, p.firewall) then [FirewallOffFinding] else [];
    assert OtherParts(p) == v6 + adm + fw;
    CountParts(q, v6, adm, fw);
  }

  /** A list of CRITICAL findings only, such as the SMB part. */
  lemma {:induction false} AllSmb(s: seq<CoreFinding>)
    requires forall k :: 0 <= k < |s| ==> s[k].severity == "CRITICAL"
    ensures CountWhere(IsCritical, s) == |s|
    ensures CountWhere(IsHigh, s) == 0 && CountWhere(IsMedium, s) == 0 && CountWhere(IsLow, s) == 0
    decreases |s|
  {
    if |s| > 0 {
      var n := |s| - 1;
      AllSmb(s[..n]);
      assert s[..n] + [s[n]] == s;
      CountAppend(IsCritical, s[..n], [s[n]]);
      CountAppend(IsHigh, s[..n], [s[n]]);
      CountAppend(IsMedium, s[..n], [s[n]]);
      CountAppend(IsLow, s[..n], [s[n]]);
    }
  }

  /** Four exposed SMB entries saturate the score; without any, the score
      is at most 70 and never capped. */
  lemma SmbDominates(p: Probe)
    ensures CountWhere(IsSmbExposed, p.ports) >= 4 ==> RawScore(p) >= 100
    ensures CountWhere(IsSmbExposed, p.ports) == 0 ==> RawScore(p) <= 70
  {
  }

  /** Only the RPC rule reports an RPC `details` object and only the
      administrator rule an `admin_count`. */
  lemma DetailsKinds(p: Probe, k: int)
    requires 0 <= k < |ExpectedFindings(p)|
    ensures ExpectedFindings(p)[k].details.RpcDetails? ==> k == |SmbPart(p.ports)| && RpcPart(p) != []
    ensures ExpectedFindings(p)[k].details.AdminDetails? ==> |p.admins| > 1 && ExpectedFindings(p)[k] == AdminFinding(|p.admins|)
  {
    var smb := SmbPart(p.ports);
    var fs := ExpectedFindings(p);
    var v6 := if Any(HasIpv6, p.networks) then [Ipv6Finding] else [];
    var adm := if |p.admins| > 1 then [AdminFinding(|p.admins|)] else [];
    var fw := if Any(IsDisabledProfile, p.firewall) then [FirewallOffFinding] else [];
    assert fs == smb + RpcPart(p) + v6 + adm + fw;
    SmbPartCount(p.ports);
    if k < |smb| {
      assert fs[k] == smb[k];
    } else if k < |smb| + |RpcPart(p)| {
    } else if k < |smb| + |RpcPart(p)| + |v6| {
      assert fs[k] == v6[k - |smb| - |RpcPart(p)|];
    } else if k < |smb| + |RpcPart(p)| + |v6| + |adm| {
      assert fs[k] == adm[k - |smb| - |RpcPart(p)| - |v6|];
    } else {
      assert fs[k] == fw[k - |smb| - |RpcPart(p)| - |v6| - |adm|];
    }
  }

  /** The RPC rule needs three exposed entries, and its finding reports
      how many there are. */
  lemma RpcThreshold(p: Probe)
    ensures (exists k :: 0 <= k < |ExpectedFindings(p)| && ExpectedFindings(p)[k].details.RpcDetails?) <==>
      CountWhere(IsRpcExposed, p.ports) >= 3
    ensures forall k :: 0 <= k < |ExpectedFindings(p)| && ExpectedFindings(p)[k].details.RpcDetails? ==>
      ExpectedFindings(p)[k] == RpcFinding(CountWhere(IsRpcExposed, p.ports))
  {
    var fs := ExpectedFindings(p);
    var smb := SmbPart(p.ports);
    forall k | 0 <= k < |fs| && fs[k].details.RpcDetails?
      ensures fs[k] == RpcFinding(CountWhere(IsRpcExposed, p.ports))
    {
      DetailsKinds(p, k);
    }
    if CountWhere(IsRpcExposed, p.ports) >= 3 {
      assert fs[|smb|] == RpcFinding(CountWhere(IsRpcExposed, p.ports));
    } else {
      forall k | 0 <= k < |fs|
        ensures !fs[k].details.RpcDetails?
      {
        if fs[k].details.RpcDetails? {
          DetailsKinds(p, k);
        }
      }
    }
  }

  /** The administrator finding appears exactly for more than one
      administrator, and its `admin_count` is their number. */
  lemma AdminThreshold(p: Probe)
    ensures (exists k :: 0 <= k < |ExpectedFindings(p)| && ExpectedFindings(p)[k].details.AdminDetails?) <==> |p.admins| > 1
    ensures forall k :: 0 <= k < |ExpectedFindings(p)| && ExpectedFindings(p)[k].details.AdminDetails? ==>
      ExpectedFindings(p)[k].details.adminCount == |p.admins|
  {
    var fs := ExpectedFindings(p);
    forall k | 0 <= k < |fs| && fs[k].details.AdminDetails?
      ensures fs[k].details.adminCount == |p.admins| > 1
    {
      DetailsKinds(p, k);
    }
    if |p.admins| > 1 {
      var pre := SmbPart(p.ports) + RpcPart(p) + (if Any(HasIpv6, p.networks) then [Ipv6Finding] else []);
      assert fs == pre + [AdminFinding(|p.admins|)] + (if Any(IsDisabledProfile, p.firewall) then [FirewallOffFinding] else []);
      assert fs[|pre|].details.AdminDetails?;
    }
  }

  /** Addresses of any kind count toward the SMB rule except the two
      loopback spellings. */
  lemma SmbLoopbackExempt(addr: string)
    ensures !IsSmbExposed(JObj(map["Port" := JInt(445), "Address" := JStr(addr)])) <==> addr == "127.0.0.1" || addr == "::1"
  {
  }

  /** An entry with no `Port` reads as port 0 and triggers neither port
      rule; a profile with no `Enabled` reads as enabled. */
  lemma MissingFieldsDefaults(v: Json)
    requires !v.JObj? || ("Port" !in v.fields && "Enabled" !in v.fields)
    ensures !IsSmbExposed(v) && !IsRpcExposed(v) && !IsDisabledProfile(v)
  {
  }
}

=== FILE: network_scanner.dfy ===
/** The rule layer of the C network collector
    (misconfig/collectors/c/network/scanner.c): the port tables, the port
    risk rule and its three-level label, the suspicious-connection rule,
    the `netsh` firewall-output state machine and the construction of the
    findings list. The Win32 calls that feed these rules (adapter
    enumeration, the TCP table, process names, the `netsh` pipe) are not
    modelled; their results arrive as input records. Record shapes and
    bounds follow misconfig/collectors/c/network/scanner.h. */
module NetworkScanner {
  import opened Wrappers
  import opened Text
  import opened Seqs

  /** A TCP port number (`uint16_t`). */
  type Port = p: int | 0 <= p < 0x1_0000

  const MaxInterfaces: nat := 32
  /** Capacity of the findings buffer, which the source never checks. */
  const FindingCapacity: nat := 100

  // ---------------------------------------------------------------------
  // Tables

  const RiskyPorts: seq<Port> := [21, 23, 69, 135, 139, 445, 1433, 3306, 3389, 5900]

  datatype ServiceEntry = ServiceEntry(port: Port, service: string, encrypted: bool)

  const ServiceMap: seq<ServiceEntry> := [
    ServiceEntry(20, "ftp-data", false),
    ServiceEntry(21, "ftp", false),
    ServiceEntry(22, "ssh", true),
    ServiceEntry(23, "telnet", false),
    ServiceEntry(25, "smtp", false),
    ServiceEntry(53, "dns", false),
    ServiceEntry(80, "http", false),
    ServiceEntry(110, "pop3", false),
    ServiceEntry(143, "imap", false),
    ServiceEntry(443, "https", true),
    ServiceEntry(445, "microsoft-ds", false),
    ServiceEntry(465, "smtps", true),
    ServiceEntry(587, "smtp-submission", false),
    ServiceEntry(993, "imaps", true),
    ServiceEntry(995, "pop3s", true),
    ServiceEntry(1433, "mssql", false),
    ServiceEntry(3306, "mysql", false),
    ServiceEntry(3389, "rdp", true),
    ServiceEntry(5432, "postgresql", false),
    ServiceEntry(5900, "vnc", false),
    ServiceEntry(8080, "http-alt", false),
    ServiceEntry(8443, "https-alt", true)
  ]

  /** The first table entry for `port`, scanning in table order. */
  function FindService(table: seq<ServiceEntry>, port: Port): (r: Option<ServiceEntry>)
    ensures r.Some? ==> r.value in table && r.value.port == port
    ensures r.None? <==> forall k :: 0 <= k < |table| ==> table[k].port != port
  {
    if |table| == 0 then None
    else if table[0].port == port then Some(table[0])
    else FindService(table[1..], port)
  }

  /** No port appears twice in the service table, so "the first entry"
      and "the entry" coincide. */
  lemma ServiceMapPortsDistinct()
    ensures forall i, j :: 0 <= i < j < |ServiceMap| ==> ServiceMap[i].port < ServiceMap[j].port
  {
  }

  /** `get_service_name`: the table's label for a mapped port, "unknown"
      for any other. */
  function ServiceName(port: Port): (r: string)
    ensures forall k :: 0 <= k < |ServiceMap| && ServiceMap[k].port == port ==> r == ServiceMap[k].service
    ensures (forall k :: 0 <= k < |ServiceMap| ==> ServiceMap[k].port != port) ==> r == "unknown"
  {
    ServiceMapPortsDistinct();
    match FindService(ServiceMap, port)
    case Some(e) => e.service
    case None => "unknown"
  }

  /** `requires_encryption`: the table's flag for a mapped port, false
      for any other. */
  function RequiresEncryption(port: Port): (r: bool)
    ensures forall k :: 0 <= k < |ServiceMap| && ServiceMap[k].port == port ==> r == ServiceMap[k].encrypted
    ensures (forall k :: 0 <= k < |ServiceMap| ==> ServiceMap[k].port != port) ==> !r
  {
    ServiceMapPortsDistinct();
    match FindService(ServiceMap, port)
    case Some(e) => e.encrypted
    case None => false
  }

  /** The encrypted entries of the table are exactly those of seven ports. */
  lemma EncryptedEntries()
    ensures forall k :: 0 <= k < |ServiceMap| ==>
      (ServiceMap[k].encrypted <==> ServiceMap[k].port in {22, 443, 465, 993, 995, 3389, 8443})
  {
  }

  /** The plaintext protocols the risk rule names sit on four ports. */
  lemma PlaintextEntries()
    ensures forall k :: 0 <= k < |ServiceMap| ==>
      (ServiceMap[k].service in {"http", "ftp", "telnet", "smtp"} <==> ServiceMap[k].port in {21, 23, 25, 80})
  {
  }

  /** Exactly seven ports are marked as carrying encryption. */
  lemma EncryptedPortsExactly(port: Port)
    ensures RequiresEncryption(port) <==> port in {22, 443, 465, 993, 995, 3389, 8443}
  {
    EncryptedEntries();
    var k: int;
    if port == 22 { k := 2; }
    else if port == 443 { k := 9; }
    else if port == 465 { k := 11; }
    else if port == 993 { k := 13; }
    else if port == 995 { k := 14; }
    else if port == 3389 { k := 17; }
    else if port == 8443 { k := 21; }
    else { k := -1; }
    if k >= 0 {
      assert ServiceMap[k].port == port;
    }
  }

  // ---------------------------------------------------------------------
  // Listening ports

  predicate IsListedRisky(port: Port) {
    port in RiskyPorts
  }

  /** `is_port_risky`: a listed port always; otherwise a plaintext service
      (http, ftp, telnet, smtp) on a port without encryption, bound to every
      address. */
  predicate IsPortRisky(port: Port, binding: string, service: string) {
    || IsListedRisky(port)
    || (binding == "0.0.0.0" && !RequiresEncryption(port) &&
        (service == "http" || service == "ftp" || service == "telnet" || service == "smtp"))
  }

  datatype Risk = Low | Medium | High

  function RiskName(r: Risk): string {
    match r
    case Low => "low"
    case Medium => "medium"
    case High => "high"
  }

  /** The label `scan_open_ports` stores for a listening port. */
  function AssessRisk(port: Port, binding: string, service: string): Risk {
    if IsPortRisky(port, binding, service) then High
    else if binding == "0.0.0.0" then Medium
    else Low
  }

  /** A listed port is risky whatever its binding and service. */
  lemma ListedPortAlwaysRisky(port: Port, binding: string, service: string)
    requires port in RiskyPorts
    ensures AssessRisk(port, binding, service) == High
  {
  }

  /** The table's plaintext protocol names belong to exactly the ports
      21, 23, 25 and 80. */
  lemma PlaintextServicePorts(port: Port)
    ensures ServiceName(port) in {"http", "ftp", "telnet", "smtp"} <==> port in {21, 23, 25, 80}
  {
    PlaintextEntries();
    var k: int;
    if port == 21 { k := 1; }
    else if port == 23 { k := 3; }
    else if port == 25 { k := 4; }
    else if port == 80 { k := 6; }
    else { k := -1; }
    if k >= 0 {
      assert ServiceMap[k].port == port;
    }
  }

  /** Closed form of the label for a port whose service came from the
      table, as it does in the scan: the only unlisted high-risk ports are
      SMTP (25) and HTTP (80) bound to every address. */
  lemma ListenerRiskClosedForm(port: Port, binding: string)
    ensures AssessRisk(port, binding, ServiceName(port)) ==
      if port in RiskyPorts || (binding == "0.0.0.0" && (port == 25 || port == 80)) then High
      else if binding == "0.0.0.0" then Medium
      else Low
  {
    PlaintextServicePorts(port);
    EncryptedPortsExactly(port);
  }

  /** The TCP states the collector distinguishes (`MIB_TCP_STATE_*`). */
  datatype TcpState = Listen | Established | SynSent | SynReceived | TimeWait | OtherState

  /** One row of the IPv4 TCP table, with the owning process's name
      already looked up ("" when the lookup failed: the record is
      zero-filled). */
  datatype TcpRow = TcpRow(
    localAddr: string, localPort: Port,
    remoteAddr: string, remotePort: Port,
    state: TcpState, pid: int, processName: string)

  datatype PortInfo = PortInfo(
    port: Port, protocol: string, state: string, service: string,
    binding: string, processName: string, pid: int,
    isEncrypted: bool, encryptionType: string, riskLevel: Risk)

  /** The record `scan_open_ports` fills for one listening row. */
  function ListenerInfo(row: TcpRow): (p: PortInfo)
    ensures p.port == row.localPort && p.binding == row.localAddr
    ensures p.service == ServiceName(row.localPort)
    ensures p.isEncrypted <==> row.localPort in {22, 443, 465, 993, 995, 3389, 8443}
    ensures p.riskLevel == High <==>
      row.localPort in RiskyPorts || (row.localAddr == "0.0.0.0" && (row.localPort == 25 || row.localPort == 80))
  {
    var service := ServiceName(row.localPort);
    var enc := RequiresEncryption(row.localPort);
    EncryptedPortsExactly(row.localPort);
    ListenerRiskClosedForm(row.localPort, row.localAddr);
    PortInfo(row.localPort, "tcp", "listening", service, row.localAddr,
             row.processName, row.pid, enc, if enc then "TLS" else "",
             AssessRisk(row.localPort, row.localAddr, service))
  }

  predicate IsListening(row: TcpRow) {
    row.state == Listen
  }

  /** `scan_open_ports`: one record per listening row, in table order; a
      failed table read yields no ports. */
  function ScanOpenPorts(table: Option<seq<TcpRow>>): (ports: seq<PortInfo>)
    ensures table.None? ==> ports == []
    ensures table.Some? ==> |ports| == CountWhere(IsListening, table.value)
    ensures table.Some? ==> (|ports| == |Filter(IsListening, table.value)| &&
      forall k :: 0 <= k < |ports| ==> ports[k] == ListenerInfo(Filter(IsListening, table.value)[k]))
    ensures forall k :: 0 <= k < |ports| ==> ports[k].service == ServiceName(ports[k].port)
  {
    match table
    case None => []
    case Some(rows) => ListenersOf(rows)
  }

  /** The listening rows' records, one per row in table order. */
  function ListenersOf(rows: seq<TcpRow>): (ports: seq<PortInfo>)
    ensures |ports| == CountWhere(IsListening, rows) == |Filter(IsListening, rows)|
    ensures forall k :: 0 <= k < |ports| ==> ports[k] == ListenerInfo(Filter(IsListening, rows)[k])
    ensures forall k :: 0 <= k < |ports| ==> ports[k].service == ServiceName(ports[k].port)
  {
    if |rows| == 0 then []
    else if IsListening(rows[0]) then [ListenerInfo(rows[0])] + ListenersOf(rows[1..])
    else ListenersOf(rows[1..])
  }

  // ---------------------------------------------------------------------
  // Active connections

  datatype Connection = Connection(
    localAddr: string, localPort: Port,
    remoteAddr: string, remotePort: Port,
    protocol: string, state: string, processName: string, pid: int,
    isEstablished: bool, isSuspicious: bool)

  function StateName(s: TcpState): string {
    match s
    case Established => "established"
    case SynSent => "syn_sent"
    case SynReceived => "syn_received"
    case TimeWait => "time_wait"
    case _ => "unknown"
  }

  /** Private and loopback prefixes the suspicious-connection rule
      exempts. Only 172.16.x.x of the 172.16/12 block is exempted. */
  predicate IsExemptRemote(addr: string) {
    IsPrefix("192.168.", addr) || IsPrefix("10.", addr) || IsPrefix("172.16.", addr) || IsPrefix("127.", addr)
  }

  predicate IsSystemProcess(name: string) {
    Contains(name, "svchost.exe") || Contains(name, "System")
  }

  /** `is_connection_suspicious`. */
  predicate IsSuspicious(remotePort: Port, remoteAddr: string, processName: string) {
    (50000 < remotePort < 60000) || (IsSystemProcess(processName) && !IsExemptRemote(remoteAddr))
  }

  /** A remote port strictly inside (50000, 60000) is flagged whatever the
      process and address; the bounds themselves are not. */
  lemma HighPortBandAlwaysSuspicious(remotePort: Port, remoteAddr: string, processName: string)
    requires 50000 < remotePort < 60000
    ensures IsSuspicious(remotePort, remoteAddr, processName)
  {
  }

  /** Outside the port band, a private or loopback peer is never flagged,
      and neither is any peer of a process that is not a system process. */
  lemma OrdinaryTrafficNotSuspicious(remotePort: Port, remoteAddr: string, processName: string)
    requires remotePort <= 50000 || remotePort >= 60000
    requires IsExemptRemote(remoteAddr) || !IsSystemProcess(processName)
    ensures !IsSuspicious(remotePort, remoteAddr, processName)
  {
  }

  /** Outside the port band the rule is exactly the system-process rule:
      together with `OrdinaryTrafficNotSuspicious`, the flagged half. */
  lemma SuspiciousOutsideBand(remotePort: Port, remoteAddr: string, processName: string)
    requires remotePort <= 50000 || remotePort >= 60000
    ensures IsSuspicious(remotePort, remoteAddr, processName) <==> IsSystemProcess(processName) && !IsExemptRemote(remoteAddr)
  {
  }

  /** Any process whose name contains `svchost.exe` or `System`, talking
      to an address that does not start with '1' (every exempt prefix
      does), is flagged on any port. */
  lemma SystemProcessToPublicIsSuspicious(remotePort: Port, remoteAddr: string, pre: string, name: string, post: string)
    requires name == "svchost.exe" || name == "System"
    requires |remoteAddr| > 0 && remoteAddr[0] != '1'
    ensures IsSystemProcess(pre + name + post) && !IsExemptRemote(remoteAddr)
    ensures IsSuspicious(remotePort, remoteAddr, pre + name + post)
  {
    ContainsInConcat(pre, name, post);
    assert !IsPrefix("192.168.", remoteAddr) && !IsPrefix("10.", remoteAddr);
    assert !IsPrefix("172.16.", remoteAddr) && !IsPrefix("127.", remoteAddr);
  }

  /** The record `get_active_connections` fills for one non-listening row. */
  function ConnectionOf(row: TcpRow): (c: Connection)
    ensures c.isEstablished <==> row.state == Established
    ensures c.isEstablished <==> c.state == "established"
    ensures c.state == "unknown" <==> row.state == Listen || row.state == OtherState
    ensures c.isSuspicious <==> IsSuspicious(row.remotePort, row.remoteAddr, row.processName)
  {
    Connection(row.localAddr, row.localPort, row.remoteAddr, row.remotePort, "tcp",
               StateName(row.state), row.processName, row.pid,
               row.state == Established,
               IsSuspicious(row.remotePort, row.remoteAddr, row.processName))
  }

  /** `get_active_connections`: one record per non-listening row, in
      table order; a failed table read yields none. */
  function ActiveConnections(table: Option<seq<TcpRow>>): (conns: seq<Connection>)
    ensures table.None? ==> conns == []
    ensures table.Some? ==> |conns| + CountWhere(IsListening, table.value) == |table.value|
    ensures table.Some? ==> (|conns| == |Filter(NotListening, table.value)| &&
      forall k :: 0 <= k < |conns| ==> conns[k] == ConnectionOf(Filter(NotListening, table.value)[k]))
  {
    match table
    case None => []
    case Some(rows) => ConnectionsOf(rows)
  }

  predicate NotListening(row: TcpRow) {
    !IsListening(row)
  }

  /** The other rows' connections, one per row in table order. */
  function ConnectionsOf(rows: seq<TcpRow>): (conns: seq<Connection>)
    ensures |conns| + CountWhere(IsListening, rows) == |rows|
    ensures |conns| == |Filter(NotListening, rows)|
    ensures forall k :: 0 <= k < |conns| ==> conns[k] == ConnectionOf(Filter(NotListening, rows)[k])
  {
    if |rows| == 0 then []
    else if IsListening(rows[0]) then ConnectionsOf(rows[1..])
    else [ConnectionOf(rows[0])] + ConnectionsOf(rows[1..])
  }

  // ---------------------------------------------------------------------
  // Firewall status from `netsh advfirewall show allprofiles state`

  datatype Profile = NoProfile | DomainProfile | PrivateProfile | PublicProfile

  /** Leading spaces and tabs removed, as the parser does before matching. */
  function TrimLeft(s: string): (r: string)
    ensures |r| <= |s| && r == s[|s| - |r|..]
    ensures forall k :: 0 <= k < |s| - |r| ==> IsBlank(s[k])
    ensures |r| > 0 ==> !IsBlank(r[0])
  {
    if |s| > 0 && IsBlank(s[0]) then
      var r := TrimLeft(s[1..]);
      assert forall k :: 1 <= k < |s| - |r| ==> s[k] == s[1..][k - 1];
      r
    else s
  }

  predicate IsBlank(c: char) {
    c == ' ' || c == '\t'
  }

  /** Leading blanks are all removed, whatever their number. */
  lemma {:induction false} TrimLeftIndent(ws: string, line: string)
    requires forall k :: 0 <= k < |ws| ==> IsBlank(ws[k])
    ensures TrimLeft(ws + line) == TrimLeft(line)
    decreases |ws|
  {
    if |ws| > 0 {
      assert (ws + line)[0] == ws[0] && (ws + line)[1..] == ws[1..] + line;
      TrimLeftIndent(ws[1..], line);
      assert TrimLeft(ws + line) == TrimLeft(ws[1..] + line);
    } else {
      assert ws + line == line;
    }
  }

  /** The profile a line announces; the first matching header wins. */
  function HeaderOf(line: string): Profile {
    var t := TrimLeft(line);
    if Contains(t, "Domain Profile") then DomainProfile
    else if Contains(t, "Private Profile") then PrivateProfile
    else if Contains(t, "Public Profile") then PublicProfile
    else NoProfile
  }

  predicate IsStateOnLine(line: string) {
    var t := TrimLeft(line);
    Contains(t, "State") && Contains(t, "ON")
  }

  /** What the parser reads from one line: the header it names, if any,
      and whether it reports a state of ON. */
  datatype LineInfo = LineInfo(header: Profile, stateOn: bool)

  function Classify(line: string): LineInfo {
    LineInfo(HeaderOf(line), IsStateOnLine(line))
  }

  /** Indentation does not change how a line of the output reads. */
  lemma ClassifyIgnoresIndent(ws: string, line: string)
    requires forall k :: 0 <= k < |ws| ==> IsBlank(ws[k])
    ensures Classify(ws + line) == Classify(line)
  {
    TrimLeftIndent(ws, line);
  }

  function ClassifyAll(lines: seq<string>): (infos: seq<LineInfo>)
    ensures |infos| == |lines|
    ensures forall i :: 0 <= i < |lines| ==> infos[i] == Classify(lines[i])
  {
    seq(|lines|, i requires 0 <= i < |lines| => Classify(lines[i]))
  }

  datatype FirewallScan = FirewallScan(current: Profile, domainOn: bool, privateOn: bool, publicOn: bool)

  const InitialScan := FirewallScan(NoProfile, false, false, false)

  /** One iteration of the line loop: switch profile on a header, then
      mark the current profile on when the line reads as "State ... ON". */
  function ScanLine(st: FirewallScan, line: LineInfo): FirewallScan {
    var cur := if line.header == NoProfile then st.current else line.header;
    FirewallScan(cur,
      st.domainOn || (line.stateOn && cur == DomainProfile),
      st.privateOn || (line.stateOn && cur == PrivateProfile),
      st.publicOn || (line.stateOn && cur == PublicProfile))
  }

  /** The loop over all lines, as a left fold. */
  function ScanLines(lines: seq<LineInfo>): FirewallScan
    decreases |lines|
  {
    if |lines| == 0 then InitialScan
    else ScanLine(ScanLines(lines[..|lines| - 1]), lines[|lines| - 1])
  }

  /** Reference reading of the output: the profile in force at line `i`
      is the one named by the nearest header at or above it. */
  function ProfileAt(lines: seq<LineInfo>, i: nat): Profile
    requires i < |lines|
  {
    if lines[i].header != NoProfile then lines[i].header
    else if i == 0 then NoProfile
    else ProfileAt(lines, i - 1)
  }

  /** Some "State ... ON" line falls under a header of profile `p`. */
  predicate SeenOn(lines: seq<LineInfo>, p: Profile) {
    exists i :: 0 <= i < |lines| && lines[i].stateOn && ProfileAt(lines, i) == p
  }

  lemma ProfileAtPrefix(lines: seq<LineInfo>, n: nat, i: nat)
    requires i < n <= |lines|
    ensures ProfileAt(lines[..n], i) == ProfileAt(lines, i)
    decreases i
  {
    if lines[i].header == NoProfile && i > 0 {
      ProfileAtPrefix(lines, n, i - 1);
    }
  }

  /** The flag the state machine keeps for profile `p`. */
  function Flag(st: FirewallScan, p: Profile): bool {
    match p
    case NoProfile => false
    case DomainProfile => st.domainOn
    case PrivateProfile => st.privateOn
    case PublicProfile => st.publicOn
  }

  /** The state machine tracks the profile in force at the last line. */
  lemma {:induction false} ScanLinesCurrent(lines: seq<LineInfo>)
    ensures ScanLines(lines).current == if |lines| == 0 then NoProfile else ProfileAt(lines, |lines| - 1)
    decreases |lines|
  {
    if |lines| > 0 {
      var n := |lines| - 1;
      ScanLinesCurrent(lines[..n]);
      if n > 0 {
        ProfileAtPrefix(lines, n, n - 1);
      }
    }
  }

  /** Seeing a profile on in a longer output: either in the prefix or on
      the new last line. */
  lemma SeenOnSnoc(lines: seq<LineInfo>, p: Profile)
    requires |lines| > 0
    ensures SeenOn(lines, p) <==>
      SeenOn(lines[..|lines| - 1], p) || (lines[|lines| - 1].stateOn && ProfileAt(lines, |lines| - 1) == p)
  {
    var n := |lines| - 1;
    var prefix := lines[..n];
    if SeenOn(lines, p) {
      var i :| 0 <= i < |lines| && lines[i].stateOn && ProfileAt(lines, i) == p;
      if i < n {
        ProfileAtPrefix(lines, n, i);
        assert prefix[i] == lines[i];
      }
    }
    if SeenOn(prefix, p) {
      var i :| 0 <= i < n && prefix[i].stateOn && ProfileAt(prefix, i) == p;
      ProfileAtPrefix(lines, n, i);
      assert lines[i] == prefix[i];
    }
  }

  /** A profile's flag is set exactly when some "State ... ON" line fell
      under that profile. */
  lemma {:induction false} ScanLinesFlag(lines: seq<LineInfo>, p: Profile)
    requires p != NoProfile
    ensures Flag(ScanLines(lines), p) <==> SeenOn(lines, p)
    decreases |lines|
  {
    if |lines| > 0 {
      var n := |lines| - 1;
      ScanLinesFlag(lines[..n], p);
      ScanLinesCurrent(lines);
      SeenOnSnoc(lines, p);
    }
  }

  /** The state machine agrees with the reference reading of the output,
      for all three profiles. */
  lemma ScanLinesMeaning(lines: seq<LineInfo>)
    ensures ScanLines(lines).domainOn <==> SeenOn(lines, DomainProfile)
    ensures ScanLines(lines).privateOn <==> SeenOn(lines, PrivateProfile)
    ensures ScanLines(lines).publicOn <==> SeenOn(lines, PublicProfile)
  {
    ScanLinesFlag(lines, DomainProfile);
    ScanLinesFlag(lines, PrivateProfile);
    ScanLinesFlag(lines, PublicProfile);
  }

  datatype FirewallCheck = FirewallCheck(code: int, status: string)

  function OnOff(b: bool): string {
    if b then "ON" else "OFF"
  }

  /** `check_firewall_status`: 1 when all three profiles were seen on, 0
      otherwise, -1 when `netsh` could not be started. */
  function CheckFirewallStatus(output: Option<seq<string>>): (r: FirewallCheck)
    ensures output.None? ==> r == FirewallCheck(-1, "Unknown")
    ensures output.Some? ==> (r.code == 1 || r.code == 0)
    ensures output.Some? ==> var infos := ClassifyAll(output.value);
      && (r.code == 1 <==> SeenOn(infos, DomainProfile) && SeenOn(infos, PrivateProfile) && SeenOn(infos, PublicProfile))
      && (r.status == "Disabled" <==>
            !SeenOn(infos, DomainProfile) && !SeenOn(infos, PrivateProfile) && !SeenOn(infos, PublicProfile))
  {
    match output
    case None => FirewallCheck(-1, "Unknown")
    case Some(lines) =>
      var infos := ClassifyAll(lines);
      var st := ScanLines(infos);
      ScanLinesMeaning(infos);
      if st.domainOn && st.privateOn && st.publicOn then FirewallCheck(1, "Enabled (all profiles)")
      else if st.domainOn || st.privateOn || st.publicOn then
        FirewallCheck(0, "Partially enabled (D:" + OnOff(st.domainOn) + " P:" + OnOff(st.privateOn) +
                         " Pub:" + OnOff(st.publicOn) + ")")
      else FirewallCheck(0, "Disabled")
  }

  /** The loop of `check_firewall_status` run line by line: the three
      flags it ends with are the reference reading of the output. */
  method ParseFirewallOutput(lines: seq<string>) returns (domainOn: bool, privateOn: bool, publicOn: bool)
    ensures domainOn <==> SeenOn(ClassifyAll(lines), DomainProfile)
    ensures privateOn <==> SeenOn(ClassifyAll(lines), PrivateProfile)
    ensures publicOn <==> SeenOn(ClassifyAll(lines), PublicProfile)
  {
    var infos := ClassifyAll(lines);
    var st := ScanInfos(infos);
    ScanLinesMeaning(infos);
    domainOn, privateOn, publicOn := st.domainOn, st.privateOn, st.publicOn;
  }

  /** The line loop of `check_firewall_status` over classified lines. */
  method ScanInfos(infos: seq<LineInfo>) returns (st: FirewallScan)
    ensures st == ScanLines(infos)
  {
    st := InitialScan;
    var i := 0;
    while i < |infos|
      invariant 0 <= i <= |infos|
      invariant st == ScanLines(infos[..i])
    {
      ScanLinesStep(infos, i);
      st := ScanLine(st, infos[i]);
      i := i + 1;
    }
    assert infos[..|infos|] == infos;
  }

  /** Scanning one more line extends the scan by one step. */
  lemma ScanLinesStep(infos: seq<LineInfo>, i: nat)
    requires i < |infos|
    ensures ScanLines(infos[..i + 1]) == ScanLine(ScanLines(infos[..i]), infos[i])
  {
    assert infos[..i + 1][..i] == infos[..i];
  }

  // ---------------------------------------------------------------------
  // Findings

  datatype FindingType = FirewallDisabled | RiskyPort | SuspiciousConnection

  function TypeName(t: FindingType): string {
    match t
    case FirewallDisabled => "firewall_disabled"
    case RiskyPort => "risky_port"
    case SuspiciousConnection => "suspicious_connection"
  }

  /** `network_finding_t`; fields a finding does not set stay empty (the
      buffer is zero-filled). */
  datatype NetworkFinding = NetworkFinding(
    kind: FindingType, port: Port, protocol: string, service: string,
    binding: string, state: string, processName: string, pid: int,
    riskLevel: string, description: string, recommendation: string)

  const FirewallFinding := NetworkFinding(
    FirewallDisabled, 0, "", "", "", "", "", 0, "critical",
    "Network firewall is disabled or partially disabled",
    "Enable Windows Firewall on all network profiles")

  function PortFinding(p: PortInfo): NetworkFinding {
    NetworkFinding(RiskyPort, p.port, p.protocol, p.service, p.binding, p.state,
      p.processName, p.pid, "high",
      "Port " + NatToString(p.port) + " (" + p.service + ") is listening on " + p.binding,
      "Consider restricting this service or using a firewall rule")
  }

  function ConnectionFinding(c: Connection): NetworkFinding {
    NetworkFinding(SuspiciousConnection, c.remotePort, "", "", "", "", c.processName, c.pid, "medium",
      "Suspicious connection from " + c.processName + " to " + c.remoteAddr + ":" + NatToString(c.remotePort),
      "Investigate this connection and verify the process is legitimate")
  }

  predicate IsHighRisk(p: PortInfo) {
    p.riskLevel == High
  }

  predicate IsFlagged(c: Connection) {
    c.isSuspicious
  }

  function FirewallPart(firewallEnabled: bool): seq<NetworkFinding> {
    if firewallEnabled then [] else [FirewallFinding]
  }

  /** One finding per high-risk port, in port order. */
  function PortFindings(ports: seq<PortInfo>): seq<NetworkFinding>
    decreases |ports|
  {
    if |ports| == 0 then []
    else
      var last := ports[|ports| - 1];
      PortFindings(ports[..|ports| - 1]) + (if IsHighRisk(last) then [PortFinding(last)] else [])
  }

  /** One finding per suspicious connection, in connection order. */
  function ConnectionFindings(conns: seq<Connection>): seq<NetworkFinding>
    decreases |conns|
  {
    if |conns| == 0 then []
    else
      var last := conns[|conns| - 1];
      ConnectionFindings(conns[..|conns| - 1]) + (if IsFlagged(last) then [ConnectionFinding(last)] else [])
  }

  /** The port findings correspond one to one, in order, with the
      high-risk ports. */
  lemma {:induction false} PortFindingsMatch(ports: seq<PortInfo>)
    ensures var hp := Filter(IsHighRisk, ports);
      |PortFindings(ports)| == |hp| &&
      forall k :: 0 <= k < |hp| ==> PortFindings(ports)[k] == PortFinding(hp[k])
    decreases |ports|
  {
    if |ports| > 0 {
      var n := |ports| - 1;
      PortFindingsMatch(ports[..n]);
      FilterAppend(IsHighRisk, ports[..n], [ports[n]]);
      assert ports[..n] + [ports[n]] == ports;
    }
  }

  /** The connection findings correspond one to one, in order, with the
      suspicious connections. */
  lemma {:induction false} ConnectionFindingsMatch(conns: seq<Connection>)
    ensures var sc := Filter(IsFlagged, conns);
      |ConnectionFindings(conns)| == |sc| &&
      forall k :: 0 <= k < |sc| ==> ConnectionFindings(conns)[k] == ConnectionFinding(sc[k])
    decreases |conns|
  {
    if |conns| > 0 {
      var n := |conns| - 1;
      ConnectionFindingsMatch(conns[..n]);
      FilterAppend(IsFlagged, conns[..n], [conns[n]]);
      assert conns[..n] + [conns[n]] == conns;
    }
  }

  function ExpectedFindingCount(firewallEnabled: bool, ports: seq<PortInfo>, conns: seq<Connection>): nat {
    FirewallCount(firewallEnabled) + CountWhere(IsHighRisk, ports) + CountWhere(IsFlagged, conns)
  }

  /** `analyze_network_security`: the firewall finding, then one finding
      per high-risk port, then one per suspicious connection. The source
      writes into a 100-entry buffer without a bound check. */
  method AnalyzeNetworkSecurity(firewallEnabled: bool, ports: seq<PortInfo>, conns: seq<Connection>)
    returns (findings: seq<NetworkFinding>)
    requires ExpectedFindingCount(firewallEnabled, ports, conns) <= FindingCapacity
    ensures findings == AllFindings(firewallEnabled, ports, conns)
  {
    var head := FirewallPart(firewallEnabled);
    var fromPorts: seq<NetworkFinding> := [];
    var i := 0;
    while i < |ports|
      invariant 0 <= i <= |ports|
      invariant fromPorts == PortFindings(ports[..i])
    {
      assert ports[..i + 1][..i] == ports[..i];
      if ports[i].riskLevel == High {
        fromPorts := fromPorts + [PortFinding(ports[i])];
      }
      i := i + 1;
    }
    assert ports[..|ports|] == ports;
    var fromConns: seq<NetworkFinding> := [];
    var j := 0;
    while j < |conns|
      invariant 0 <= j <= |conns|
      invariant fromConns == ConnectionFindings(conns[..j])
    {
      assert conns[..j + 1][..j] == conns[..j];
      if conns[j].isSuspicious {
        fromConns := fromConns + [ConnectionFinding(conns[j])];
      }
      j := j + 1;
    }
    assert conns[..|conns|] == conns;
    findings := head + fromPorts + fromConns;
  }

  function AllFindings(firewallEnabled: bool, ports: seq<PortInfo>, conns: seq<Connection>): seq<NetworkFinding> {
    FirewallPart(firewallEnabled) + PortFindings(ports) + ConnectionFindings(conns)
  }

  lemma ConcatIndex<T>(a: seq<T>, b: seq<T>, c: seq<T>, k: int)
    requires 0 <= k < |a| + |b| + |c|
    ensures (a + b + c)[k] == if k < |a| then a[k] else if k < |a| + |b| then b[k - |a|] else c[k - |a| - |b|]
  {
  }

  function FirewallCount(firewallEnabled: bool): nat {
    if firewallEnabled then 0 else 1
  }

  /** The findings list holds exactly one entry per reason to report. */
  lemma FindingsLength(firewallEnabled: bool, ports: seq<PortInfo>, conns: seq<Connection>)
    ensures |AllFindings(firewallEnabled, ports, conns)| ==
      FirewallCount(firewallEnabled) + |Filter(IsHighRisk, ports)| + |Filter(IsFlagged, conns)|
    ensures |AllFindings(firewallEnabled, ports, conns)| == ExpectedFindingCount(firewallEnabled, ports, conns)
  {
    PortFindingsMatch(ports);
    ConnectionFindingsMatch(conns);
    CountIsFilterLength(IsHighRisk, ports);
    CountIsFilterLength(IsFlagged, conns);
  }

  /** The firewall entry is present exactly when the firewall is not fully
      enabled, and only at the front. */
  lemma FindingsFirewallFirst(firewallEnabled: bool, ports: seq<PortInfo>, conns: seq<Connection>)
    ensures forall k :: 0 <= k < |AllFindings(firewallEnabled, ports, conns)| ==>
      (AllFindings(firewallEnabled, ports, conns)[k].kind == FirewallDisabled <==> k == 0 && !firewallEnabled)
  {
    var head := FirewallPart(firewallEnabled);
    var pf := PortFindings(ports);
    var cf := ConnectionFindings(conns);
    PortFindingsMatch(ports);
    ConnectionFindingsMatch(conns);
    var fs := AllFindings(firewallEnabled, ports, conns);
    forall k | 0 <= k < |fs|
      ensures fs[k].kind == FirewallDisabled <==> k == 0 && !firewallEnabled
    {
      ConcatIndex(head, pf, cf, k);
    }
  }

  /** The findings list is cut into three sections: the firewall entry,
      the port findings (one per high-risk port, by `PortFindingsMatch`)
      and the connection findings (one per suspicious connection, by
      `ConnectionFindingsMatch`). */
  lemma FindingsSections(firewallEnabled: bool, ports: seq<PortInfo>, conns: seq<Connection>)
    ensures var fs := AllFindings(firewallEnabled, ports, conns);
      var f := FirewallCount(firewallEnabled);
      var p := |Filter(IsHighRisk, ports)|;
      && f + p <= |fs|
      && fs[..f] == FirewallPart(firewallEnabled)
      && fs[f..f + p] == PortFindings(ports)
      && fs[f + p..] == ConnectionFindings(conns)
  {
    PortFindingsMatch(ports);
    var head := FirewallPart(firewallEnabled);
    var pf := PortFindings(ports);
    var fs := head + pf + ConnectionFindings(conns);
    assert fs[..|head|] == head;
    assert fs[|head|..|head| + |pf|] == pf;
    assert fs[|head| + |pf|..] == ConnectionFindings(conns);
  }

  // ---------------------------------------------------------------------
  // The whole scan

  /** One adapter as `enumerate_interfaces` records it. */
  datatype Interface = Interface(
    name: string, description: string, mac: string, ipv4: string,
    ipv6: string, gateway: string, isUp: bool, isWireless: bool)

  datatype ScanResult = ScanResult(
    interfaces: seq<Interface>, openPorts: seq<PortInfo>,
    connections: seq<Connection>, findings: seq<NetworkFinding>,
    firewallEnabled: bool, firewallStatus: string, scanDurationMs: int)

  /** What the operating system reports to one scan, including the tick
      count the scan took. */
  datatype HostState = HostState(
    adapters: seq<Interface>,
    listenTable: Option<seq<TcpRow>>,
    connectionTable: Option<seq<TcpRow>>,
    netshOutput: Option<seq<string>>,
    elapsedMs: int)

  predicate FitsFindingBuffer(host: HostState) {
    var fw := CheckFirewallStatus(host.netshOutput).code > 0;
    ExpectedFindingCount(fw, ScanOpenPorts(host.listenTable), ActiveConnections(host.connectionTable))
      <= FindingCapacity
  }

  /** The result `scan_network` assembles from what the host reports;
      `ScanNetwork` states what it means. */
  function ScanResultOf(host: HostState): ScanResult {
    var n := if |host.adapters| < MaxInterfaces then |host.adapters| else MaxInterfaces;
    var ports := ScanOpenPorts(host.listenTable);
    var conns := ActiveConnections(host.connectionTable);
    var fw := CheckFirewallStatus(host.netshOutput);
    ScanResult(host.adapters[..n], ports, conns, AllFindings(fw.code > 0, ports, conns), fw.code > 0, fw.status, host.elapsedMs)
  }

  /** `scan_network`: at most 32 interfaces; the firewall counts as
      enabled only on a return code of 1. */
  method ScanNetwork(host: HostState) returns (r: ScanResult)
    requires FitsFindingBuffer(host)
    ensures r == ScanResultOf(host)
    ensures |r.interfaces| == if |host.adapters| < MaxInterfaces then |host.adapters| else MaxInterfaces
    ensures r.interfaces == host.adapters[..|r.interfaces|]
    ensures r.firewallEnabled <==> (host.netshOutput.Some? &&
      var infos := ClassifyAll(host.netshOutput.value);
      SeenOn(infos, DomainProfile) && SeenOn(infos, PrivateProfile) && SeenOn(infos, PublicProfile))
    ensures r.openPorts == ScanOpenPorts(host.listenTable)
    ensures r.connections == ActiveConnections(host.connectionTable)
    ensures r.findings == AllFindings(r.firewallEnabled, r.openPorts, r.connections)
    ensures (|r.findings| > 0 && r.findings[0].kind == FirewallDisabled) <==> !r.firewallEnabled
  {
    var n := if |host.adapters| < MaxInterfaces then |host.adapters| else MaxInterfaces;
    var ports := ScanOpenPorts(host.listenTable);
    var conns := ActiveConnections(host.connectionTable);
    var fw := CheckFirewallStatus(host.netshOutput);
    var findings := AnalyzeNetworkSecurity(fw.code > 0, ports, conns);
    FindingsFirewallFirst(fw.code > 0, ports, conns);
    r := ScanResult(host.adapters[..n], ports, conns, findings, fw.code > 0, fw.status, host.elapsedMs);
  }
}

=== FILE: phishing_checker.dfy ===
/** The URL check of the phishing checker (services/phishing/checker.py):
    the control flow of `check_url` and the text of `render_output`.
    URL normalisation, host-name extraction, the resolvability probe, the
    DNS answers and the TLS score are parameters; the clock reading is the
    `scanTime` string. */
module PhishingChecker {
  import opened Wrappers
  import opened Text
  import opened PhishingScored
  import opened PhishingVerdict
  import opened PhishingHeuristics
  import opened PhishingDomainIntel

  const EngineName := "ShieldX Phishing Engine"
  const InvalidSignal := "Invalid URL format"
  const UnresolvedSignal := "Domain does not resolve"

  /** The result dictionary of `check_url`; an absent normalised URL is
      Python's `None`. */
  datatype CheckResult = CheckResult(
    engine: string,
    scanTime: string,
    inputUrl: string,
    normalizedUrl: Option<string>,
    riskScore: int,
    verdict: string,
    signals: seq<string>)

  /** `not normalized`: no URL, or the empty one. */
  predicate NormalizationFailed(normalized: Option<string>) {
    normalized.None? || |normalized.value| == 0
  }

  /** The full evaluation once the URL is valid and its host resolves:
      the three scores add up and the signals are concatenated in scorer
      order. */
  function Combine(rawUrl: string, scanTime: string, normalized: string, h: Scored, d: Scored, t: Scored): (r: CheckResult)
    ensures r.riskScore == h.score + d.score + t.score
    ensures r.signals == h.details + d.details + t.details
    ensures r.verdict == VerdictText(FinalizeVerdict(r.riskScore))
    ensures r.normalizedUrl == Some(normalized) && r.inputUrl == rawUrl
    ensures r.verdict == "HIGH RISK" <==> h.score + d.score + t.score >= 80
    ensures r.verdict == "SUSPICIOUS" <==> 50 <= h.score + d.score + t.score < 80
    ensures r.verdict == "LOW RISK" <==> 20 <= h.score + d.score + t.score < 50
    ensures r.verdict == "SAFE" <==> h.score + d.score + t.score < 20
  {
    var risk := h.score + d.score + t.score;
    CheckResult(EngineName, scanTime, rawUrl, Some(normalized), risk, VerdictText(FinalizeVerdict(risk)), h.details + d.details + t.details)
  }

  /** `check_url`. `normalized` is what `normalize_url` returned,
      `hostname` the host of the normalised URL, `resolves` the outcome of
      `domain_resolves`, `entropy` and `dns` the inputs of the domain
      analysis and `tls` the TLS score. */
  function CheckUrl(rawUrl: string, scanTime: string, normalized: Option<string>, hostname: string, resolves: bool,
                    entropy: real, dns: Dns, tls: Scored): CheckResult
  {
    if NormalizationFailed(normalized) then
      CheckResult(EngineName, scanTime, rawUrl, None, 100, "INVALID", [InvalidSignal])
    else if !resolves then
      CheckResult(EngineName, scanTime, rawUrl, normalized, 90, "HIGH_RISK", [UnresolvedSignal])
    else
      Combine(rawUrl, scanTime, normalized.value, AnalyzeHeuristics(Some(hostname)), AnalyzeDomain(hostname, entropy, dns), tls)
  }

  /** A normalisation failure is reported as INVALID with the single
      invalid-format signal, and only a normalisation failure is. */
  lemma InvalidOnlyWhenNormalizationFails(rawUrl: string, scanTime: string, normalized: Option<string>, hostname: string,
                                          resolves: bool, entropy: real, dns: Dns, tls: Scored)
    ensures var r := CheckUrl(rawUrl, scanTime, normalized, hostname, resolves, entropy, dns, tls);
      (r.verdict == "INVALID" <==> NormalizationFailed(normalized)) &&
      (NormalizationFailed(normalized) ==> r.riskScore == 100 && r.signals == [InvalidSignal] && r.normalizedUrl.None?)
  {
  }

  /** An unresolvable host is reported as HIGH_RISK (with an underscore,
      unlike the "HIGH RISK" band of the verdict) with risk 90 and one
      signal, and the spelling "HIGH_RISK" arises only there. */
  lemma UnresolvedIsHighRisk(rawUrl: string, scanTime: string, normalized: Option<string>, hostname: string,
                             resolves: bool, entropy: real, dns: Dns, tls: Scored)
    ensures var r := CheckUrl(rawUrl, scanTime, normalized, hostname, resolves, entropy, dns, tls);
      (r.verdict == "HIGH_RISK" <==> !NormalizationFailed(normalized) && !resolves) &&
      (!NormalizationFailed(normalized) && !resolves ==> r.riskScore == 90 && r.signals == [UnresolvedSignal] && r.normalizedUrl == normalized)
  {
  }

  /** Otherwise the risk is the sum of the heuristic, domain and TLS
      scores, the signals are their details in that order, and the verdict
      is the band of the risk. Without the TLS part the risk lies between
      0 and 265 (75 from the heuristics, 190 from the domain analysis),
      and the TLS signals come last, after at least one domain signal. */
  lemma ResolvedIsScored(rawUrl: string, scanTime: string, normalized: Option<string>, hostname: string,
                         entropy: real, dns: Dns, tls: Scored)
    requires !NormalizationFailed(normalized)
    ensures var r := CheckUrl(rawUrl, scanTime, normalized, hostname, true, entropy, dns, tls);
      var h := AnalyzeHeuristics(Some(hostname));
      var d := AnalyzeDomain(hostname, entropy, dns);
      && r.riskScore == h.score + d.score + tls.score
      && r.signals == h.details + d.details + tls.details
      && r.verdict == VerdictText(FinalizeVerdict(r.riskScore))
      && tls.score <= r.riskScore <= tls.score + 265
      && |r.signals| > |tls.details|
      && r.signals[|r.signals| - |tls.details|..] == tls.details
  {
    DomainScoreBounds(hostname, entropy, dns);
  }

  /** Every result carries at least one signal, so the report's
      no-indicators line is never printed for a result of `check_url`. */
  lemma CheckUrlAlwaysSignals(rawUrl: string, scanTime: string, normalized: Option<string>, hostname: string,
                              resolves: bool, entropy: real, dns: Dns, tls: Scored)
    ensures |CheckUrl(rawUrl, scanTime, normalized, hostname, resolves, entropy, dns, tls).signals| >= 1
  {
    DomainScoreBounds(hostname, entropy, dns);
  }

  /** A malformed host name that resolves contributes exactly the
      malformed-domain signal between the heuristic and TLS signals. */
  lemma MalformedHostSignals(rawUrl: string, scanTime: string, normalized: Option<string>, hostname: string,
                             entropy: real, dns: Dns, tls: Scored)
    requires !NormalizationFailed(normalized) && IsMalformed(hostname)
    ensures var r := CheckUrl(rawUrl, scanTime, normalized, hostname, true, entropy, dns, tls);
      r.signals == AnalyzeHeuristics(Some(hostname)).details + [MalformedMessage] + tls.details
  {
  }
}

=== FILE: phishing_domain_intel.dfy ===
/** The structural and DNS checks of the phishing checker's domain
    intelligence (services/phishing/domain_intel.py). The Shannon entropy
    of the first label (a floating-point computation) is a parameter, and
    so is the outcome of the two DNS lookups with the classification of
    the resolved address. */
module PhishingDomainIntel {
  import opened Wrappers
  import opened Text
  import opened PhishingScored

  const MalformedMessage := "Malformed domain structure detected"
  const DnsFailedMessage := "DNS resolution failed (domain does not exist or unreachable)"
  const FastFluxMessage := "Inconsistent DNS resolution detected (possible fast-flux)"

  const SuspiciousTlds: seq<string> := [".zip", ".mov", ".tk", ".ml", ".ga", ".cf", ".gq", ".xyz", ".top"]

  /** Empty, leading or trailing dot, or an empty label inside. */
  predicate IsMalformed(domain: string) {
    |domain| == 0 || domain[0] == '.' || domain[|domain| - 1] == '.' || Contains(domain, "..")
  }

  /** `re.fullmatch(r"[0-9\-\.]+", domain)`. */
  predicate IsNumericLike(domain: string) {
    |domain| > 0 && forall i :: 0 <= i < |domain| ==> IsDigit(domain[i]) || domain[i] == '-' || domain[i] == '.'
  }

  predicate IsPunycode(domain: string) {
    IsPrefix("xn--", domain) || Contains(domain, ".xn--")
  }

  /** The first entry of `tlds` that `domain` ends with: the loop breaks at
      the first match. */
  function FirstSuffix(domain: string, tlds: seq<string>): (r: Option<string>)
    ensures r.None? <==> forall k :: 0 <= k < |tlds| ==> !IsSuffix(tlds[k], domain)
    ensures r.Some? ==> exists k :: 0 <= k < |tlds| && tlds[k] == r.value && IsSuffix(r.value, domain) && (forall m :: 0 <= m < k ==> !IsSuffix(tlds[m], domain))
  {
    if |tlds| == 0 then None
    else if IsSuffix(tlds[0], domain) then Some(tlds[0])
    else
      var r := FirstSuffix(domain, tlds[1..]);
      if r.Some? then
        var k :| 0 <= k < |tlds[1..]| && tlds[1..][k] == r.value && IsSuffix(r.value, domain) && (forall m :: 0 <= m < k ==> !IsSuffix(tlds[1..][m], domain));
        assert tlds[k + 1] == r.value;
        assert forall m :: 0 <= m < k + 1 ==> !IsSuffix(tlds[m], domain) by {
          forall m | 0 <= m < k + 1
            ensures !IsSuffix(tlds[m], domain)
          {
            if m > 0 {
              assert tlds[m] == tlds[1..][m - 1];
            }
          }
        }
        r
      else
        assert forall k :: 0 <= k < |tlds| ==> !IsSuffix(tlds[k], domain) by {
          forall k | 0 <= k < |tlds|
            ensures !IsSuffix(tlds[k], domain)
          {
            if k > 0 {
              assert tlds[k] == tlds[1..][k - 1];
            }
          }
        }
        r
  }

  /** The structural facts about a well-formed domain name. */
  datatype Structure = Structure(deep: bool, numeric: bool, punycode: bool, tld: Option<string>, highEntropy: bool)

  /** Reads the structural facts; `entropy` is the entropy of the first
      label. */
  function StructureOf(domain: string, entropy: real): Structure {
    var labels := Split(domain, '.');
    Structure(|labels| > 4, IsNumericLike(domain), IsPunycode(domain), FirstSuffix(domain, SuspiciousTlds),
      entropy > 4.0 && |labels[0]| > 10)
  }

  function StructuralHits(s: Structure): seq<Hit> {
    When(s.deep, 10, "Excessive subdomain depth detected") +
    When(s.numeric, 20, "Domain consists primarily of numeric characters") +
    When(s.punycode, 25, "Internationalized domain (punycode) detected") +
    (if s.tld.Some? then [(25, "High-risk top-level domain used: " + s.tld.value)] else []) +
    When(s.highEntropy, 20, "High entropy domain label (possible DGA-generated domain)")
  }

  /** The classification `ipaddress` gives the resolved address. */
  datatype AddressClass = AddressClass(isPrivate: bool, isLoopback: bool, isReserved: bool, isMulticast: bool)

  /** The DNS part: the first lookup fails, or gives an address, its
      class, and the outcome of the second lookup (absent when it
      raised). */
  datatype Dns = DnsFailed | Resolved(ip: string, addr: AddressClass, recheck: Option<string>)

  function DnsHits(dns: Dns): seq<Hit> {
    match dns
    case DnsFailed => [(35, DnsFailedMessage)]
    case Resolved(ip, c, recheck) =>
      [(0, "DNS resolved successfully to " + ip)] +
      When(c.isPrivate, 20, "Domain resolves to private IP address") +
      When(c.isLoopback, 25, "Domain resolves to loopback address") +
      When(c.isReserved, 15, "Domain resolves to reserved IP space") +
      When(c.isMulticast, 15, "Domain resolves to multicast address") +
      When(recheck.Some? && recheck.value != ip, 15, FastFluxMessage)
  }

  /** `analyze_domain`. */
  function AnalyzeDomain(domain: string, entropy: real, dns: Dns): Scored {
    if IsMalformed(domain) then Scored(30, [MalformedMessage])
    else ScoreOf(StructuralHits(StructureOf(domain, entropy)) + DnsHits(dns))
  }

  /** A malformed name gets exactly the malformed finding, whatever DNS
      would say. */
  lemma MalformedStops(domain: string, entropy: real, dns: Dns)
    requires IsMalformed(domain)
    ensures AnalyzeDomain(domain, entropy, dns) == Scored(30, [MalformedMessage])
  {
  }

  lemma EmptyIsMalformed(entropy: real, dns: Dns)
    ensures AnalyzeDomain("", entropy, dns) == Scored(30, [MalformedMessage])
  {
  }

  /** The structural score is the sum of the rule weights; the TLD bonus
      is counted at most once. */
  lemma StructuralScore(s: Structure)
    ensures SumWeights(StructuralHits(s)) ==
      (if s.deep then 10 else 0) + (if s.numeric then 20 else 0) + (if s.punycode then 25 else 0) +
      (if s.tld.Some? then 25 else 0) + (if s.highEntropy then 20 else 0)
  {
    var a := When(s.deep, 10, "Excessive subdomain depth detected");
    var b := When(s.numeric, 20, "Domain consists primarily of numeric characters");
    var c := When(s.punycode, 25, "Internationalized domain (punycode) detected");
    var d: seq<Hit> := if s.tld.Some? then [(25, "High-risk top-level domain used: " + s.tld.value)] else [];
    var e := When(s.highEntropy, 20, "High entropy domain label (possible DGA-generated domain)");
    SumWeightsAppend(a, b);
    SumWeightsAppend(a + b, c);
    SumWeightsAppend(a + b + c, d);
    SumWeightsAppend(a + b + c + d, e);
  }

  /** A failed lookup adds 35 and ends the analysis: its message is the
      only DNS message and the last one, so neither the address rules nor
      the fast-flux re-check contribute. */
  lemma DnsFailureStops(domain: string, entropy: real)
    requires !IsMalformed(domain)
    ensures var r := AnalyzeDomain(domain, entropy, DnsFailed);
      var s := StructuralHits(StructureOf(domain, entropy));
      && r.score == SumWeights(s) + 35
      && r.details == Messages(s) + [DnsFailedMessage]
  {
    var s := StructuralHits(StructureOf(domain, entropy));
    SumWeightsAppend(s, DnsHits(DnsFailed));
  }

  /** A resolved name scores the structural rules plus the address-class
      rules, plus 15 when the second lookup gives another address. */
  lemma ResolvedScore(dns: Dns)
    requires dns.Resolved?
    ensures SumWeights(DnsHits(dns)) ==
      (if dns.addr.isPrivate then 20 else 0) + (if dns.addr.isLoopback then 25 else 0) +
      (if dns.addr.isReserved then 15 else 0) + (if dns.addr.isMulticast then 15 else 0) +
      (if dns.recheck.Some? && dns.recheck.value != dns.ip then 15 else 0)
  {
    var c := dns.addr;
    var a: seq<Hit> := [(0, "DNS resolved successfully to " + dns.ip)];
    var b := When(c.isPrivate, 20, "Domain resolves to private IP address");
    var d := When(c.isLoopback, 25, "Domain resolves to loopback address");
    var e := When(c.isReserved, 15, "Domain resolves to reserved IP space");
    var f := When(c.isMulticast, 15, "Domain resolves to multicast address");
    var g := When(dns.recheck.Some? && dns.recheck.value != dns.ip, 15, FastFluxMessage);
    SumWeightsAppend(a, b);
    SumWeightsAppend(a + b, d);
    SumWeightsAppend(a + b + d, e);
    SumWeightsAppend(a + b + d + e, f);
    SumWeightsAppend(a + b + d + e + f, g);
  }

  /** The domain score lies between 0 and 190 (all structural rules and
      every address and fast-flux rule), and the analysis always reports
      at least one finding: the malformed finding, or a DNS outcome. */
  lemma DomainScoreBounds(domain: string, entropy: real, dns: Dns)
    ensures var r := AnalyzeDomain(domain, entropy, dns);
      0 <= r.score <= 190 && |r.details| >= 1
  {
    if !IsMalformed(domain) {
      var s := StructuralHits(StructureOf(domain, entropy));
      StructuralScore(StructureOf(domain, entropy));
      if dns.Resolved? {
        ResolvedScore(dns);
      }
      SumWeightsAppend(s, DnsHits(dns));
    }
  }

  /** More than four labels is the same as at least four dots. */
  lemma DepthIsDotCount(domain: string, entropy: real)
    ensures StructureOf(domain, entropy).deep <==> CountChar(domain, '.') >= 4
  {
  }
}

=== FILE: phishing_heuristics.dfy ===
/** The host-name heuristics of the phishing checker
    (services/phishing/heuristics.py). The two regular expressions are
    written out as predicates; `FindLetterRun` is the scan a regex engine
    performs for the first one. */
module PhishingHeuristics {
  import opened Wrappers
  import opened Text
  import opened PhishingScored

  predicate IsAsciiLower(c: char) {
    'a' <= c <= 'z'
  }

  const RunLength: nat := 10

  /** `s[i..i + n]` is made of ASCII lower-case letters. */
  predicate LowerRunAt(s: string, i: nat, n: nat) {
    i + n <= |s| && forall k :: i <= k < i + n ==> IsAsciiLower(s[k])
  }

  /** `re.search(r"[a-z]{10,}", s)`: some ten consecutive characters are
      ASCII lower-case letters (a longer run contains such a window). */
  predicate HasLetterRun(s: string) {
    exists i: nat | i < |s| :: LowerRunAt(s, i, RunLength)
  }

  /** The scan for a run: track the length of the current run of letters
      and stop caring once it reaches ten. */
  method FindLetterRun(s: string) returns (found: bool)
    ensures found <==> HasLetterRun(s)
  {
    found := false;
    var run := 0;
    var i := 0;
    while i < |s|
      invariant 0 <= i <= |s| && 0 <= run <= i
      invariant forall k :: i - run <= k < i ==> IsAsciiLower(s[k])
      invariant i - run > 0 ==> !IsAsciiLower(s[i - run - 1])
      invariant found <==> exists j: nat :: j + RunLength <= i && LowerRunAt(s, j, RunLength)
    {
      if IsAsciiLower(s[i]) {
        run := run + 1;
      } else {
        run := 0;
      }
      if run >= RunLength {
        found := true;
        assert LowerRunAt(s, i + 1 - RunLength, RunLength);
      } else if i + 1 >= RunLength {
        var j := i + 1 - RunLength;
        assert !IsAsciiLower(s[i - run]);
        assert !LowerRunAt(s, j, RunLength);
      }
      i := i + 1;
    }
    if HasLetterRun(s) {
      var j: nat :| j < |s| && LowerRunAt(s, j, RunLength);
      assert j + RunLength <= i;
    }
  }

  /** `re.match(r"^\d+\.\d+\.\d+\.\d+$", s)`: four non-empty digit groups
      separated by dots; `$` also matches before one final newline. */
  predicate IsDottedQuadCore(s: string) {
    var parts := Split(s, '.');
    |parts| == 4 && forall k :: 0 <= k < 4 ==> |parts[k]| > 0 && AllDigits(parts[k])
  }

  predicate IsDottedQuad(s: string) {
    IsDottedQuadCore(s) || (|s| > 0 && s[|s| - 1] == '\n' && IsDottedQuadCore(s[..|s| - 1]))
  }

  const LongDomainDetail := "[HEURISTIC] Unusually long domain"
  const RandomDetail := "[HEURISTIC] Randomized domain string"
  const HyphenDetail := "[HEURISTIC] Excessive hyphens in domain"
  const IpDetail := "[HEURISTIC] IP-based URL"

  /** Which of the four rules a host name triggers. */
  datatype HostFlags = HostFlags(long: bool, random: bool, hyphens: bool, ipBased: bool)

  function FlagsOf(domain: string): HostFlags {
    HostFlags(|domain| > 35, HasLetterRun(ToLower(domain)), CountChar(domain, '-') >= 2, IsDottedQuad(domain))
  }

  /** The triggered rules in rule order, each with its weight and
      message. */
  function Triggered(f: HostFlags): seq<Hit> {
    When(f.long, 15, LongDomainDetail) + When(f.random, 20, RandomDetail) +
    When(f.hyphens, 10, HyphenDetail) + When(f.ipBased, 30, IpDetail)
  }

  /** The score is the sum of the triggered weights and the details are
      their messages, one per triggered rule, in rule order. */
  function ScoreFlags(f: HostFlags): (r: Scored)
    ensures r.score == (if f.long then 15 else 0) + (if f.random then 20 else 0) +
      (if f.hyphens then 10 else 0) + (if f.ipBased then 30 else 0)
    ensures r.details == Messages(Triggered(f))
    ensures 0 <= r.score <= 75
    ensures r.score == 0 <==> |r.details| == 0
  {
    var t := Triggered(f);
    SumWeightsAppend(When(f.long, 15, LongDomainDetail), When(f.random, 20, RandomDetail));
    SumWeightsAppend(When(f.long, 15, LongDomainDetail) + When(f.random, 20, RandomDetail), When(f.hyphens, 10, HyphenDetail));
    SumWeightsAppend(When(f.long, 15, LongDomainDetail) + When(f.random, 20, RandomDetail) + When(f.hyphens, 10, HyphenDetail),
      When(f.ipBased, 30, IpDetail));
    Scored(SumWeights(t), Messages(t))
  }

  /** `analyze_heuristics` on the parsed URL's host name (absent reads as
      the empty string). */
  function AnalyzeHeuristics(hostname: Option<string>): Scored {
    ScoreFlags(FlagsOf(hostname.GetOr("")))
  }

  /** The IP rule's message is last exactly when the host is a dotted
      quad, and the long-domain message first exactly when the host is
      longer than 35 characters. */
  lemma HeuristicsMessageOrder(f: HostFlags)
    ensures var d := ScoreFlags(f).details;
      && (f.ipBased <==> |d| > 0 && d[|d| - 1] == IpDetail)
      && (f.long <==> |d| > 0 && d[0] == LongDomainDetail)
  {
  }

  /** An absent host name scores nothing. */
  lemma NoHostScoresZero()
    ensures AnalyzeHeuristics(None) == Scored(0, [])
  {
    assert Split("", '.') == [""];
    assert !IsDottedQuad("");
    assert !HasLetterRun(ToLower(""));
  }
}

=== FILE: phishing_html.dfy ===
/** The page-content analysis of the phishing checker
    (services/phishing/html_analysis.py): the flags `AdvancedHTMLParser`
    raises while it is fed a page, and the score `analyze_html` derives
    from them and from keywords in the page text. The HTTP fetch, the
    tokenisation of the page into start tags and text, and URL parsing
    and joining are parameters. */
module PhishingHtml {
  import opened Wrappers
  import opened Text
  import opened Seqs
  import opened PhishingScored

  /** What the tokeniser reports: a start tag with its attributes in
      source order, or a run of text. */
  datatype Event = StartTag(tag: string, attrs: seq<(string, string)>) | Data(text: string)

  /** `dict(attrs).get(name, default)`: the last occurrence of a
      duplicated attribute wins. */
  function AttrGet(attrs: seq<(string, string)>, name: string, default: string): (v: string)
    ensures (forall k :: 0 <= k < |attrs| ==> attrs[k].0 != name) ==> v == default
    ensures v != default ==> exists k :: 0 <= k < |attrs| && attrs[k] == (name, v)
    ensures (exists k :: 0 <= k < |attrs| && attrs[k].0 == name) ==>
      exists k :: 0 <= k < |attrs| && attrs[k] == (name, v) && forall m :: k < m < |attrs| ==> attrs[m].0 != name
    decreases |attrs|
  {
    if |attrs| == 0 then default
    else if attrs[|attrs| - 1].0 == name then attrs[|attrs| - 1].1
    else
      var n := |attrs| - 1;
      var v := AttrGet(attrs[..n], name, default);
      assert forall k :: 0 <= k < n ==> attrs[..n][k] == attrs[k];
      v
  }

  /** The host name and scheme `urlparse` finds in a URL. */
  datatype UrlParts = UrlParts(hostname: Option<string>, scheme: string)

  /** The URL oracles: `resolveAction(pageHost, action)` parses the form
      action joined onto `https://<pageHost>`, `parseSrc` parses a script
      source. */
  datatype UrlOracles = UrlOracles(resolveAction: (Option<string>, string) -> UrlParts, parseSrc: string -> UrlParts)

  /** A truthy host name other than the page's. */
  predicate ForeignHost(h: Option<string>, pageHost: Option<string>) {
    h.Some? && |h.value| > 0 && (pageHost.None? || h.value != pageHost.value)
  }

  /** The parser's flags. */
  datatype ParserState = ParserState(
    hasPassword: bool,
    externalForm: bool,
    insecureForm: bool,
    hiddenIframe: bool,
    externalScripts: nat,
    jsRedirect: bool)

  const Initial := ParserState(false, false, false, false, 0, false)

  // The per-event predicates, one per flag.

  predicate IsPasswordInput(e: Event) {
    e.StartTag? && e.tag == "input" && ToLower(AttrGet(e.attrs, "type", "")) == "password"
  }

  function FormAction(e: Event, pageHost: Option<string>, u: UrlOracles): Option<UrlParts> {
    if e.StartTag? && e.tag == "form" && |AttrGet(e.attrs, "action", "")| > 0
    then Some(u.resolveAction(pageHost, AttrGet(e.attrs, "action", "")))
    else None
  }

  predicate IsExternalForm(e: Event, pageHost: Option<string>, u: UrlOracles) {
    var a := FormAction(e, pageHost, u);
    a.Some? && ForeignHost(a.value.hostname, pageHost)
  }

  predicate IsInsecureForm(e: Event, pageHost: Option<string>, u: UrlOracles) {
    var a := FormAction(e, pageHost, u);
    a.Some? && a.value.scheme == "http"
  }

  predicate IsHiddenIframe(e: Event) {
    e.StartTag? && e.tag == "iframe" &&
    (Contains(ToLower(AttrGet(e.attrs, "style", "")), "display:none") ||
     AttrGet(e.attrs, "width", "") == "0" || AttrGet(e.attrs, "height", "") == "0")
  }

  predicate IsExternalScript(e: Event, pageHost: Option<string>, u: UrlOracles) {
    e.StartTag? && e.tag == "script" && |AttrGet(e.attrs, "src", "")| > 0 &&
    ForeignHost(u.parseSrc(AttrGet(e.attrs, "src", "")).hostname, pageHost)
  }

  predicate IsRedirectScript(e: Event) {
    e.Data? && (Contains(ToLower(e.text), "window.location") || Contains(ToLower(e.text), "document.location"))
  }

  /** `handle_starttag` and `handle_data`: flags only ever go up. */
  function Step(s: ParserState, e: Event, pageHost: Option<string>, u: UrlOracles): ParserState {
    ParserState(
      s.hasPassword || IsPasswordInput(e),
      s.externalForm || IsExternalForm(e, pageHost, u),
      s.insecureForm || IsInsecureForm(e, pageHost, u),
      s.hiddenIframe || IsHiddenIframe(e),
      s.externalScripts + (if IsExternalScript(e, pageHost, u) then 1 else 0),
      s.jsRedirect || IsRedirectScript(e))
  }

  /** The state after feeding `events` one by one. */
  function Feed(events: seq<Event>, pageHost: Option<string>, u: UrlOracles): ParserState
    decreases |events|
  {
    if |events| == 0 then Initial
    else Step(Feed(events[..|events| - 1], pageHost, u), events[|events| - 1], pageHost, u)
  }

  /** `parser.feed(html)` over the tokenised page. */
  method FeedAll(events: seq<Event>, pageHost: Option<string>, u: UrlOracles) returns (s: ParserState)
    ensures s == Feed(events, pageHost, u)
  {
    s := Initial;
    var i := 0;
    while i < |events|
      invariant 0 <= i <= |events|
      invariant s == Feed(events[..i], pageHost, u)
    {
      assert events[..i + 1][..i] == events[..i];
      s := Step(s, events[i], pageHost, u);
      i := i + 1;
    }
    assert events[..i] == events;
  }

  /** Whether some event of `events` satisfies `p`, computed as the
      parser does: one event at a time, never lowering the flag. */
  function Raised(p: Event -> bool, events: seq<Event>): bool
    decreases |events|
  {
    if |events| == 0 then false
    else Raised(p, events[..|events| - 1]) || p(events[|events| - 1])
  }

  lemma {:induction false} RaisedExists(p: Event -> bool, events: seq<Event>)
    ensures Raised(p, events) <==> exists k :: 0 <= k < |events| && p(events[k])
    decreases |events|
  {
    if |events| > 0 {
      var n := |events| - 1;
      RaisedExists(p, events[..n]);
      if exists k :: 0 <= k < |events| && p(events[k]) {
        var k :| 0 <= k < |events| && p(events[k]);
        if k < n {
          assert events[..n][k] == events[k];
        }
      }
      if Raised(p, events[..n]) {
        var k :| 0 <= k < n && p(events[..n][k]);
        assert events[k] == events[..n][k];
      }
    }
  }

  lemma {:induction false} FeedRaises(events: seq<Event>, pageHost: Option<string>, u: UrlOracles)
    ensures var s := Feed(events, pageHost, u);
      && s.hasPassword == Raised(IsPasswordInput, events)
      && s.externalForm == Raised(e => IsExternalForm(e, pageHost, u), events)
      && s.insecureForm == Raised(e => IsInsecureForm(e, pageHost, u), events)
      && s.hiddenIframe == Raised(IsHiddenIframe, events)
      && s.jsRedirect == Raised(IsRedirectScript, events)
    decreases |events|
  {
    if |events| > 0 {
      FeedRaises(events[..|events| - 1], pageHost, u);
    }
  }

  /** Each boolean flag is raised exactly when some event triggers it. */
  lemma FeedFlags(events: seq<Event>, pageHost: Option<string>, u: UrlOracles)
    ensures var s := Feed(events, pageHost, u);
      && (s.hasPassword <==> exists k :: 0 <= k < |events| && IsPasswordInput(events[k]))
      && (s.externalForm <==> exists k :: 0 <= k < |events| && IsExternalForm(events[k], pageHost, u))
      && (s.insecureForm <==> exists k :: 0 <= k < |events| && IsInsecureForm(events[k], pageHost, u))
      && (s.hiddenIframe <==> exists k :: 0 <= k < |events| && IsHiddenIframe(events[k]))
      && (s.jsRedirect <==> exists k :: 0 <= k < |events| && IsRedirectScript(events[k]))
  {
    FeedRaises(events, pageHost, u);
    RaisedExists(IsPasswordInput, events);
    RaisedExists(e => IsExternalForm(e, pageHost, u), events);
    RaisedExists(e => IsInsecureForm(e, pageHost, u), events);
    RaisedExists(IsHiddenIframe, events);
    RaisedExists(IsRedirectScript, events);
  }

  /** The script counter counts the external scripts. */
  lemma {:induction false} FeedCountsScripts(events: seq<Event>, pageHost: Option<string>, u: UrlOracles)
    ensures Feed(events, pageHost, u).externalScripts == CountWhere(e => IsExternalScript(e, pageHost, u), events)
    decreases |events|
  {
    if |events| > 0 {
      var n := |events| - 1;
      FeedCountsScripts(events[..n], pageHost, u);
      CountAppend(e => IsExternalScript(e, pageHost, u), events[..n], [events[n]]);
      assert events[..n] + [events[n]] == events;
    }
  }

  // ---------------------------------------------------------------------
  // analyze_html

  const SuspiciousKeywords: seq<string> := [
    "verify", "account suspended", "update your account", "confirm identity",
    "security alert", "unusual activity", "login to continue", "banking verification"]

  const PasswordFinding := "Password input field detected"
  const ExternalFormFinding := "Form submits credentials to external domain"
  const InsecureFormFinding := "Form submits over insecure HTTP"
  const HiddenIframeFinding := "Hidden iframe detected"
  const ScriptsFinding := "Multiple external scripts loaded"
  const RedirectFinding := "JavaScript-based redirection detected"

  function FlagHits(s: ParserState): seq<Hit> {
    When(s.hasPassword, 35, PasswordFinding) +
    When(s.externalForm, 40, ExternalFormFinding) +
    When(s.insecureForm, 25, InsecureFormFinding) +
    When(s.hiddenIframe, 20, HiddenIframeFinding) +
    When(s.externalScripts > 3, 15, ScriptsFinding) +
    When(s.jsRedirect, 15, RedirectFinding)
  }

  /** One hit per keyword found in the lower-cased page, in list
      order. */
  function KeywordHits(lowerHtml: string, keywords: seq<string>): seq<Hit> {
    if |keywords| == 0 then []
    else
      When(Contains(lowerHtml, keywords[0]), 10, "Phishing-related keyword detected: '" + keywords[0] + "'") +
      KeywordHits(lowerHtml, keywords[1..])
  }

  /** The outcome of the HTTP fetch: an exception, or a status and the
      decoded body. */
  datatype Fetch = FetchFailed | Response(status: int, html: string)

  /** `analyze_html`; `tokenize` is the HTML tokeniser and `pageHost`
      the host name of the requested URL. */
  function AnalyzeHtml(fetch: Fetch, pageHost: Option<string>, tokenize: string -> seq<Event>, u: UrlOracles): Scored {
    if fetch.FetchFailed? || fetch.status != 200 then Scored(0, [])
    else
      var s := Feed(tokenize(fetch.html), pageHost, u);
      ScoreOf(FlagHits(s) + KeywordHits(ToLower(fetch.html), SuspiciousKeywords))
  }

  /** A failed fetch or a non-200 status scores nothing. */
  lemma FetchFailureScoresZero(fetch: Fetch, pageHost: Option<string>, tokenize: string -> seq<Event>, u: UrlOracles)
    requires fetch.FetchFailed? || fetch.status != 200
    ensures AnalyzeHtml(fetch, pageHost, tokenize, u) == Scored(0, [])
  {
  }

  lemma FlagScore(s: ParserState)
    ensures SumWeights(FlagHits(s)) ==
      (if s.hasPassword then 35 else 0) + (if s.externalForm then 40 else 0) + (if s.insecureForm then 25 else 0) +
      (if s.hiddenIframe then 20 else 0) + (if s.externalScripts > 3 then 15 else 0) + (if s.jsRedirect then 15 else 0)
  {
    var a := When(s.hasPassword, 35, PasswordFinding);
    var b := When(s.externalForm, 40, ExternalFormFinding);
    var c := When(s.insecureForm, 25, InsecureFormFinding);
    var d := When(s.hiddenIframe, 20, HiddenIframeFinding);
    var e := When(s.externalScripts > 3, 15, ScriptsFinding);
    var f := When(s.jsRedirect, 15, RedirectFinding);
    SumWeightsAppend(a, b);
    SumWeightsAppend(a + b, c);
    SumWeightsAppend(a + b + c, d);
    SumWeightsAppend(a + b + c + d, e);
    SumWeightsAppend(a + b + c + d + e, f);
  }

  /** Each keyword present adds 10 and one finding. */
  lemma {:induction false} KeywordScore(lowerHtml: string, keywords: seq<string>)
    ensures SumWeights(KeywordHits(lowerHtml, keywords)) == 10 * CountWhere(k => Contains(lowerHtml, k), keywords)
    ensures |KeywordHits(lowerHtml, keywords)| == CountWhere(k => Contains(lowerHtml, k), keywords)
    decreases |keywords|
  {
    if |keywords| > 0 {
      KeywordScore(lowerHtml, keywords[1..]);
      var first := When(Contains(lowerHtml, keywords[0]), 10, "Phishing-related keyword detected: '" + keywords[0] + "'");
      SumWeightsAppend(first, KeywordHits(lowerHtml, keywords[1..]));
    }
  }

  /** On a fetched page the score is the flag weights plus 10 per keyword
      present, with one finding per contribution, and it is between 0 and
      230. */
  lemma HtmlScore(html: string, pageHost: Option<string>, tokenize: string -> seq<Event>, u: UrlOracles)
    ensures var r := AnalyzeHtml(Response(200, html), pageHost, tokenize, u);
      var s := Feed(tokenize(html), pageHost, u);
      var found := CountWhere(k => Contains(ToLower(html), k), SuspiciousKeywords);
      && r.score == SumWeights(FlagHits(s)) + 10 * found
      && |r.details| == |FlagHits(s)| + found
      && 0 <= r.score <= 230
  {
    var s := Feed(tokenize(html), pageHost, u);
    FlagScore(s);
    KeywordScore(ToLower(html), SuspiciousKeywords);
    SumWeightsAppend(FlagHits(s), KeywordHits(ToLower(html), SuspiciousKeywords));
  }

  /** Every keyword finding is longer than the password finding, so none
      is mistaken for it. */
  lemma {:induction false} KeywordFindingsLong(lowerHtml: string, keywords: seq<string>)
    ensures forall k :: 0 <= k < |KeywordHits(lowerHtml, keywords)| ==> |KeywordHits(lowerHtml, keywords)[k].1| > |PasswordFinding|
    decreases |keywords|
  {
    if |keywords| > 0 {
      KeywordFindingsLong(lowerHtml, keywords[1..]);
    }
  }

  /** The first finding is the password finding exactly when some input
      field has type password (in any letter case). */
  lemma PasswordFindingFirst(html: string, pageHost: Option<string>, tokenize: string -> seq<Event>, u: UrlOracles)
    ensures var r := AnalyzeHtml(Response(200, html), pageHost, tokenize, u);
      var events := tokenize(html);
      (exists k :: 0 <= k < |events| && IsPasswordInput(events[k])) <==> |r.details| > 0 && r.details[0] == PasswordFinding
  {
    var s := Feed(tokenize(html), pageHost, u);
    FeedFlags(tokenize(html), pageHost, u);
    if !s.hasPassword {
      var flags := FlagHits(s);
      var keys := KeywordHits(ToLower(html), SuspiciousKeywords);
      KeywordFindingsLong(ToLower(html), SuspiciousKeywords);
      if |flags| == 0 && |keys| > 0 {
        assert (flags + keys)[0] == keys[0];
      }
    }
  }

  /** An iframe is hidden by a zero width or height regardless of its
      style, and a visible style with non-zero sizes never hides it. */
  lemma HiddenIframeCases(attrs: seq<(string, string)>)
    ensures AttrGet(attrs, "width", "") == "0" ==> IsHiddenIframe(StartTag("iframe", attrs))
    ensures (!Contains(ToLower(AttrGet(attrs, "style", "")), "display:none") && AttrGet(attrs, "width", "") != "0" && AttrGet(attrs, "height", "") != "0") ==> !IsHiddenIframe(StartTag("iframe", attrs))
  {
  }

  /** A script served from the page's own host is not external. */
  lemma SameHostScriptNotExternal(e: Event, host: string, u: UrlOracles)
    requires e.StartTag? && u.parseSrc(AttrGet(e.attrs, "src", "")).hostname == Some(host)
    ensures !IsExternalScript(e, Some(host), u)
  {
  }
}

=== FILE: phishing_render.dfy ===
/** The text report of the phishing checker: `render_output` in
    services/phishing/checker.py. */
module PhishingRender {
  import opened Wrappers
  import opened Text
  import opened PhishingChecker

  const Separator: string := Repeat('-', 70)
  const NoIndicatorsLine := "  - No malicious indicators detected"

  /** Python's `str` of an optional string. */
  function ShowOption(o: Option<string>): string {
    if o.Some? then o.value else "None"
  }

  function SignalLine(s: string): string {
    "  - " + s
  }

  /** The lines after " Signals:": one per signal, or the single
      no-indicators line. */
  function SignalLines(signals: seq<string>): (lines: seq<string>)
    ensures |signals| == 0 ==> lines == [NoIndicatorsLine]
    ensures |signals| > 0 ==> |lines| == |signals| && forall k :: 0 <= k < |signals| ==> lines[k] == SignalLine(signals[k])
  {
    if |signals| == 0 then [NoIndicatorsLine]
    else seq(|signals|, k requires 0 <= k < |signals| => SignalLine(signals[k]))
  }

  /** The title block. */
  const Banner: seq<string> := [Separator, " ShieldX SOC - Phishing Analysis Report", Separator]

  /** The twelve lines before the signals. */
  function Header(res: CheckResult): seq<string> {
    Banner + FieldLines(res)
  }

  function FieldLines(res: CheckResult): seq<string> {
    [" Engine        : " + res.engine,
     " Scan Time     : " + res.scanTime,
     " Input URL     : " + res.inputUrl,
     " Normalized    : " + ShowOption(res.normalizedUrl),
     "",
     " Risk Score    : " + IntToString(res.riskScore) + "/100",
     " Verdict       : " + res.verdict,
     "",
     " Signals:"]
  }

  /** The lines `render_output` joins: twelve header lines, the signal
      lines, and the closing separator. */
  function ReportLines(res: CheckResult): (lines: seq<string>)
    ensures |lines| == 13 + (if |res.signals| == 0 then 1 else |res.signals|)
    ensures lines[0] == Separator && lines[|lines| - 1] == Separator
    ensures |res.signals| == 0 ==> lines[12] == NoIndicatorsLine
    ensures |res.signals| > 0 ==> forall k :: 0 <= k < |res.signals| ==> lines[12 + k] == SignalLine(res.signals[k])
  {
    Header(res) + SignalLines(res.signals) + [Separator]
  }

  function RenderOutput(res: CheckResult): string {
    Join(ReportLines(res), "\n")
  }

  predicate NoNewline(s: string) {
    '\n' !in s
  }

  /** The printable fields carry no line break. */
  predicate SingleLineFields(res: CheckResult) {
    && NoNewline(res.engine) && NoNewline(res.scanTime) && NoNewline(res.inputUrl)
    && NoNewline(ShowOption(res.normalizedUrl)) && NoNewline(res.verdict)
    && forall k :: 0 <= k < |res.signals| ==> NoNewline(res.signals[k])
  }

  lemma IntToStringSingleLine(n: int)
    ensures NoNewline(IntToString(n))
  {
    var m: nat := if n < 0 then -n else n;
    var digits := NatToString(m);
    assert forall i :: 0 <= i < |digits| ==> IsDigit(digits[i]);
  }

  lemma SeparatorSingleLine()
    ensures NoNewline(Separator)
  {
    assert forall i :: 0 <= i < |Separator| ==> Separator[i] == '-';
  }

  lemma RiskLineSingleLine(n: int)
    ensures NoNewline(" Risk Score    : " + IntToString(n) + "/100")
  {
    IntToStringSingleLine(n);
  }

  predicate AllSingleLine(lines: seq<string>) {
    forall k :: 0 <= k < |lines| ==> NoNewline(lines[k])
  }

  lemma BannerSingleLine()
    ensures AllSingleLine(Banner)
  {
    SeparatorSingleLine();
  }

  lemma FieldLinesSingleLine(res: CheckResult)
    requires SingleLineFields(res)
    ensures AllSingleLine(FieldLines(res))
  {
    RiskLineSingleLine(res.riskScore);
    var f := FieldLines(res);
    forall k | 0 <= k < 9
      ensures NoNewline(f[k])
    {
      if k == 0 {} else if k == 1 {} else if k == 2 {} else if k == 3 {} else if k == 4 {}
      else if k == 5 {} else if k == 6 {} else if k == 7 {} else {}
    }
  }

  lemma AllSingleLineAppend(a: seq<string>, b: seq<string>)
    requires AllSingleLine(a) && AllSingleLine(b)
    ensures AllSingleLine(a + b)
  {
    forall k | 0 <= k < |a + b|
      ensures NoNewline((a + b)[k])
    {
      if k >= |a| {
        assert (a + b)[k] == b[k - |a|];
      }
    }
  }

  lemma SignalLinesSingleLine(signals: seq<string>)
    requires forall k :: 0 <= k < |signals| ==> NoNewline(signals[k])
    ensures AllSingleLine(SignalLines(signals))
  {
    var lines := SignalLines(signals);
    if |signals| > 0 {
      forall k | 0 <= k < |lines|
        ensures NoNewline(lines[k])
      {
        assert lines[k] == "  - " + signals[k];
      }
    }
  }

  /** When no field carries a line break, the rendered text splits back
      into exactly the report lines: 13 + max(1, number of signals) lines,
      the first and last the 70-dash separator. */
  lemma RenderOutputLines(res: CheckResult)
    requires SingleLineFields(res)
    ensures Split(RenderOutput(res), '\n') == ReportLines(res)
  {
    BannerSingleLine();
    FieldLinesSingleLine(res);
    AllSingleLineAppend(Banner, FieldLines(res));
    SignalLinesSingleLine(res.signals);
    AllSingleLineAppend(Header(res), SignalLines(res.signals));
    SeparatorSingleLine();
    AllSingleLineAppend(Header(res) + SignalLines(res.signals), [Separator]);
    SplitJoin(ReportLines(res), '\n');
  }
}

=== FILE: phishing_scored.dfy ===
/** Scores with their justifying messages, shared by the phishing
    scorers: each scorer collects the rules it triggered, in order, as
    (points, message) pairs; the score is the sum of the points and the
    messages are reported in the same order. */
module PhishingScored {

  /** A score with the messages that justify it. */
  datatype Scored = Scored(score: int, details: seq<string>)

  type Hit = (int, string)

  /** A rule's contribution: its weight and message when it fires. */
  function When(c: bool, points: int, detail: string): seq<Hit> {
    if c then [(points, detail)] else []
  }

  function SumWeights(t: seq<Hit>): int {
    if |t| == 0 then 0 else t[0].0 + SumWeights(t[1..])
  }

  function Messages(t: seq<Hit>): (m: seq<string>)
    ensures |m| == |t|
    ensures forall k :: 0 <= k < |t| ==> m[k] == t[k].1
  {
    seq(|t|, k requires 0 <= k < |t| => t[k].1)
  }

  function ScoreOf(t: seq<Hit>): Scored {
    Scored(SumWeights(t), Messages(t))
  }

  lemma {:induction false} SumWeightsAppend(a: seq<Hit>, b: seq<Hit>)
    ensures SumWeights(a + b) == SumWeights(a) + SumWeights(b)
    decreases |a|
  {
    if |a| == 0 {
      assert a + b == b;
    } else {
      assert (a + b)[1..] == a[1..] + b;
      SumWeightsAppend(a[1..], b);
    }
  }

  lemma MessagesAppend(a: seq<Hit>, b: seq<Hit>)
    ensures Messages(a + b) == Messages(a) + Messages(b)
  {
  }
}

=== FILE: phishing_typosquat.dfy ===
/** Brand look-alike detection of the phishing checker
    (services/phishing/typosquat.py). Unicode normalisation, the
    `SequenceMatcher` similarity ratio and the two-decimal rendering of
    that ratio are parameters. */
module PhishingTyposquat {
  import opened Text
  import opened Seqs
  import opened PhishingScored

  /** The trusted domains, in list order. */
  const LegitDomains: seq<string> := [
    "google.com", "bing.com", "yahoo.com", "duckduckgo.com",
    "gmail.com", "outlook.com", "hotmail.com", "proton.me", "icloud.com",
    "amazon.com", "aws.amazon.com", "azure.com", "microsoft.com",
    "cloudflare.com", "digitalocean.com",
    "facebook.com", "instagram.com", "twitter.com", "x.com",
    "linkedin.com", "tiktok.com", "snapchat.com",
    "paypal.com", "stripe.com", "visa.com", "mastercard.com",
    "americanexpress.com", "bankofamerica.com", "chase.com", "wellsfargo.com",
    "amazon.in", "ebay.com", "aliexpress.com", "flipkart.com",
    "github.com", "gitlab.com", "bitbucket.org",
    "salesforce.com", "slack.com", "zoom.us", "dropbox.com",
    "gov.in", "uidai.gov.in", "irs.gov", "gov.uk",
    "harvard.edu", "stanford.edu", "mit.edu"]

  /** `extract_base_domain`: the last two dot-separated labels, or the
      whole name when it has no dot. */
  function ExtractBaseDomain(domain: string): (base: string)
    ensures CountChar(domain, '.') == 0 ==> base == domain
  {
    var parts := Split(domain, '.');
    if |parts| >= 2 then Join(parts[|parts| - 2..], ".") else domain
  }

  /** The base is exactly the last two labels of the name: splitting it
      gives those labels back. */
  lemma BaseIsLastTwoLabels(domain: string)
    ensures var parts := Split(domain, '.');
      Split(ExtractBaseDomain(domain), '.') == (if |parts| >= 2 then parts[|parts| - 2..] else [domain])
  {
    var parts := Split(domain, '.');
    if |parts| >= 2 {
      SplitJoin(parts[|parts| - 2..], '.');
    } else {
      SplitNoSeparator(domain, '.');
    }
  }

  /** Taking the base twice changes nothing. */
  lemma BaseIdempotent(domain: string)
    ensures ExtractBaseDomain(ExtractBaseDomain(domain)) == ExtractBaseDomain(domain)
  {
    var parts := Split(domain, '.');
    BaseIsLastTwoLabels(domain);
    if |parts| >= 2 {
      var last := parts[|parts| - 2..];
      assert last[0..] == last;
    }
  }

  /** Prefixing a label to a dotted name keeps its base: a sub-domain
      of a trusted name (aws.amazon.com) has that name's base
      (amazon.com). */
  lemma SubdomainSharesBase(first: string, domain: string)
    requires '.' !in first && '.' in domain
    ensures ExtractBaseDomain(first + "." + domain) == ExtractBaseDomain(domain)
  {
    SplitCons(first, '.', domain);
    var parts := Split(domain, '.');
    var all := [first] + parts;
    assert all[|all| - 2..] == parts[|parts| - 2..];
  }

  /** The digit-for-letter substitution: 0 to o, then 1 to l. */
  function Substitute(s: string): (r: string)
    ensures |r| == |s|
    ensures '0' !in r && '1' !in r
  {
    ReplaceChar(ReplaceChar(s, '0', 'o'), '1', 'l')
  }

  predicate Similar(ratio: real) {
    0.85 <= ratio < 0.99
  }

  /** The similarity rule fires for `legit` on the cleaned name. */
  predicate ResemblesBrand(clean: string, ratio: (string, string) -> real, legit: string) {
    Similar(ratio(clean, ExtractBaseDomain(legit)))
  }

  /** The substitution rule fires for `legit` on the cleaned name. */
  predicate SubstitutesBrand(clean: string, legit: string) {
    Substitute(clean) == ExtractBaseDomain(legit)
  }

  /** What one trusted domain contributes: the similarity rule, then the
      substitution rule. */
  function LegitHits(clean: string, legit: string, ratio: (string, string) -> real, render: real -> string): seq<Hit> {
    var base := ExtractBaseDomain(legit);
    var r := ratio(clean, base);
    When(Similar(r), 30, "Domain closely resembles trusted brand '" + base + "' (similarity " + render(r) + ")") +
    When(Substitute(clean) == base, 35, "Numeric substitution detected resembling '" + base + "'")
  }

  /** The contributions of `legits` in list order. */
  function TyposquatHits(clean: string, legits: seq<string>, ratio: (string, string) -> real, render: real -> string): seq<Hit>
    decreases |legits|
  {
    if |legits| == 0 then []
    else
      var n := |legits| - 1;
      TyposquatHits(clean, legits[..n], ratio, render) + LegitHits(clean, legits[n], ratio, render)
  }

  /** One iteration of `detect_typosquat`'s loop: 0, 30, 35 or 65
      points, one message per rule that fires, 65 only when both do. */
  method CheckLegit(clean: string, legit: string, ratio: (string, string) -> real, render: real -> string)
    returns (points: int, messages: seq<string>)
    ensures Scored(points, messages) == ScoreOf(LegitHits(clean, legit, ratio, render))
    ensures points == (if ResemblesBrand(clean, ratio, legit) then 30 else 0) + (if SubstitutesBrand(clean, legit) then 35 else 0)
    ensures |messages| == (if ResemblesBrand(clean, ratio, legit) then 1 else 0) + (if SubstitutesBrand(clean, legit) then 1 else 0)
    ensures points in {0, 30, 35, 65}
    ensures points == 65 <==> ResemblesBrand(clean, ratio, legit) && SubstitutesBrand(clean, legit)
    ensures points == 0 <==> |messages| == 0
  {
    var legitClean := ExtractBaseDomain(legit);
    var r := ratio(clean, legitClean);
    points := 0;
    messages := [];
    var similarMessage := "Domain closely resembles trusted brand '" + legitClean + "' (similarity " + render(r) + ")";
    var substitutionMessage := "Numeric substitution detected resembling '" + legitClean + "'";
    if 0.85 <= r < 0.99 {
      messages := messages + [similarMessage];
      points := points + 30;
    }
    if Substitute(clean) == legitClean {
      messages := messages + [substitutionMessage];
      points := points + 35;
    }
    SumWeightsAppend(When(Similar(r), 30, similarMessage), When(Substitute(clean) == legitClean, 35, substitutionMessage));
  }

  /** The loop of `detect_typosquat` over a list of trusted domains. */
  method ScanLegit(clean: string, legits: seq<string>, ratio: (string, string) -> real, render: real -> string)
    returns (score: int, findings: seq<string>)
    ensures Scored(score, findings) == ScoreOf(TyposquatHits(clean, legits, ratio, render))
    ensures score == 30 * CountWhere(l => ResemblesBrand(clean, ratio, l), legits) + 35 * CountWhere(l => SubstitutesBrand(clean, l), legits)
  {
    score := 0;
    findings := [];
    var i := 0;
    while i < |legits|
      invariant 0 <= i <= |legits|
      invariant Scored(score, findings) == ScoreOf(TyposquatHits(clean, legits[..i], ratio, render))
    {
      var points, messages := CheckLegit(clean, legits[i], ratio, render);
      ghost var before := TyposquatHits(clean, legits[..i], ratio, render);
      ghost var step := LegitHits(clean, legits[i], ratio, render);
      assert legits[..i + 1][..i] == legits[..i];
      assert TyposquatHits(clean, legits[..i + 1], ratio, render) == before + step;
      SumWeightsAppend(before, step);
      MessagesAppend(before, step);
      score := score + points;
      findings := findings + messages;
      i := i + 1;
    }
    assert legits[..i] == legits;
    TyposquatScore(clean, legits, ratio, render);
  }

  /** `detect_typosquat`; `normalize` is the NFKD-to-ASCII lower-casing.
      The score in terms of rule counts is `ScanLegit`'s contract with the
      trusted list for `legits`. */
  method DetectTyposquat(domain: string, normalize: string -> string, ratio: (string, string) -> real, render: real -> string)
    returns (score: int, findings: seq<string>)
    ensures Scored(score, findings) == ScoreOf(TyposquatHits(ExtractBaseDomain(normalize(domain)), LegitDomains, ratio, render))
  {
    var clean := ExtractBaseDomain(normalize(domain));
    score, findings := ScanLegit(clean, LegitDomains, ratio, render);
  }

  /** Each trusted domain whose ratio lands in [0.85, 0.99) adds 30, and
      each whose base equals the substituted name adds 35; domains that
      share a base are counted once per list entry. */
  lemma {:induction false} TyposquatScore(clean: string, legits: seq<string>, ratio: (string, string) -> real, render: real -> string)
    ensures SumWeights(TyposquatHits(clean, legits, ratio, render)) ==
      30 * CountWhere(l => ResemblesBrand(clean, ratio, l), legits) + 35 * CountWhere(l => SubstitutesBrand(clean, l), legits)
    decreases |legits|
  {
    if |legits| > 0 {
      var n := |legits| - 1;
      var init := legits[..n];
      var last := legits[n];
      TyposquatScore(clean, init, ratio, render);
      assert init + [last] == legits;
      CountAppend(l => ResemblesBrand(clean, ratio, l), init, [last]);
      CountAppend(l => SubstitutesBrand(clean, l), init, [last]);
      var base := ExtractBaseDomain(last);
      var a := When(Similar(ratio(clean, base)), 30, "Domain closely resembles trusted brand '" + base + "' (similarity " + render(ratio(clean, base)) + ")");
      var b := When(Substitute(clean) == base, 35, "Numeric substitution detected resembling '" + base + "'");
      SumWeightsAppend(a, b);
      SumWeightsAppend(TyposquatHits(clean, init, ratio, render), a + b);
    }
  }

  /** A name identical to a trusted base (ratio 1.0) is not flagged by
      the similarity rule for that entry; a name with no digits is
      flagged by the substitution rule exactly when it equals the base. */
  lemma ExactMatchNotSimilar(clean: string, legit: string, ratio: (string, string) -> real)
    requires ratio(clean, ExtractBaseDomain(legit)) == 1.0
    ensures !ResemblesBrand(clean, ratio, legit)
  {
  }

  lemma SubstitutionWithoutDigits(clean: string, legit: string)
    requires '0' !in clean && '1' !in clean
    ensures SubstitutesBrand(clean, legit) <==> clean == ExtractBaseDomain(legit)
  {
    assert Substitute(clean) == clean;
  }

  /** The substitution rule catches digits standing in for letters. */
  lemma SubstitutionExample()
    ensures Substitute("g00g1e.com") == "google.com"
  {
  }
}

=== FILE: phishing_verdict.dfy ===
/** The verdict bands of the phishing checker
    (services/phishing/verdict.py). */
module PhishingVerdict {

  datatype Verdict = HighRisk | Suspicious | LowRisk | Safe

  function VerdictText(v: Verdict): string {
    match v
    case HighRisk => "HIGH RISK"
    case Suspicious => "SUSPICIOUS"
    case LowRisk => "LOW RISK"
    case Safe => "SAFE"
  }

  /** `finalize_verdict`: the first band whose lower bound the score
      reaches. */
  function FinalizeVerdict(score: int): Verdict {
    if score >= 80 then HighRisk
    else if score >= 50 then Suspicious
    else if score >= 20 then LowRisk
    else Safe
  }

  /** Severity order of verdicts, 0 for safe up to 3 for high risk. */
  function Level(v: Verdict): nat {
    match v
    case Safe => 0
    case LowRisk => 1
    case Suspicious => 2
    case HighRisk => 3
  }

  /** Each band in words. */
  lemma VerdictBands(score: int)
    ensures FinalizeVerdict(score) == HighRisk <==> score >= 80
    ensures FinalizeVerdict(score) == Suspicious <==> 50 <= score < 80
    ensures FinalizeVerdict(score) == LowRisk <==> 20 <= score < 50
    ensures FinalizeVerdict(score) == Safe <==> score < 20
  {
  }

  /** A higher score never gives a milder verdict. */
  lemma VerdictMonotone(a: int, b: int)
    requires a <= b
    ensures Level(FinalizeVerdict(a)) <= Level(FinalizeVerdict(b))
  {
  }

  /** Verdict texts are distinct. */
  lemma VerdictTextInjective(v: Verdict, w: Verdict)
    requires VerdictText(v) == VerdictText(w)
    ensures v == w
  {
  }
}

=== FILE: probe_escape.dfy ===
/** The probe shim of services/misconfig/c_engine/main.c: it runs a
    PowerShell probe, reads its output in `fgets` chunks and prints one
    JSON object `{"raw_probe_output":"..."}` whose string value is the
    probe output, escaped character by character.

    The shim as written escapes only `"` and newline and copies a
    backslash unchanged, so any backslash in the probe output (a Windows
    path, say) corrupts or invalidates the JSON value. `EscapeCharAsWritten`
    models that code; `EscapeChar` is the corrected encoder (it also
    escapes backslash and the other control characters) and the shim
    model `RunShim` uses it. */
module ProbeEscape {
  import opened Wrappers
  import opened JsonString

  // ---------------------------------------------------------------------
  // The encoder as written

  function EscapeCharAsWritten(c: char): string {
    if c == '"' then "\\\""
    else if c == '\n' then "\\n"
    else [c]
  }

  function EscapeAsWritten(s: string): string {
    if |s| == 0 then "" else EscapeCharAsWritten(s[0]) + EscapeAsWritten(s[1..])
  }

  /** Quote and newline are the only characters the shim rewrites: a
      backslash, a carriage return and every other character are copied. */
  lemma AsWrittenCopiesOthers(c: char)
    requires c != '"' && c != '\n'
    ensures EscapeAsWritten([c]) == [c]
  {
  }

  /** Per-character encoding distributes over concatenation, so escaping
      the `fgets` chunks one by one equals escaping their concatenation. */
  lemma {:induction false} EscapeAsWrittenAppend(a: string, b: string)
    ensures EscapeAsWritten(a + b) == EscapeAsWritten(a) + EscapeAsWritten(b)
    decreases |a|
  {
    if |a| == 0 {
      assert a + b == b;
    } else {
      assert (a + b)[1..] == a[1..] + b;
      EscapeAsWrittenAppend(a[1..], b);
    }
  }

  /** No raw newline survives the encoding. */
  lemma {:induction false} AsWrittenHasNoRawNewline(s: string)
    ensures '\n' !in EscapeAsWritten(s)
    decreases |s|
  {
    if |s| > 0 {
      AsWrittenHasNoRawNewline(s[1..]);
    }
  }

  /** The encoding as written is undone by a JSON reader only for text
      without backslashes and without control characters other than
      newline. */
  lemma {:induction false} AsWrittenRoundTrip(s: string, rest: string)
    requires forall i :: 0 <= i < |s| ==> s[i] != '\\' && (IsControl(s[i]) ==> s[i] == '\n')
    ensures ReadString(EscapeAsWritten(s) + "\"" + rest) == Some((s, rest))
    decreases |s|
  {
    if |s| == 0 {
      ReadPlain("", rest);
    } else {
      var tail := EscapeAsWritten(s[1..]) + "\"" + rest;
      AsWrittenRoundTrip(s[1..], rest);
      assert EscapeAsWritten(s) + "\"" + rest == EscapeCharAsWritten(s[0]) + tail;
      ReadEscaped(s[0], tail);
      assert [s[0]] + s[1..] == s;
    }
  }

  /** Reading one encoded character in front of `tail`. */
  lemma ReadEscaped(c: char, tail: string)
    requires c != '\\' && (IsControl(c) ==> c == '\n')
    ensures ReadString(EscapeCharAsWritten(c) + tail) == Prepend(c, ReadString(tail))
  {
    if c == '"' {
      assert ("\\\"" + tail)[2..] == tail;
    } else if c == '\n' {
      assert ("\\n" + tail)[2..] == tail;
    } else {
      ReadPlainChar(c, tail);
    }
  }

  /** The probe line `C:\new` (with a literal backslash) is read back as
      `C:`, a newline and `ew`: the backslash and the letter n are lost. */
  lemma AsWrittenCorruptsBackslash()
    ensures EscapeAsWritten("C:\\new") == "C:\\new"
    ensures ReadString(EscapeAsWritten("C:\\new") + "\"") == Some(("C:\new", ""))
  {
    var s := "C:\\new";
    AsWrittenCopies(s);
    var t := "\\new\"";
    ReadBackslashN();
    var u := s + "\"";
    assert u == ['C'] + ([':'] + t);
    ReadPlainChar(':', t);
    ReadPlainChar('C', [':'] + t);
    assert ['C'] + ([':'] + "\new") == "C:\new";
  }

  lemma ReadBackslashN()
    ensures ReadString("\\new\"") == Some(("\new", ""))
  {
    var t := "\\new\"";
    ReadPlain("ew", "");
    assert "ew" + "\"" + "" == t[2..];
    assert t[0] == '\\' && t[1] == 'n';
    assert SimpleEscape('n') == Some('\n');
    assert ReadString(t) == Prepend('\n', ReadString(t[2..]));
    assert ['\n'] + "ew" == "\new";
  }

  /** Text without quote or newline is copied verbatim. */
  lemma {:induction false} AsWrittenCopies(s: string)
    requires '"' !in s && '\n' !in s
    ensures EscapeAsWritten(s) == s
    decreases |s|
  {
    if |s| > 0 {
      AsWrittenCopies(s[1..]);
      assert [s[0]] + s[1..] == s;
    }
  }

  /** The probe line `C:\Q` makes the whole document unreadable JSON:
      `\Q` is no escape at all. */
  lemma AsWrittenInvalidEscape()
    ensures ReadString(EscapeAsWritten("C:\\Q") + "\"") == None
  {
    AsWrittenCopies("C:\\Q");
    var t := "\\Q\"";
    assert ReadString(t) == None;
    ReadPlainChar(':', t);
    ReadPlainChar('C', [':'] + t);
    assert "C:\\Q" + "\"" == ['C'] + ([':'] + t);
  }

  // ---------------------------------------------------------------------
  // The corrected encoder

  /** Quote, backslash and newline get their short escapes; any other
      control character becomes `\u00XX`; everything else is copied. */
  function EscapeChar(c: char): string {
    if c == '"' then "\\\""
    else if c == '\\' then "\\\\"
    else if c == '\n' then "\\n"
    else if IsControl(c) then "\\u00" + [HexDigit(c as int / 16), HexDigit(c as int % 16)]
    else [c]
  }

  function Escape(s: string): string {
    if |s| == 0 then "" else EscapeChar(s[0]) + Escape(s[1..])
  }

  lemma {:induction false} EscapeAppend(a: string, b: string)
    ensures Escape(a + b) == Escape(a) + Escape(b)
    decreases |a|
  {
    if |a| == 0 {
      assert a + b == b;
    } else {
      assert (a + b)[1..] == a[1..] + b;
      EscapeAppend(a[1..], b);
    }
  }

  lemma ReadEscapeChar(c: char, tail: string)
    ensures ReadString(EscapeChar(c) + tail) == Prepend(c, ReadString(tail))
  {
    if c == '"' || c == '\\' || c == '\n' {
      assert (EscapeChar(c) + tail)[2..] == tail;
    } else if IsControl(c) {
      var s := EscapeChar(c) + tail;
      assert s[2..6] == "00" + [HexDigit(c as int / 16), HexDigit(c as int % 16)];
      assert Hex4(s[2..6]) == Some(c as int);
      assert s[6..] == tail;
    } else {
      ReadPlainChar(c, tail);
    }
  }

  /** The corrected encoding is undone exactly by a JSON reader, for every
      text, and the reader stops right after the closing quote. */
  lemma {:induction false} EscapeRoundTrip(s: string, rest: string)
    ensures ReadString(Escape(s) + "\"" + rest) == Some((s, rest))
    decreases |s|
  {
    if |s| == 0 {
      ReadPlain("", rest);
    } else {
      var tail := Escape(s[1..]) + "\"" + rest;
      EscapeRoundTrip(s[1..], rest);
      assert Escape(s) + "\"" + rest == EscapeChar(s[0]) + tail;
      ReadEscapeChar(s[0], tail);
      assert [s[0]] + s[1..] == s;
    }
  }

  // ---------------------------------------------------------------------
  // The shim

  /** What the probe process gives the shim: a launch failure, or the
      chunks `fgets` returned, in order. */
  datatype ProbeRun = LaunchFailed | Chunks(chunks: seq<string>)

  datatype ShimResult = ShimResult(stdout: string, stderr: string, exitCode: int)

  const DocumentOpen: string := "{\"raw_probe_output\":\""
  const DocumentClose: string := "\"}"

  /** The part of a chunk the printing loop sees: it stops at the first
      NUL character. */
  function UntilNul(s: string): (r: string)
    ensures 0 as char !in r
    ensures 0 as char !in s ==> r == s
  {
    if |s| == 0 || s[0] == 0 as char then "" else [s[0]] + UntilNul(s[1..])
  }

  function Concat(chunks: seq<string>): string {
    if |chunks| == 0 then "" else chunks[0] + Concat(chunks[1..])
  }

  /** The printed body: the chunks' visible parts, escaped one by one. */
  function EscapeChunks(chunks: seq<string>): string {
    if |chunks| == 0 then "" else Escape(UntilNul(chunks[0])) + EscapeChunks(chunks[1..])
  }

  function EscapeChunksAsWritten(chunks: seq<string>): string {
    if |chunks| == 0 then "" else EscapeAsWritten(UntilNul(chunks[0])) + EscapeChunksAsWritten(chunks[1..])
  }

  function Visible(chunks: seq<string>): string {
    if |chunks| == 0 then "" else UntilNul(chunks[0]) + Visible(chunks[1..])
  }

  /** Escaping chunk by chunk equals escaping the concatenated visible
      text; with no NUL in the output that is the whole output. */
  lemma {:induction false} EscapeChunksIsEscapeOfText(chunks: seq<string>)
    ensures EscapeChunks(chunks) == Escape(Visible(chunks))
    ensures (forall k :: 0 <= k < |chunks| ==> 0 as char !in chunks[k]) ==> Visible(chunks) == Concat(chunks)
  {
    if |chunks| > 0 {
      EscapeChunksIsEscapeOfText(chunks[1..]);
      EscapeAppend(UntilNul(chunks[0]), Visible(chunks[1..]));
    }
  }

  /** The shim: exit 1 with a message on launch failure; otherwise the
      JSON document built from the chunks, exit 0. */
  function RunShim(run: ProbeRun): (r: ShimResult)
    ensures run.LaunchFailed? <==> r.exitCode == 1
    ensures run.LaunchFailed? ==> r.stdout == ""
    ensures run.Chunks? ==>
      |r.stdout| >= |DocumentOpen| && r.stdout[..|DocumentOpen|] == DocumentOpen &&
      ReadString(r.stdout[|DocumentOpen|..]) == Some((Visible(run.chunks), "}"))
  {
    match run
    case LaunchFailed => ShimResult("", "Failed to run PowerShell probe\n", 1)
    case Chunks(chunks) =>
      var body := EscapeChunks(chunks);
      EscapeChunksIsEscapeOfText(chunks);
      EscapeRoundTrip(Visible(chunks), "}");
      assert DocumentOpen + body + DocumentClose == DocumentOpen + (body + "\"" + "}");
      ShimResult(DocumentOpen + body + DocumentClose, "", 0)
  }

  /** The shim as written prints the same frame around the encoding as
      written; its value reads back only for backslash-free output. */
  function RunShimAsWritten(run: ProbeRun): (r: ShimResult)
    ensures run.LaunchFailed? <==> r.exitCode == 1
    ensures run.Chunks? ==> r.stdout == DocumentOpen + EscapeAsWritten(Visible(run.chunks)) + DocumentClose
  {
    match run
    case LaunchFailed => ShimResult("", "Failed to run PowerShell probe\n", 1)
    case Chunks(chunks) =>
      AsWrittenChunks(chunks);
      ShimResult(DocumentOpen + EscapeChunksAsWritten(chunks) + DocumentClose, "", 0)
  }

  lemma {:induction false} AsWrittenChunks(chunks: seq<string>)
    ensures EscapeChunksAsWritten(chunks) == EscapeAsWritten(Visible(chunks))
  {
    if |chunks| > 0 {
      AsWrittenChunks(chunks[1..]);
      EscapeAsWrittenAppend(UntilNul(chunks[0]), Visible(chunks[1..]));
    }
  }
}

=== FILE: seqs.dfy ===
/** Order-preserving filtering and counting over sequences. */
module Seqs {

  /** The elements of `s` satisfying `p`, in their original order. */
  function Filter<T>(p: T -> bool, s: seq<T>): (r: seq<T>)
    ensures |r| <= |s|
    ensures forall k :: 0 <= k < |r| ==> p(r[k]) && r[k] in s
  {
    if |s| == 0 then []
    else if p(s[0]) then [s[0]] + Filter(p, s[1..])
    else Filter(p, s[1..])
  }

  /** Number of elements of `s` satisfying `p`. */
  function CountWhere<T>(p: T -> bool, s: seq<T>): (n: nat)
    ensures n <= |s|
  {
    if |s| == 0 then 0
    else (if p(s[0]) then 1 else 0) + CountWhere(p, s[1..])
  }

  lemma {:induction false} FilterAppend<T>(p: T -> bool, a: seq<T>, b: seq<T>)
    ensures Filter(p, a + b) == Filter(p, a) + Filter(p, b)
    decreases |a|
  {
    if |a| > 0 {
      assert (a + b)[1..] == a[1..] + b;
      FilterAppend(p, a[1..], b);
    } else {
      assert a + b == b;
    }
  }

  lemma {:induction false} CountAppend<T>(p: T -> bool, a: seq<T>, b: seq<T>)
    ensures CountWhere(p, a + b) == CountWhere(p, a) + CountWhere(p, b)
    decreases |a|
  {
    if |a| > 0 {
      assert (a + b)[1..] == a[1..] + b;
      CountAppend(p, a[1..], b);
    } else {
      assert a + b == b;
    }
  }

  /** The count is the length of the filtered sequence. */
  lemma {:induction false} CountIsFilterLength<T>(p: T -> bool, s: seq<T>)
    ensures CountWhere(p, s) == |Filter(p, s)|
  {
    if |s| > 0 {
      CountIsFilterLength(p, s[1..]);
    }
  }

  /** Every element of `s` that satisfies `p` survives the filter. */
  lemma {:induction false} FilterKeeps<T>(p: T -> bool, s: seq<T>, x: T)
    requires x in s && p(x)
    ensures x in Filter(p, s)
  {
    if s[0] != x {
      assert x in s[1..];
      FilterKeeps(p, s[1..], x);
    }
  }

  /** The count is positive exactly when some element satisfies `p`. */
  lemma {:induction false} CountPositive<T>(p: T -> bool, s: seq<T>)
    ensures CountWhere(p, s) > 0 <==> exists k :: 0 <= k < |s| && p(s[k])
  {
    if |s| > 0 {
      CountPositive(p, s[1..]);
      if p(s[0]) {
      } else {
        if exists k :: 0 <= k < |s| && p(s[k]) {
          var k :| 0 <= k < |s| && p(s[k]);
          assert s[1..][k - 1] == s[k];
        }
      }
    }
  }

  /** `f` applied to each element satisfying `p`, in order: a filter
      followed by a map, written as the append-at-the-end loop that builds
      it. */
  function MapFilter<T, U>(p: T -> bool, f: T -> U, s: seq<T>): seq<U>
    decreases |s|
  {
    if |s| == 0 then []
    else
      var last := s[|s| - 1];
      MapFilter(p, f, s[..|s| - 1]) + (if p(last) then [f(last)] else [])
  }

  /** The loop's output corresponds one to one, in order, with the
      filtered elements. */
  lemma {:induction false} MapFilterMatch<T, U>(p: T -> bool, f: T -> U, s: seq<T>)
    ensures |MapFilter(p, f, s)| == |Filter(p, s)|
    ensures forall k :: 0 <= k < |Filter(p, s)| ==> MapFilter(p, f, s)[k] == f(Filter(p, s)[k])
    decreases |s|
  {
    if |s| > 0 {
      var n := |s| - 1;
      MapFilterMatch(p, f, s[..n]);
      FilterAppend(p, s[..n], [s[n]]);
      assert s[..n] + [s[n]] == s;
    }
  }

  /** Extending the input by one element extends the output by at most
      one element. */
  lemma MapFilterSnoc<T, U>(p: T -> bool, f: T -> U, s: seq<T>, x: T)
    ensures MapFilter(p, f, s + [x]) == MapFilter(p, f, s) + (if p(x) then [f(x)] else [])
  {
    assert (s + [x])[..|s|] == s;
  }

  /** Python `any` / Rust `Iterator::any`. */
  function Any<T>(p: T -> bool, s: seq<T>): bool {
    if |s| == 0 then false else p(s[0]) || Any(p, s[1..])
  }

  lemma {:induction false} AnyExists<T>(p: T -> bool, s: seq<T>)
    ensures Any(p, s) <==> exists k :: 0 <= k < |s| && p(s[k])
  {
    if |s| > 0 {
      AnyExists(p, s[1..]);
      if !p(s[0]) && exists k :: 0 <= k < |s| && p(s[k]) {
        var k :| 0 <= k < |s| && p(s[k]);
        assert s[1..][k - 1] == s[k];
      }
    }
  }
}

=== FILE: text.dfy ===
/** String primitives shared by every component: prefix, suffix and
    substring tests (C `strncmp`/`strstr`, Python `startswith`/`in`),
    ASCII case folding, splitting and joining on a separator, counting,
    character replacement and decimal rendering of integers. */
module Text {

  predicate IsPrefix(p: string, s: string) {
    |p| <= |s| && s[..|p|] == p
  }

  predicate IsSuffix(p: string, s: string) {
    |p| <= |s| && s[|s| - |p|..] == p
  }

  /** `sub` occurs in `s` starting at index `i`. */
  predicate OccursAt(s: string, sub: string, i: nat) {
    i + |sub| <= |s| && s[i..i + |sub|] == sub
  }

  /** Substring containment (`strstr(s, sub) != NULL`, Python `sub in s`). */
  predicate Contains(s: string, sub: string) {
    exists i: nat | i <= |s| :: OccursAt(s, sub, i)
  }

  lemma ContainsItself(s: string)
    ensures Contains(s, s)
  {
    assert OccursAt(s, s, 0);
  }

  lemma ContainsInConcat(a: string, sub: string, b: string)
    ensures Contains(a + sub + b, sub)
  {
    var s := a + sub + b;
    assert s[|a|..|a| + |sub|] == sub;
    assert OccursAt(s, sub, |a|);
  }

  lemma ContainsStart(sub: string, b: string)
    ensures Contains(sub + b, sub)
  {
    assert (sub + b)[0..|sub|] == sub;
    assert OccursAt(sub + b, sub, 0);
  }

  /** Containment survives putting text in front. */
  lemma ContainsAfter(a: string, s: string, sub: string)
    requires Contains(s, sub)
    ensures Contains(a + s, sub)
  {
    var i: nat :| i <= |s| && OccursAt(s, sub, i);
    assert (a + s)[|a| + i..|a| + i + |sub|] == s[i..i + |sub|];
    assert OccursAt(a + s, sub, |a| + i);
  }

  /** A string that contains a character outside `sub` at every place is
      no witness: occurrence of `sub` needs its first character. */
  lemma NotContainsChar(s: string, sub: string)
    requires |sub| > 0 && sub[0] !in s
    ensures !Contains(s, sub)
  {
    forall i: nat | i <= |s|
      ensures !OccursAt(s, sub, i)
    {
      if i + |sub| <= |s| {
        assert s[i..i + |sub|][0] == s[i];
      }
    }
  }

  /** ASCII case folding. Python's `str.lower()` also folds non-ASCII
      letters; every string this model lowers is compared against ASCII
      patterns only. */
  function LowerChar(c: char): char {
    if 'A' <= c <= 'Z' then (c as int + 32) as char else c
  }

  function ToLower(s: string): (r: string)
    ensures |r| == |s|
    ensures forall i :: 0 <= i < |s| ==> r[i] == LowerChar(s[i])
  {
    seq(|s|, i requires 0 <= i < |s| => LowerChar(s[i]))
  }

  /** Number of occurrences of `c` in `s` (Python `s.count(c)`). */
  function CountChar(s: string, c: char): (n: nat)
    ensures n <= |s|
    ensures n == 0 <==> c !in s
  {
    if |s| == 0 then 0
    else (if s[0] == c then 1 else 0) + CountChar(s[1..], c)
  }

  /** Replace every `a` by `b` (Python `s.replace(a, b)` for one-character
      arguments). */
  function ReplaceChar(s: string, a: char, b: char): (r: string)
    ensures |r| == |s|
    ensures forall i :: 0 <= i < |s| ==> r[i] == (if s[i] == a then b else s[i])
  {
    seq(|s|, i requires 0 <= i < |s| => if s[i] == a then b else s[i])
  }

  /** `c` repeated `n` times (Python `c * n`). */
  function Repeat(c: char, n: nat): (r: string)
    ensures |r| == n
    ensures forall i :: 0 <= i < n ==> r[i] == c
  {
    seq(n, i => c)
  }

  // ---------------------------------------------------------------------
  // Splitting and joining

  /** Python `s.split(d)` for a one-character separator: the maximal
      pieces between separators, always at least one (possibly empty). */
  function Split(s: string, d: char): (parts: seq<string>)
    ensures |parts| >= 1
    ensures forall k :: 0 <= k < |parts| ==> d !in parts[k]
    ensures |parts| == CountChar(s, d) + 1
  {
    if |s| == 0 then [""]
    else
      var rest := Split(s[1..], d);
      if s[0] == d then [""] + rest
      else [[s[0]] + rest[0]] + rest[1..]
  }

  /** Python `sep.join(parts)`. */
  function Join(parts: seq<string>, sep: string): string {
    if |parts| == 0 then ""
    else if |parts| == 1 then parts[0]
    else parts[0] + sep + Join(parts[1..], sep)
  }

  /** Joining the pieces of a split with the separator restores the
      original string. */
  lemma {:induction false} JoinSplit(s: string, d: char)
    ensures Join(Split(s, d), [d]) == s
    decreases |s|
  {
    if |s| > 0 {
      var rest := Split(s[1..], d);
      JoinSplit(s[1..], d);
      assert s == [s[0]] + s[1..];
      if s[0] == d {
        JoinCons("", rest, [d]);
      } else {
        var head := [s[0]] + rest[0];
        if |rest| == 1 {
          assert Join([head], [d]) == head;
        } else {
          JoinCons(head, rest[1..], [d]);
          JoinCons(rest[0], rest[1..], [d]);
          assert [rest[0]] + rest[1..] == rest;
        }
      }
    }
  }

  lemma JoinCons(p: string, rest: seq<string>, sep: string)
    requires |rest| >= 1
    ensures Join([p] + rest, sep) == p + sep + Join(rest, sep)
  {
    assert ([p] + rest)[1..] == rest;
  }

  /** A separator-free piece followed by the separator splits off as the
      first part. */
  lemma {:induction false} SplitCons(p: string, d: char, rest: string)
    requires d !in p
    ensures Split(p + [d] + rest, d) == [p] + Split(rest, d)
    decreases |p|
  {
    var s := p + [d] + rest;
    if |p| == 0 {
      assert s == [d] + rest;
      assert s[1..] == rest;
    } else {
      assert s[1..] == p[1..] + [d] + rest;
      SplitCons(p[1..], d, rest);
      assert [p[0]] + p[1..] == p;
    }
  }

  /** A separator-free string splits into itself alone. */
  lemma {:induction false} SplitNoSeparator(p: string, d: char)
    requires d !in p
    ensures Split(p, d) == [p]
    decreases |p|
  {
    if |p| > 0 {
      SplitNoSeparator(p[1..], d);
      assert [p[0]] + p[1..] == p;
    }
  }

  /** Splitting a join of separator-free pieces gives the pieces back. */
  lemma {:induction false} SplitJoin(parts: seq<string>, d: char)
    requires |parts| >= 1
    requires forall k :: 0 <= k < |parts| ==> d !in parts[k]
    ensures Split(Join(parts, [d]), d) == parts
    decreases |parts|
  {
    if |parts| == 1 {
      SplitNoSeparator(parts[0], d);
    } else {
      SplitJoin(parts[1..], d);
      SplitCons(parts[0], d, Join(parts[1..], [d]));
      assert [parts[0]] + parts[1..] == parts;
    }
  }

  // ---------------------------------------------------------------------
  // Decimal rendering (C `%d`, Rust `{}`, Python f-strings on integers)

  function DigitChar(d: nat): char
    requires d < 10
  {
    "0123456789"[d]
  }

  predicate IsDigit(c: char) {
    '0' <= c <= '9'
  }

  predicate AllDigits(s: string) {
    forall i :: 0 <= i < |s| ==> IsDigit(s[i])
  }

  function NatToString(n: nat): (r: string)
    ensures |r| >= 1 && AllDigits(r)
  {
    if n < 10 then [DigitChar(n)]
    else NatToString(n / 10) + [DigitChar(n % 10)]
  }

  function IntToString(n: int): string {
    if n < 0 then "-" + NatToString(-n) else NatToString(n)
  }

  /** Value of a string of decimal digits. */
  function ParseDigits(s: string): nat
    requires AllDigits(s)
  {
    if |s| == 0 then 0
    else ParseDigits(s[..|s| - 1]) * 10 + (s[|s| - 1] as int - '0' as int)
  }

  /** Reading back the decimal rendering of `n` gives `n`: the rendering
      loses nothing, so distinct numbers render distinctly. */
  lemma {:induction false} ParseNatToString(n: nat)
    ensures ParseDigits(NatToString(n)) == n
  {
    if n >= 10 {
      ParseNatToString(n / 10);
      var r := NatToString(n);
      assert r[..|r| - 1] == NatToString(n / 10);
    }
  }

  lemma NatToStringInjective(m: nat, n: nat)
    requires NatToString(m) == NatToString(n)
    ensures m == n
  {
    ParseNatToString(m);
    ParseNatToString(n);
  }
}

=== FILE: wrappers.dfy ===
/** Optional values, as used for absent JSON keys, missing command-line
    values and lookups that find nothing. */
module Wrappers {

  datatype Option<+T> = None | Some(value: T) {

    /** The carried value, or `default` when there is none. */
    function GetOr(default: T): T {
      match this
      case Some(v) => v
      case None => default
    }
  }
}
